=== FILE: README.md ===
# invoicesplit — a Dafny model of the extraction core

invoicesplit turns PDF invoices and other documents into rows of named fields. A
*template* (an `ExtractionTemplate`) lists the fields to pull out. Each field has
a display name, a JSON key, a description, a type and format options. The
template is compiled into a prompt for a language model, and the model's JSON
reply becomes one row per document. The rows can be exported as CSV or as
tab-separated clipboard text. Templates live in the browser's `localStorage`.
They are written by hand in the template editor, or discovered by the discovery
wizard, which asks the model which fields a few sample documents share.

This project models that core as pure Dafny functions over immutable datatypes,
and proves what the code promises about them:

| module | models |
|---|---|
| `Strings`, `Fences` | The JavaScript string operations the code relies on: `trim`, `toLowerCase`, `indexOf`, `split`/`join`, `substring`, and the three-backtick fence. |
| `Types` | Fields, templates, extraction results, prompt versions, and the `localStorage` keys. |
| `Templates` | `lib/templates.ts`: the built-in template, `generateFieldKey`, the `localStorage` helpers and `createNewTemplate`. |
| `TemplateStorage` | `LocalTemplateStorage` in `lib/storage.ts`. |
| `UseTemplates` | The `useTemplates` hook: the page's copy of the template list beside the store. |
| `TemplateEditor` | The editor dialog's form, its field edits and `handleSave`. |
| `PromptEngineering` | `buildExtractionPrompt` and the other functions of `lib/prompt-engineering.ts`, including the `JSON.stringify` of the expected object and its inverse. |
| `ExtractInvoice` | The fixed-field extraction endpoint. |
| `Discovery` | The field-discovery endpoint. |
| `DiscoveryWizard`, `Highlights` | The discovery wizard's state changes, and the highlighting of sample values in a sample's text. |
| `ApiClient` | The browser-side client: one request per file, and the batch runner. |
| `Training` | Success rates, suggestions, average confidence and text snippets. |
| `MultiInvoiceResults` | Row selection, column order, and the CSV and clipboard exports, each with a reader that proves the export can be read back. |

Outside inputs are parameters:

- The clock (`Date.now()`) is a natural number `now`. An operation that reads it three times gets a `Stamps` record with one value per read, so the id and the two times may differ.
- The language model is a function `complete` from prompt to reply or error.
- `JSON.parse` of a model reply is a function `parse`. For discovery it says whether the reply is not JSON, is JSON on which the normalisation throws a `TypeError` (with that error's message), or is an array of entries. For extraction it gives any JSON value, or nothing when the reply is not JSON.
- The PDF reader's output is given as text items per page.
- Whether `localStorage.setItem` throws, and with what message, is a parameter `writeError`. `LocalTemplateStorage` reports the failure. The `lib/templates.ts` and `lib/prompt-engineering.ts` writers log it and leave the store as it was.
- "Running in a browser" is a boolean `inBrowser`.
- `localStorage` is a record with one slot per key. A slot is missing, unreadable, or holds a value.

## Model

| member | source | states |
|---|---|---|
| Templates.GenerateFieldKey | lib/templates.ts:134-140 | The key has only `[a-z0-9]` characters and is never longer than the name. |
| Templates.KeyIsKeptChars | lib/templates.ts:134-140 | The two regular-expression passes of `generateFieldKey` equal a one-pass reference definition. That definition keeps key characters, drops the first kept character after each run of other characters (upper-casing it only for the second pass to delete it), and keeps digits there. |
| Templates.KeyIdempotent | lib/templates.ts:134-140 | A generated key, fed back as a name, gives itself: keys are fixed points of `generateFieldKey`. |
| Templates.KeyOfKeyText | lib/templates.ts:134-140 | Text made only of `[a-z0-9]` is its own key. |
| Templates.KeyOfTwoWords | lib/templates.ts:134-140 | "word word" becomes both words lower-cased and concatenated, minus the first letter of the second word. The camel-case letter is lost. |
| Templates.KeyOfThreeTitleWords | lib/templates.ts:134-140 | Three capitalised words keep only the first word's initial, lower-cased. The other two lose their initials. |
| Templates.InvoiceNoExample | lib/templates.ts:135 | The comment's own example "Invoice NO." gives "invoiceo", not "invoiceNo". |
| Templates.CamelFieldKey | lib/templates.ts:134-140 | The corrected key, with the second pass deleting `[^a-zA-Z0-9]`, is no longer than the name and holds only `[a-z0-9]` characters and capitals. |
| Templates.AsWrittenDropsCapitals | lib/templates.ts:134-140 | The key as written equals the corrected camel-case key with its capitals deleted. The letters the code loses are exactly the ones the comment wants upper-cased. |
| Templates.CamelKeyKeepsEveryKeyChar | lib/templates.ts:134-140 | The corrected key, lower-cased, is every `[a-z0-9]` character of the lower-cased name in order. No letter of the name is lost. |
| Templates.CamelOfTwoWords | lib/templates.ts:134-140 | With the corrected key, "word word" becomes the first word lower-cased, then the second word's initial in upper case, then the rest of the second word lower-cased. |
| Templates.CamelInvoiceNoExample | lib/templates.ts:135 | The corrected key turns "Invoice NO." into "invoiceNo", as the comment says. |
| Templates.BuiltInKeysNotDerivable | lib/templates.ts:30-62 | None of the four built-in fields' keys is what `generateFieldKey` makes of its name. |
| Templates.LoadTemplates | lib/templates.ts:73-88 | The loaded list always contains the built-in template. A server-side call or an unreadable or missing slot gives just that template. A stored list that lacks it gets it prepended. |
| Templates.CustomTemplates | lib/templates.ts:95 | Exactly the templates whose id is not "default", in a list that no longer has the built-in. |
| Templates.SaveTemplates | lib/templates.ts:90-100 | In a browser, when the write succeeds, the slot holds the custom templates. On the server, or when `setItem` throws, the store is unchanged and nothing escapes. Other keys are never touched. |
| Templates.SaveThenLoad | lib/templates.ts:73-100 | Loading what was saved gives the built-in template followed by the saved custom templates. |
| Templates.GetActiveTemplateId | lib/templates.ts:102-110 | Never empty. The stored id when there is a non-empty one, "default" otherwise. |
| Templates.SetActiveTemplateId | lib/templates.ts:112-120 | In a browser, when the write succeeds, the active slot holds the id. On the server, or when `setItem` throws, the store is unchanged. Templates are untouched. |
| Templates.SetThenGetActive | lib/templates.ts:102-120 | A set id is the id read back, except that an empty one reads as "default". |
| Templates.CreateNewTemplate | lib/templates.ts:122-132 | An empty "document" template with the given name and description. Its id is "template-" followed by the first clock read, so never "default". Its creation and update times are the second and third reads. |
| Templates.NewTemplateSurvivesSave | lib/templates.ts:73-132 | A new template appended to the list and saved is loaded back at the end of the list, after the built-in template and the earlier custom ones. |
| Templates.CustomTemplatesAppend | lib/templates.ts:95 | Filtering out the built-in template distributes over concatenation, so list order is kept. |
| TemplateStorage.LoadTemplates | lib/storage.ts:24-35 | The stored list, or the empty list when nothing readable is stored. No built-in template is added. |
| TemplateStorage.Upsert | lib/storage.ts:39-49 | A new id is appended. An existing id is replaced in place at its first position, with the update time restamped. |
| TemplateStorage.SaveTemplate | lib/storage.ts:37-56 | A failed write rejects with its error. A successful one stores the upserted list and changes no other key. |
| TemplateStorage.UpsertKeepsIdsDistinct | lib/storage.ts:37-56 | Saving keeps ids pairwise distinct. It adds exactly the saved id, and grows the list only for a new id. |
| TemplateStorage.SaveThenFind | lib/storage.ts:37-56 | After a save, the first template with that id is the saved one, with the clock's update time when it replaced an entry. |
| TemplateStorage.SaveOverUnreadable | lib/storage.ts:24-51 | Saving over an unreadable list stores only the saved template. The old contents are lost. |
| TemplateStorage.DeleteTemplate | lib/storage.ts:58-71 | "default" is refused before any storage access. Otherwise a write error rejects. Success stores the list without that id. |
| TemplateStorage.DeleteRemovesId | lib/storage.ts:58-71 | After a delete the id is gone, and every other stored template is still there. |
| TemplateStorage.DeleteIdempotent | lib/storage.ts:58-71 | Deleting twice is deleting once. |
| TemplateStorage.GetActiveTemplateId | lib/storage.ts:73-79 | The stored active id exactly when one is stored. It is `null` otherwise, with no "default" fallback. |
| TemplateStorage.SetActiveTemplateId | lib/storage.ts:81-87 | The active slot holds the id unless the write fails, in which case the store is unchanged and no error escapes. The template, prompt-history and trained-instruction slots are never touched. |
| TemplateStorage.SetThenGetActive | lib/storage.ts:73-87 | A set id is read back, and the template list is unaffected. |
| UseTemplates.LoadData | hooks/useTemplates.ts:20-42 | The hook starts loaded, with the store's list and active id. |
| UseTemplates.ActiveTemplate | hooks/useTemplates.ts:44 | No template without a non-empty active id. Otherwise the first template with that id, and none exactly when no template has it. |
| UseTemplates.SaveTemplate | hooks/useTemplates.ts:46-59 | Resolves to true exactly when the store write succeeds. Then the template is last in the local list and the other entries are the old ones without its id. A failure changes nothing. |
| UseTemplates.SaveKeepsListInStep | hooks/useTemplates.ts:46-59 | After a save the local list holds the id once. If local and stored ids agreed before, they agree after. |
| UseTemplates.SetActiveTemplate | hooks/useTemplates.ts:80-91 | Always resolves to true and sets the local id. Only a non-empty id is written to the store. |
| UseTemplates.ActiveSurvivesReload | hooks/useTemplates.ts:80-91 | A non-empty active id that was set is what a reload reads. |
| UseTemplates.DeleteTemplate | hooks/useTemplates.ts:61-78 | Succeeds exactly for a non-default id with a working write. It drops the id locally, and clears a deleted active id locally only. |
| UseTemplates.DeletedActiveStaysGone | hooks/useTemplates.ts:61-78 | After deleting the active template the store still names it, yet after a reload no template is active. |
| UseTemplates.DuplicateTemplate | hooks/useTemplates.ts:93-106 | Nothing for an unknown id. Otherwise a copy of the first match with a " (Copy)" name, its fields, description and document type unchanged. The id "template-" and the creation and update times come from three separate clock reads. |
| UseTemplates.DuplicateThenSave | hooks/useTemplates.ts:46-106 | Saving a duplicate with a free id appends it to the stored list and keeps every earlier template. |
| TemplateEditor.InitialForm | components/TemplateEditor.tsx:21-26 | The form opens on the template's values. Only an empty document type falls back, to exactly "invoice". A new template opens blank. |
| TemplateEditor.AddField | components/TemplateEditor.tsx:30-40 | One unnamed field is appended after the unchanged existing ones. |
| TemplateEditor.UpdateField | components/TemplateEditor.tsx:42-52 | Only the edited field changes. A new name always brings its generated key, even over a key given in the same update. Every other member the update gives takes the given value, and every member it leaves out keeps its value. |
| TemplateEditor.RenameTwice | components/TemplateEditor.tsx:42-52 | Renaming twice is renaming once to the second name. |
| TemplateEditor.RenamedKeyIsStable | components/TemplateEditor.tsx:46-49 | A key from renaming is all `[a-z0-9]`, and renaming the field to its own key keeps it. |
| TemplateEditor.RemoveField | components/TemplateEditor.tsx:54-56 | The field at the index is spliced out. An index out of range changes nothing. |
| TemplateEditor.AddThenRemove | components/TemplateEditor.tsx:30-56 | Removing the field just added gives the list back. |
| TemplateEditor.HandleSave | components/TemplateEditor.tsx:58-87 | Checks the name, then the field count, then the field names, each with its own alert. It saves exactly when all pass: trimmed name and description, lower-cased type, and the edited template's id and creation time kept when present. Otherwise the id is "template-" followed by the first clock read, and the creation time is the second read. The update time is always the third read. |
| TemplateEditor.SavedIsClean | components/TemplateEditor.tsx:58-87 | Every saved template is clean: trimmed non-empty name, lower-case type, at least one field and all of them named. |
| TemplateEditor.ReopenAndSave | components/TemplateEditor.tsx:21-87 | Opening a clean template and saving without edits returns it, changed only in its update time. |
| TemplateEditor.AddedFieldBlocksSave | components/TemplateEditor.tsx:30-74 | A form with a just-added field is refused with "Please fill in all field names". |
| TemplateEditor.RenameDecidesSave | components/TemplateEditor.tsx:42-74 | When only one field can be unnamed, the form saves exactly when that field's new name is not blank. |
| PromptEngineering.ActiveFields | lib/prompt-engineering.ts:37-39 | Exactly the fields whose key is in the enabled set, or every field when no set is given. `field.enabled` is not consulted. |
| PromptEngineering.ActiveFieldsAppend | lib/prompt-engineering.ts:37-39 | The filter keeps field order: it distributes over concatenation. |
| PromptEngineering.TypeHint | lib/prompt-engineering.ts:50-71 | A date field gets its format, or "YYYY-MM-DD". A number field gets the comma hint for "with-commas" and the numeric hint otherwise. A currency field's format defaults to "decimal", which gets the no-symbol hint. "with-symbol" gets its symbol, or "$", before 267.35, and "with-code" gets the code hint. Any other currency format, and text or unknown types, get no hint. |
| PromptEngineering.HintEmptyIff | lib/prompt-engineering.ts:50-71 | The hint is empty exactly for text fields, unknown types, and currency fields with a format other than the three named ones. |
| PromptEngineering.Description | lib/prompt-engineering.ts:48 | A non-empty trained instruction for the key overrides the field's description. An empty one does not. |
| PromptEngineering.FieldLinesNumbered | lib/prompt-engineering.ts:46-76 | Line `i` belongs to field `i`, numbered from 1 in order. |
| PromptEngineering.FieldLineShape | lib/prompt-engineering.ts:73-75 | Each line opens with its number and name, then " [REQUIRED]" exactly for required fields, and ends with the description and type hint. |
| PromptEngineering.PutLookup | lib/prompt-engineering.ts:79-82 | After `obj[k] = v`, `k` reads `v`, other keys read as before, and existing keys keep their positions. |
| PromptEngineering.PutDistinct | lib/prompt-engineering.ts:79-82 | Object keys stay distinct under assignment. |
| PromptEngineering.Skeleton | lib/prompt-engineering.ts:79-82 | The expected object has exactly the active fields' keys, each once. |
| PromptEngineering.SkeletonLastWins | lib/prompt-engineering.ts:79-82 | A key shared by several fields shows the placeholder of the last of them. |
| PromptEngineering.SkeletonOfDistinctKeys | lib/prompt-engineering.ts:79-82 | With distinct keys there is one member per field, in field order, each "extracted" plus the lower-cased name. |
| PromptEngineering.UnescapeEscape | lib/prompt-engineering.ts:93 | Reading back a string literal written by `JSON.stringify` gives the original string. |
| PromptEngineering.Render | lib/prompt-engineering.ts:93 | `JSON.stringify(obj, null, 2)` gives "{}" for no members and a braced, indented block otherwise. |
| PromptEngineering.ExtractionPromptText | lib/prompt-engineering.ts:85-101 | The prompt opens with the document type and contains the document text, the numbered field lines and the expected object. It ends with the strict-mode line exactly in strict mode. |
| PromptEngineering.BuildExtractionPrompt | lib/prompt-engineering.ts:31-107 | Fails with "No fields enabled for extraction" exactly when no field is active. Otherwise it gives the prompt, and a version naming the clock and the number of active fields. |
| PromptEngineering.AllFieldsWithoutKeySet | lib/prompt-engineering.ts:37-104 | Without an enabled set, any template with fields compiles, and the version counts all of them. |
| PromptEngineering.Excerpt | lib/prompt-engineering.ts:123 | At most 2000 characters of the document, plus "...(truncated)" exactly when it was longer. |
| PromptEngineering.BuildValidationPrompt | lib/prompt-engineering.ts:112-132 | The classifier prompt names the expected type and ends with the excerpt and the fixed answer format. |
| PromptEngineering.SavePromptVersion | lib/prompt-engineering.ts:137-155 | Only the template's own history changes. A server-side call, an unreadable history or a throwing `setItem` leaves the store unchanged. A missing history becomes the new version alone. A stored history under 20 entries gets the version appended; one with 20 or more loses its first entry, once, as the version is appended. |
| PromptEngineering.SaveThenLoadHistory | lib/prompt-engineering.ts:137-170 | After a save the history ends with the new version. A history under 20 entries just grows. One with 20 or more loses its oldest entry. A history within 20 stays within 20. |
| PromptEngineering.LoadPromptHistory | lib/prompt-engineering.ts:160-170 | A readable stored history is returned as stored. Nothing stored, nothing readable, or a server-side call reads as an empty history. |
| PromptEngineering.GetTrainedInstructions | lib/prompt-engineering.ts:175-184 | A readable stored record is returned as stored. Missing or unreadable instructions, or a server-side call, read as the empty record. |
| PromptEngineering.SaveTrainedInstructions | lib/prompt-engineering.ts:189-201 | In a browser, when the write succeeds, this template's record holds the instructions. On the server, or when `setItem` throws, the store is unchanged. Other templates' records and other keys are left alone. |
| PromptEngineering.SaveThenGetTrainedInstructions | lib/prompt-engineering.ts:175-201 | Saved instructions are read back unchanged. |
| ExtractInvoice.PdfText | app/api/extract-invoice/route.ts:14-38 | Each page's items are joined by spaces and followed by a newline. |
| ExtractInvoice.PdfTextBlank | app/api/extract-invoice/route.ts:14-65 | The text is blank exactly when every item of every page is blank. |
| ExtractInvoice.InvoicePrompt | app/api/extract-invoice/route.ts:73-91 | The fixed instructions with the document text inside. |
| ExtractInvoice.PromptAsksForDefaultKeys | app/api/extract-invoice/route.ts:84-89 | The JSON shape asks, in order, for exactly the keys of the built-in template's four fields. |
| ExtractInvoice.DropTrailingFence | app/api/extract-invoice/route.ts:106-108 | Removes a final fence, with its newline if any, and nothing else. The result is a prefix at most four characters shorter. |
| ExtractInvoice.CleanReply | app/api/extract-invoice/route.ts:104-109 | An unfenced reply is only trimmed. A fenced one is cut down to a part of the trimmed reply. |
| ExtractInvoice.CleanJsonBlock | app/api/extract-invoice/route.ts:104-109 | A reply fenced as a json block gives back its body and a newline. |
| ExtractInvoice.CleanPlainBlock | app/api/extract-invoice/route.ts:104-109 | A reply fenced as a plain block gives back its body and a newline. |
| ExtractInvoice.UnfencedReplyKept | app/api/extract-invoice/route.ts:104-109 | A trimmed reply without an opening fence is passed to the parser as it is. |
| ExtractInvoice.Extract | app/api/extract-invoice/route.ts:40-134 | Checks, in order, for a missing file, a non-PDF type, an unreadable PDF and blank text, each with its own status and message. The model is asked exactly when all pass, and extracted data is what the parser made of the cleaned reply. |
| ExtractInvoice.ExtractOutcome | app/api/extract-invoice/route.ts:93-123 | Once the model is asked: its failure is a 500 with its message, and an unparsable reply is a 500 carrying the raw reply. Any JSON value the reply parses to, array, string or number included, is returned as the extracted data. |
| ExtractInvoice.ReadableDocumentReachesModel | app/api/extract-invoice/route.ts:52-73 | One non-blank text item anywhere in a PDF is enough to reach the model. |
| Discovery.ExtractText | app/api/discover-fields/route.ts:19-33 | Fails exactly for an unreadable or blank PDF. Otherwise the text is trimmed: non-empty, and neither end is whitespace. |
| Discovery.ReadSample | app/api/discover-fields/route.ts:71-87 | The analysis text is the first 3000 characters of the full text, and empty exactly when the PDF gave no text. |
| Discovery.ValidSamples | app/api/discover-fields/route.ts:91 | Exactly the samples with analysis text. |
| Discovery.ValidSamplesCounts | app/api/discover-fields/route.ts:91 | Each sample with text is kept as many times as it occurs in the input, and no other sample is kept. |
| Discovery.ValidSamplesAppend | app/api/discover-fields/route.ts:91 | The filter distributes over concatenation: it keeps the input order. |
| Discovery.KeptIndices | app/api/discover-fields/route.ts:91 | The positions of the samples with text, strictly increasing. |
| Discovery.KeptIndicesComplete | app/api/discover-fields/route.ts:91 | Every position of a sample with text is among them. |
| Discovery.ValidSamplesByIndices | app/api/discover-fields/route.ts:91 | The filter gives the samples at exactly those positions, in increasing order. |
| Discovery.Analysed | app/api/discover-fields/route.ts:70-91 | At most 10 samples, each with non-empty text of at most 3000 characters. They are the readable samples among the first ten files, in file order, one per file. |
| Discovery.AnalysedIgnoresLaterFiles | app/api/discover-fields/route.ts:71 | Files after the tenth play no part. |
| Discovery.DiscoveryPrompt | app/api/discover-fields/route.ts:101-138 | The prompt opens with the request quoting the intent and closes with the instructions. In between it shows one block per valid sample, in sample order, all after the intent. Each block holds the sample's first 800 characters. |
| Discovery.PromptLayout | app/api/discover-fields/route.ts:101-138 | In the assembled prompt, the quoted text comes right after the opening and before every joined block, and the blocks appear in list order. |
| Discovery.StripRemovesFences | app/api/discover-fields/route.ts:151 | After the global fence replacement no three backticks remain anywhere. |
| Discovery.StripFenceFree | app/api/discover-fields/route.ts:151 | Text without a fence passes unchanged. |
| Discovery.Clamp | app/api/discover-fields/route.ts:171 | A confidence is held to 0-100 and kept when already inside. |
| Discovery.Normalize | app/api/discover-fields/route.ts:162-173 | Name and key fall back to "Unknown Field" and "unknown". Found-in-samples is capped by the valid count, confidence lies in 0-100 (50 when missing), and there is one sample value for each of the first three samples, "" when absent. |
| Discovery.FoundInSamplesOneSided | app/api/discover-fields/route.ts:166 | A missing count becomes 1. A count in range is kept. A negative count is kept as it is, because the cap is only from above. |
| Discovery.Discover | app/api/discover-fields/route.ts:42-196 | Blank intent, fewer than 2 files, more than 100 files and no readable sample are each refused with their own message. The model is asked exactly when all checks pass, with the discovery prompt. |
| Discovery.SampleTexts | app/api/discover-fields/route.ts:180-183 | One entry per valid sample, in order, with its file name and its full text, or its analysis text when the full text is empty. |
| Discovery.DiscoverOutcome | app/api/discover-fields/route.ts:141-194 | A model failure is a 500 with its message, and an unparsable reply is a 500 carrying the reply. A parsed value the normalisation throws a `TypeError` on (not an array, a `null` entry, a name that is not a string) is a 500 with that error's message and no details. A parsed array yields exactly the normalised entries, one per entry and each bounded. It also reports the valid-sample count, the intent, and each valid sample's file name with its full text (the analysis text when the full text is empty). |
| Discovery.OneReadableSampleSuffices | app/api/discover-fields/route.ts:70-98 | A readable first file is enough to reach the model. |
| DiscoveryWizard.InitialIntent | components/DiscoveryWizard.tsx:147 | The edited template's name, or its description when the name is empty, or nothing. |
| DiscoveryWizard.EditModeField | components/DiscoveryWizard.tsx:153-168 | An edited field keeps its name, key, type, description and currency symbol. It is enabled unless explicitly disabled, has no samples and confidence 90, and starts with an empty hint and rule. Each of the three formats is the stored one when non-empty, otherwise "YYYY-MM-DD", "decimal" or "plain". |
| DiscoveryWizard.HandleFilesSelected | components/DiscoveryWizard.tsx:176-181 | Only PDFs are appended, after the earlier files, and the list is cut to 100. |
| DiscoveryWizard.SelectionKeepsEarlierFiles | components/DiscoveryWizard.tsx:176-181 | Files already picked are never pushed out by a new selection. |
| DiscoveryWizard.RemoveFileSplices | components/DiscoveryWizard.tsx:183-186 | Removing splices out exactly one file: the multiset loses that file only. |
| DiscoveryWizard.Rediscovered | components/DiscoveryWizard.tsx:225-227 | The first discovered field that matches by key or by name. None exactly when no field matches. |
| DiscoveryWizard.MergeField | components/DiscoveryWizard.tsx:229-244 | An existing field keeps its name, key, type, description and formats, and is forced enabled. Counts and sample values come from its rediscovery, with 0, [] and 50 otherwise. |
| DiscoveryWizard.StartDiscovery | components/DiscoveryWizard.tsx:188-268 | Refuses a blank intent or fewer than 2 files before any request. It shows the server's error, or "Discovery failed", and otherwise moves to review with the merged or fresh fields. |
| DiscoveryWizard.WizardRequestsPassServerChecks | components/DiscoveryWizard.tsx:176-205 | A request the wizard sends never fails the endpoint's intent or file-count checks. |
| DiscoveryWizard.SampleNavigationStaysInRange | components/DiscoveryWizard.tsx:474-495 | Previous and next stay within the samples, and next then previous returns. |
| DiscoveryWizard.ToggleTwice | components/DiscoveryWizard.tsx:270-274 | Toggling a field twice restores the list. |
| DiscoveryWizard.UpdateField | components/DiscoveryWizard.tsx:276-280 | Each of the nine edits sets its own member of the edited field to the given value. Every other member of that field keeps its value, including the key, the enabled flag, the samples, the confidence and the other optional members. Other fields are unchanged. Renaming keeps the key. |
| DiscoveryWizard.UpdatesCommute | components/DiscoveryWizard.tsx:276-280 | Edits to different fields or different members commute. |
| DiscoveryWizard.SaveAsTemplate | components/DiscoveryWizard.tsx:282-316 | Refuses exactly when no field is enabled. Otherwise every field is saved, disabled ones included. A field is required exactly when found in every sample. Existing id, name and creation time are kept. A new id is "profile-" followed by the first clock read, and the creation and update times are the second and third reads. The existing description and document type are kept when non-empty. Otherwise the description is "Discovered N fields (E enabled) from S samples" and the type is "document". Id, name and type are never empty. |
| DiscoveryWizard.SaveThenReopen | components/DiscoveryWizard.tsx:153-316 | Reopening a saved template gives back each field's name, key, type, enabled flag, set date format and currency symbol, and its description when no hint was added. |
| DiscoveryWizard.IntentSurvivesSave | components/DiscoveryWizard.tsx:147-293 | A short intent becomes the name and is the intent the wizard reopens with. |
| Highlights.Occurrences | components/DiscoveryWizard.tsx:41-55 | Every found position matches the value, and consecutive ones do not overlap. |
| Highlights.OccurrencesComplete | components/DiscoveryWizard.tsx:41-55 | Every match in the text is found or overlaps one that was. |
| Highlights.SortByStart | components/DiscoveryWizard.tsx:59 | The highlights are sorted by start and are a permutation of the input. |
| Highlights.RenderDisjointShowsText | components/DiscoveryWizard.tsx:61-107 | The corrected render shows the text from the start, exactly once, for any highlights within the text. |
| Highlights.OverlapShownTwice | components/DiscoveryWizard.tsx:65-98 | As written, two overlapping highlights show a character twice. |
| Highlights.AsWrittenWithoutOverlap | components/DiscoveryWizard.tsx:61-107 | Without overlaps the render as written is the corrected one. |
| Highlights.DisjointShownExactly | components/DiscoveryWizard.tsx:61-107 | Non-overlapping highlights render the whole text exactly. |
| Highlights.SingleFieldShownExactly | components/DiscoveryWizard.tsx:24-110 | One field's highlights never overlap, so its rendering shows the text exactly. |
| Highlights.RenderHighlightedText | components/DiscoveryWizard.tsx:24-110 | No rendering for empty text. Otherwise it renders as written: every highlight found across the fields is marked exactly once, in start order. When those highlights do not overlap, the segments show the whole text exactly once. |
| Highlights.AsWrittenMarksEvery | components/DiscoveryWizard.tsx:65-98 | The loop as written emits one highlighted segment per highlight, in order, overlapping or not. |
| Highlights.AsWrittenShowsDisjoint | components/DiscoveryWizard.tsx:61-107 | For highlights inside the text that do not overlap, the loop as written shows the text exactly once. |
| ApiClient.FormEntries | lib/api-client.ts:22-32 | Always `file` then `template`. Each option entry is present exactly when its option is given. |
| ApiClient.ExtractDataFromPdf | lib/api-client.ts:34-46 | Success returns the body. An error status throws the server's message, or "Extraction failed". |
| ApiClient.FileOutcome | lib/api-client.ts:74-82 | A result or the thrown `Error`. A non-`Error` throw becomes "Unknown error". |
| ApiClient.EffectiveBatchSize | lib/api-client.ts:66 | Positive: the given size, or 5 when it is absent or 0. |
| ApiClient.ExtractDataBatch | lib/api-client.ts:57-91 | Results are those of the files sent one by one, in order, with one completion per file. Progress comes once per group of the batch size, rises, and ends at the total. |
| ApiClient.ProgressShape | lib/api-client.ts:69-88 | There are ceil(n / size) progress reports, strictly increasing, and the last one is the total. |
| Training.InitialRates | lib/training.ts:52-54 | One zeroed counter per field key. |
| Training.CountSampleKeys | lib/training.ts:57-73 | Counting a sample adds no counters beyond the field keys. |
| Training.SuccessRatesCount | lib/training.ts:48-73 | A key's counter counts samples times the fields with that key, and its successes the same way. Success never exceeds total. With distinct keys, success is the number of samples with a non-blank, uncorrected or matching value. |
| Training.NeedyFrom | lib/training.ts:76-89 | Exactly the fields below 70% over at least 2 samples, in field order. |
| Training.SuggestionsPerField | lib/training.ts:76-89 | A field gets a suggestion exactly when it needs work. |
| Training.CalculateTrainingResults | lib/training.ts:44-99 | One counter per key, at most one suggestion per field, and with no samples nothing to suggest and average 0. |
| Training.SuggestionThreshold | lib/training.ts:78-80 | For a field with a unique key, a suggestion means at least 2 samples and under 70% success. |
| Training.AverageBounds | lib/training.ts:92 | The average confidence lies between the lowest and highest sample confidence. |
| Training.Snippet | lib/training.ts:108-115 | The snippet contains the matched text and is at most the context length plus an ellipsis longer on each side. |
| Training.SnippetCutMarked | lib/training.ts:112-113 | A cut on either side is marked with "...". |
| Training.SnippetOfShortText | lib/training.ts:108-115 | Nothing is cut when the text is close enough to the match. |
| Training.FindTextContext | lib/training.ts:102-116 | None exactly for an empty value or text, or no case-insensitive match. Otherwise a bounded snippet around the first match. |
| MultiInvoiceResults.ColumnsOf | components/MultiInvoiceResults.tsx:136-143 | One column per template field, keyed by the field key and headed by its name. |
| MultiInvoiceResults.ExportIndices | components/MultiInvoiceResults.tsx:25-27 | Only selected, successful rows with data. |
| MultiInvoiceResults.ExportIndicesIncrease | components/MultiInvoiceResults.tsx:25-27 | Exported rows keep the results' order. |
| MultiInvoiceResults.ExportIndicesComplete | components/MultiInvoiceResults.tsx:25-27 | Every selected successful row with data is exported. |
| MultiInvoiceResults.SelectedResults | components/MultiInvoiceResults.tsx:25-27 | The exported rows, in order. |
| MultiInvoiceResults.SelectionExportsNothing | components/MultiInvoiceResults.tsx:25-32 | The export is refused exactly when no selected row is successful with data. |
| MultiInvoiceResults.CellValue | components/MultiInvoiceResults.tsx:50 | A missing value is the empty cell. |
| MultiInvoiceResults.ExportTable | components/MultiInvoiceResults.tsx:35-53 | An optional header row, then one row per exported result. Each row has a cell per column, after the file name when it is included. |
| MultiInvoiceResults.DownloadCsv | components/MultiInvoiceResults.tsx:18-55 | "No selected rows to download" when nothing is exported. Otherwise the table as written, with cells quoted but quotes inside them not doubled. |
| MultiInvoiceResults.CsvRoundTrip | components/MultiInvoiceResults.tsx:55 | With embedded quotes doubled, a CSV reader gives back every table exactly. |
| MultiInvoiceResults.DownloadReadsBack | components/MultiInvoiceResults.tsx:18-55 | The download as written reads back exactly when no cell contains a quote. |
| MultiInvoiceResults.EmbeddedQuoteBreaksCsv | components/MultiInvoiceResults.tsx:55 | As written, a cell `a"b` gives a file that an RFC 4180 reader rejects. Doubled, it reads back. |
| MultiInvoiceResults.ClipboardText | components/MultiInvoiceResults.tsx:71-110 | "No selected rows to copy" when nothing is exported, or the tab-separated table with data cells as `="…"` formulas. |
| MultiInvoiceResults.ClipboardReadsBack | components/MultiInvoiceResults.tsx:87-110 | Splitting the copied text on newlines and tabs gives the header cells and the formula cells back, when no cell holds a tab or newline. |
| MultiInvoiceResults.MoveColumn | components/MultiInvoiceResults.tsx:149-162 | The dragged column lands at the hovered index, the columns are a permutation of the old ones, and the other columns keep their relative order. The drag index follows the column. A drag onto itself changes nothing. |
| MultiInvoiceResults.MoveBack | components/MultiInvoiceResults.tsx:149-162 | Dragging a column back to where it came from restores the order. |
| MultiInvoiceResults.ToggleRow | components/MultiInvoiceResults.tsx:180-188 | Only the toggled row changes membership. |
| MultiInvoiceResults.ToggleRowTwice | components/MultiInvoiceResults.tsx:180-188 | Toggling a row twice restores the selection. |
| MultiInvoiceResults.ToggleSelectAll | components/MultiInvoiceResults.tsx:172-178 | A selection with as many rows as there are results is cleared. Any other selection becomes every row. |
| MultiInvoiceResults.SelectAllBehaviour | components/MultiInvoiceResults.tsx:172-178 | For in-range selections: full means every row, select-all selects every row from any other selection, and pressing twice from a partial selection clears it. |
| MultiInvoiceResults.SuccessRows | components/MultiInvoiceResults.tsx:196-198 | Exactly the indices of successful results. |
| MultiInvoiceResults.AutoSelectOnce | components/MultiInvoiceResults.tsx:192-201 | A second pass after auto-selection changes nothing. |
| MultiInvoiceResults.AutoSelectedExport | components/MultiInvoiceResults.tsx:25-198 | After auto-selection, exactly the successful rows with data are exported. |
| Types.ParseFieldType | app/api/discover-fields/route.ts:165 | A missing or empty type is "text". Any other string is kept under its own name. |
| Types.FindById | hooks/useTemplates.ts:44 | The first index with the id, or none when no template has it. |
| Types.WithoutId | hooks/useTemplates.ts:51 | Exactly the templates without the id, and the list itself when none has it. |

## Left out

- The UI is not modelled: rendering, styling, dialogs, the PDF viewer, drag previews and loading spinners.
- The language model and the PDF readers are parameters. `pdf-parse` gives a text or fails. `pdfjs-dist` gives text items per page or fails. Their internals and the model's answers are not modelled.
- `JSON.parse` and `JSON.stringify` of whole templates and stores are the identity on typed slots, with an "unreadable" state for text that does not parse. `JSON.stringify` is modelled in full only for the string-valued object in the extraction prompt, with its inverse.
- The extraction prompt writes object members in insertion order. JavaScript puts integer-like keys first; that ordering is not modelled.
- A lone UTF-16 surrogate in a prompt string is outside the model, because Dafny's `char` holds whole characters. The escape for a surrogate code unit exists, but strings built from `char` never contain one.
- `includeExamples` is declared in `PromptOptions` but never read, so it has no effect to model.
- `Promise.all` runs each batch concurrently. The model sends the files one by one in order. The results and `onFileComplete` calls are the same set; the order in which completions arrive within a group is not modelled.
- ApiClient.EffectiveBatchSize: a negative or fractional `batchSize` is not modelled (the size is a natural number). JavaScript would loop forever on a negative size and slice fractionally on a fractional one.
- The built-in template's `createdAt` and `updatedAt` come from `Date.now()` at module load. They are 0 here.
- Training.AverageBounds: confidences are reals, not IEEE doubles, so rounding is not modelled.
- The 70% threshold is `10 * success < 7 * total` on integers, which is the source's floating-point comparison without rounding. The `toFixed(0)` text of the reason is not modelled.
- Errors carry their message only. `details: error.stack` in both routes is not modelled.
- The discovery wizard's own `fetch` throwing (a network failure) is not modelled. The response is a parameter that always arrives.
- Sorting highlights uses an insertion sort, so equal starts keep their input order. The source's `Array.prototype.sort` is stable too.
- `renderHighlightedText` is defined in the wizard but never called in its markup. It is modelled because its defect is reachable as soon as it is called.
- TemplateEditor.UpdateField: an index outside the list is excluded by its precondition. JavaScript would grow a sparse array; the editor only passes indices of rendered rows.
- In the editor's update object, an absent property and a property set to `undefined` are both `None`.
- The text of a storage write error is a parameter, not the browser's `QuotaExceededError` message.
- The CSV reader used in the round-trip proofs separates records with a line feed, as the export writes them. It is a reference reader, not part of the source.
- TemplateStorage.SaveOverUnreadable records a behaviour rather than a defect: an unreadable stored list is replaced by a list holding only the saved template.
- The `useTemplates` error branch in `loadData` is not modelled as a state, because both storage calls catch their own errors and it cannot be reached.
- Strings.Lower: only the ASCII letters A-Z are lower-cased, and every other character is left as it is. JavaScript's `toLowerCase` also maps other letters, and a few of them change length ("İ" becomes two code units). So the positions found in lower-cased text (Highlights.Occurrences, Training.FindTextContext) are exact only when the case mapping does not change length.
- Strings.Trim: only the ASCII whitespace characters are removed. JavaScript's `trim` also strips U+00A0, U+FEFF, U+2028, U+2029 and the other Unicode space separators. The blank checks (Discovery.ExtractText, the extraction endpoint, the wizard's intent check) therefore treat a text made only of those characters as non-blank.
- Strings.IsLineTerminator: JavaScript's `.` also refuses U+2028 and U+2029. The model lets `.` match them.
- Discovery.Normalize: `sampleValues` is a list of strings. In JavaScript a string value is indexed per character, and a non-string element is passed through as it is; neither is modelled. A truthy `suggestedType` or `suggestedDescription` that is not a string is passed through unchanged and is not modelled either. Counts and confidences are integers, so a fractional one is not modelled.
- Discovery.DiscoverOutcome: the text of the `TypeError` is part of the parsed outcome, not the JavaScript engine's wording.
- ExtractInvoice.ExtractOutcome: JSON numbers are integers here. Fractional numbers are returned by the endpoint in the same way but are not representable.
- Lengths and positions count whole characters, while JavaScript's `.length`, `substring` and `indexOf` count UTF-16 code units. The two agree on text inside the Basic Multilingual Plane. A character outside it (an emoji, say) counts once here and twice in JavaScript, so on such text every cut and threshold below falls at a different place. The cuts and thresholds affected are:
  - Discovery.ReadSample's 3000-character analysis text;
  - the 800-character excerpt in Discovery.SampleBlock;
  - PromptEngineering.Excerpt's 2000-character cut;
  - DiscoveryWizard.SaveAsTemplate's 50-character name;
  - the `length < 2` test in Highlights.FieldHighlights;
  - the window arithmetic of Training.FindTextContext.
- `app/page.tsx`, `InvoiceUpload`, `TemplateSelector`, `TemplateTrainer`, `PdfViewerWithHighlights`, `InvoiceResults` and `lib/ai.ts` are not part of this model.

Some behaviours the code has that its comments or neighbours suggest otherwise:

- `buildExtractionPrompt` filters only by `options.enabledFields`. A field with `enabled: false` is still asked for when no set is passed (PromptEngineering.ActiveFields).
- Merging a rediscovered template forces every field enabled (DiscoveryWizard.MergeField). Only the edit-mode start keeps the stored flag.
- The wizard's `updateField` never regenerates the key on a rename (DiscoveryWizard.UpdateField), while the editor's does (TemplateEditor.UpdateField).
- The extraction endpoint ignores the `template`, `enabledFields` and `customInstructions` entries the client sends. It always asks for the four built-in fields (ExtractInvoice.PromptAsksForDefaultKeys).
- `generateFieldKey` drops the first letter of every word after the first, instead of upper-casing it. The second replacement deletes the upper-case letter the first one made (Templates.KeyOfTwoWords, Templates.BuiltInKeysNotDerivable). It is logged under Findings.

## Findings

| source | as written | input that shows it | evidently intended | confidence | as-written member | corrected member |
|---|---|---|---|---|---|---|
| components/DiscoveryWizard.tsx:65-98 | `lastIndex = highlight.end` after each highlight, with no check that the next highlight starts at or after it; overlapping highlights from two fields are both emitted | text "abc", highlights [0,3) and [1,3): "abc" then "bc" are shown, giving "abcbc", so "bc" appears twice | each character of the text shown once; a highlight overlapping an earlier one is skipped or clipped | not executed | Highlights.RenderAsWritten, Highlights.OverlapShownTwice | Highlights.RenderDisjoint, Highlights.RenderDisjointShowsText |
| components/MultiInvoiceResults.tsx:55 | each cell written as `"${cell}"` without doubling embedded quotes | a cell `a"b` gives the line `"a"b"`, which an RFC 4180 reader rejects | embedded quotes doubled, as RFC 4180 section 2 requires, so the file reads back | not executed | MultiInvoiceResults.DownloadCsv, MultiInvoiceResults.EmbeddedQuoteBreaksCsv | MultiInvoiceResults.QuoteCell, MultiInvoiceResults.CsvRoundTrip |
| lib/templates.ts:134-140 | the second replacement deletes `/[^a-z0-9]/g`, which removes the upper-case letter the first replacement has just made | "Invoice NO." gives "invoiceo"; the comment on line 135 says "invoiceNo" | the letter after a separator kept in upper case (the second pass deleting `/[^a-zA-Z0-9]/g`), giving camel-case keys like the built-in template's | not executed | Templates.GenerateFieldKey, Templates.InvoiceNoExample | Templates.CamelFieldKey, Templates.CamelInvoiceNoExample |

The operations that use these functions (the editor and the discovery route deriving keys, the results table writing its CSV, the wizard's highlighter) keep the code's behaviour, so that the model stays faithful to what the application does. Each corrected definition stands beside its as-written one, with the intended property proved about it and a lemma relating the two.

=== FILE: apiclient.dfy ===
/** The browser-side client of the extraction endpoint (lib/api-client.ts): one
    request per file, and a batch runner that sends files in fixed-size groups and
    reports progress after each group. */
module ApiClient {
  import opened Strings
  import opened Types

  const DEFAULT_BATCH_SIZE := 5
  const EXTRACTION_FAILED := "Extraction failed"
  const UNKNOWN_ERROR := "Unknown error"

  /** A selected file; its bytes matter only to the server, which is a parameter. */
  datatype PdfFile = PdfFile(name: string, contents: seq<int>)

  /** What the endpoint does with one request: a success body, an error status with
      the body's `error` member (if any), or a throw during `fetch` or
      `response.json()` (an `Error` with its message, or some other value). */
  datatype Reply =
    | Accepted(response: ExtractionResponse)
    | Refused(error: Option<string>)
    | Failed(isError: bool, message: string)

  /** How `extractDataFromPDF` ends. */
  datatype Call = Returned(response: ExtractionResponse) | ThrewError(message: string) | ThrewOther

  /** The entries of the request's form: `file` and `template` always, and the two
      option entries exactly when the options carry them (an empty set or record
      is still sent). */
  function FormEntries(enabledFields: Option<set<string>>, customInstructions: Option<map<string, string>>): (r: seq<string>)
    ensures |r| >= 2 && r[0] == "file" && r[1] == "template"
    ensures "enabledFields" in r <==> enabledFields.Some?
    ensures "customInstructions" in r <==> customInstructions.Some?
  {
    ["file", "template"]
    + (if enabledFields.Some? then ["enabledFields"] else [])
    + (if customInstructions.Some? then ["customInstructions"] else [])
  }

  /** `extractDataFromPDF`: an error status throws the server's message, or
      "Extraction failed" when the body has none (or an empty one). */
  function ExtractDataFromPdf(reply: Reply): (c: Call)
    ensures c.Returned? <==> reply.Accepted?
    ensures c.Returned? ==> c.response == reply.response
    ensures reply.Refused? ==> c.ThrewError? && c.message != []
    ensures reply.Refused? && reply.error.Some? && reply.error.value != [] ==> c == ThrewError(reply.error.value)
    ensures c.ThrewOther? <==> reply.Failed? && !reply.isError
  {
    match reply
    case Accepted(response) => Returned(response)
    case Refused(error) => ThrewError(StringOr(error, EXTRACTION_FAILED))
    case Failed(isError, message) => if isError then ThrewError(message) else ThrewOther
  }

  /** What the batch records for one file: the response, or the `Error` it caught
      (a thrown non-`Error` becomes "Unknown error"). */
  function FileOutcome(c: Call): (r: Result<ExtractionResponse>)
    ensures r.Ok? <==> c.Returned?
    ensures c.ThrewError? ==> r == Err(c.message)
    ensures c.ThrewOther? ==> r == Err(UNKNOWN_ERROR)
  {
    match c
    case Returned(response) => Ok(response)
    case ThrewError(message) => Err(message)
    case ThrewOther => Err(UNKNOWN_ERROR)
  }

  /** The reference outcome: every file sent on its own, in order. */
  function Outcomes(files: seq<PdfFile>, server: PdfFile -> Reply): (r: seq<Result<ExtractionResponse>>)
    ensures |r| == |files|
  {
    seq(|files|, j requires 0 <= j < |files| => FileOutcome(ExtractDataFromPdf(server(files[j]))))
  }

  /** The `onFileComplete` notifications for some files: name and outcome. */
  function Completions(files: seq<PdfFile>, server: PdfFile -> Reply): (r: seq<(string, Result<ExtractionResponse>)>)
    ensures |r| == |files|
  {
    seq(|files|, j requires 0 <= j < |files| => (files[j].name, FileOutcome(ExtractDataFromPdf(server(files[j])))))
  }

  /** `options?.batchSize || 5`. */
  function EffectiveBatchSize(batchSize: Option<nat>): (b: nat)
    ensures b > 0
    ensures batchSize.Some? && batchSize.value > 0 ==> b == batchSize.value
    ensures batchSize.None? || batchSize.value == 0 ==> b == DEFAULT_BATCH_SIZE
  {
    if batchSize.None? || batchSize.value == 0 then DEFAULT_BATCH_SIZE else batchSize.value
  }

  /** `extractDataBatch`. Returns the results, the `onProgress` calls (completed,
      total) and the `onFileComplete` calls. Batching changes nothing about the
      results: they are those of the files sent one by one, in order. Progress is
      reported once per group, counts up by the group size and ends at the total. */
  method ExtractDataBatch(files: seq<PdfFile>, batchSize: Option<nat>, server: PdfFile -> Reply)
    returns (results: seq<Result<ExtractionResponse>>, progress: seq<(nat, nat)>,
             completions: seq<(string, Result<ExtractionResponse>)>)
    ensures results == Outcomes(files, server)
    ensures completions == Completions(files, server)
    ensures var b := EffectiveBatchSize(batchSize);
      |progress| == (|files| + b - 1) / b
    ensures var b := EffectiveBatchSize(batchSize);
      forall j :: 0 <= j < |progress| ==> progress[j] == (Min((j + 1) * b, |files|), |files|)
    ensures forall j :: 0 < j < |progress| ==> progress[j - 1].0 < progress[j].0
    ensures |files| > 0 ==> |progress| > 0 && progress[|progress| - 1].0 == |files|
  {
    var b := EffectiveBatchSize(batchSize);
    var n := |files|;
    var i := 0;
    results := [];
    progress := [];
    completions := [];
    while i < n
      invariant i == |progress| * b
      invariant |results| == Min(i, n)
      invariant results == Outcomes(files[..|results|], server)
      invariant completions == Completions(files[..|results|], server)
      invariant forall j :: 0 <= j < |progress| ==> progress[j] == (Min((j + 1) * b, n), n)
      invariant |progress| > 0 ==> (|progress| - 1) * b < n
      decreases n - i
    {
      var end := Min(i + b, n);
      BatchAppend(files, server, i, end);
      results := results + Outcomes(files[i..end], server);
      completions := completions + Completions(files[i..end], server);
      assert (|progress| + 1) * b == i + b;
      progress := progress + [(end, n)];
      i := i + b;
    }
    assert files[..|results|] == files;
    ProgressShape(progress, b, n);
  }

  /** Sending files `i` to `end` after the first `i` is sending the first `end`. */
  lemma BatchAppend(files: seq<PdfFile>, server: PdfFile -> Reply, i: nat, end: nat)
    requires i <= end <= |files|
    ensures Outcomes(files[..i], server) + Outcomes(files[i..end], server) == Outcomes(files[..end], server)
    ensures Completions(files[..i], server) + Completions(files[i..end], server) == Completions(files[..end], server)
  {
    assert files[..end] == files[..i] + files[i..end];
  }

  /** One report per group, increasing, the last one at the total. */
  lemma ProgressShape(progress: seq<(nat, nat)>, b: nat, n: nat)
    requires b > 0 && n <= |progress| * b
    requires forall j :: 0 <= j < |progress| ==> progress[j] == (Min((j + 1) * b, n), n)
    requires |progress| > 0 ==> (|progress| - 1) * b < n
    ensures |progress| == (n + b - 1) / b
    ensures forall j :: 0 < j < |progress| ==> progress[j - 1].0 < progress[j].0
    ensures n > 0 ==> |progress| > 0 && progress[|progress| - 1].0 == n
  {
    DivCeiling(n, b, |progress|);
    forall j | 0 < j < |progress| ensures progress[j - 1].0 < progress[j].0 {
      MulMonotone(j, |progress| - 1, b);
      assert (j - 1 + 1) * b < n;
    }
    if n > 0 {
      assert progress[|progress| - 1].0 == Min(|progress| * b, n) == n;
    }
  }

  lemma MulMonotone(x: nat, y: nat, b: nat)
    requires x <= y
    ensures x * b <= y * b
  {
  }

  lemma LessFactor(x: int, y: int, b: int)
    requires b > 0 && x * b < y * b
    ensures x < y
  {
  }

  /** `k` groups of `b` cover `n` items and `k - 1` do not: `k` is `n / b` rounded up. */
  lemma DivCeiling(n: nat, b: nat, k: nat)
    requires b > 0
    requires n <= k * b && (k == 0 || (k - 1) * b < n)
    ensures k == (n + b - 1) / b
  {
    var q := (n + b - 1) / b;
    var r := (n + b - 1) % b;
    assert n + b - 1 == q * b + r && 0 <= r < b;
    assert (k + 1) * b == k * b + b;
    LessFactor(q, k + 1, b);
    if k > 0 {
      assert (k - 1) * b == k * b - b;
      assert (q + 1) * b == q * b + b;
      LessFactor(k, q + 1, b);
    }
  }
}

=== FILE: discovery.dfy ===
/** The field-discovery route (app/api/discover-fields/route.ts): request guards,
    sample selection, the discovery prompt, fence stripping, and the normalisation
    of the fields the model proposes. PDF reading, the model call and `JSON.parse`
    are parameters. */
module Discovery {
  import opened Strings
  import opened Types
  import opened Fences
  import Templates

  const MIN_FILES := 2
  const MAX_FILES := 100
  const DISCOVERY_SAMPLES := 10
  const ANALYSIS_CHARS := 3000
  const PROMPT_SAMPLE_CHARS := 800
  const VALUE_SAMPLES := 3

  const NO_INTENT := "Please provide a description of what you want to extract"
  const TOO_FEW_FILES := "Please upload at least 2 sample documents"
  const TOO_MANY_FILES := "Maximum 100 files allowed"
  const NO_TEXT := "Could not extract text from any of the sample documents"
  const UNPARSABLE := "Failed to parse discovered fields"

  /** An uploaded file: its name and what `pdf-parse` reads from it (`None` when
      it throws). */
  datatype UploadedFile = UploadedFile(name: string, pdfText: Option<string>)

  /** A sample after text extraction; a failed extraction leaves both texts empty. */
  datatype Sample = Sample(fileName: string, fullText: string, text: string)

  /** `{ fileName, value }` and `{ fileName, text }` pairs. */
  datatype Labelled = Labelled(fileName: string, value: string)

  /** One entry of the model's JSON array as the normalisation reads it; each
      member may be missing (or falsy). An entry that is a number, a string or a
      boolean reads as one with every member missing. */
  datatype RawField = RawField(
    suggestedName: Option<string>,
    suggestedType: Option<string>,
    foundInSamples: Option<int>,
    sampleValues: Option<seq<string>>,
    confidence: Option<int>,
    suggestedDescription: Option<string>)

  /** What `JSON.parse` of the cleaned reply gives, as the normalisation meets it:
      it throws (`NotJson`); it gives a value on which the normalisation throws a
      `TypeError` whose message is `typeError` (`Unusable`): something other than
      an array, which has no `map`, an array holding `null`, or an entry whose
      name is truthy but not a string, which has no `toLowerCase`; or it gives an
      array whose entries read as fields (`Entries`). */
  datatype Parsed = NotJson | Unusable(typeError: string) | Entries(raws: seq<RawField>)

  /** `DiscoveredField` as the route returns it. */
  datatype DiscoveredField = DiscoveredField(
    suggestedName: string,
    suggestedKey: string,
    suggestedType: FieldType,
    foundInSamples: int,
    sampleValues: seq<Labelled>,
    confidence: int,
    suggestedDescription: string)

  /** The JSON response: an error with its HTTP status, or the discovery result. */
  datatype Response =
    | Failure(status: nat, error: string, details: Option<string>)
    | Discovered(discoveredFields: seq<DiscoveredField>, samplesAnalyzed: nat,
                 userIntent: string, sampleTexts: seq<Labelled>)

  /** The response together with the prompt sent to the model, if any. */
  datatype Exchange = Exchange(response: Response, modelPrompt: Option<string>)

  // ---------------------------------------------------------------------------
  // Samples

  /** `extractTextFromPDF`: the trimmed text, or a failure when reading throws or
      the text is blank. */
  function ExtractText(pdfText: Option<string>): (r: Option<string>)
    ensures r.Some? ==> |r.value| > 0 && !IsWhitespace(r.value[0]) && !IsWhitespace(r.value[|r.value| - 1])
    ensures r.None? <==> pdfText.None? || IsBlank(pdfText.value)
  {
    if pdfText.None? then None
    else
      var t := Trim(pdfText.value);
      TrimEmptyIffBlank(pdfText.value);
      if t == [] then None
      else
        assert !IsBlank(pdfText.value);
        Some(t)
  }

  /** One sample; its analysis text is the first 3000 characters. */
  function ReadSample(f: UploadedFile): (s: Sample)
    ensures s.fileName == f.name
    ensures s.text == Prefix(s.fullText, ANALYSIS_CHARS)
    ensures s.text == [] <==> ExtractText(f.pdfText).None?
  {
    match ExtractText(f.pdfText)
    case None => Sample(f.name, "", "")
    case Some(t) => Sample(f.name, t, Prefix(t, ANALYSIS_CHARS))
  }

  function ReadSamples(files: seq<UploadedFile>): (r: seq<Sample>)
    ensures |r| == |files|
    ensures forall i :: 0 <= i < |files| ==> r[i] == ReadSample(files[i])
  {
    if files == [] then [] else [ReadSample(files[0])] + ReadSamples(files[1..])
  }

  /** `samples.filter(s => s.text && s.text.length > 0)`. */
  function ValidSamples(samples: seq<Sample>): (r: seq<Sample>)
    ensures |r| <= |samples|
    ensures forall s :: s in r <==> s in samples && s.text != []
  {
    if samples == [] then []
    else
      assert samples == [samples[0]] + samples[1..];
      if samples[0].text != [] then [samples[0]] + ValidSamples(samples[1..])
      else ValidSamples(samples[1..])
  }

  /** The filter keeps each sample with text as many times as it occurs, and
      no other. */
  lemma {:induction false} ValidSamplesCounts(samples: seq<Sample>)
    ensures forall s :: multiset(ValidSamples(samples))[s] == if s.text != [] then multiset(samples)[s] else 0
    decreases |samples|
  {
    if samples != [] {
      assert samples == [samples[0]] + samples[1..];
      ValidSamplesCounts(samples[1..]);
    }
  }

  /** The filter keeps the order: it distributes over concatenation. */
  lemma {:induction false} ValidSamplesAppend(a: seq<Sample>, b: seq<Sample>)
    ensures ValidSamples(a + b) == ValidSamples(a) + ValidSamples(b)
    decreases |a|
  {
    if a == [] {
      assert a + b == b;
    } else {
      assert (a + b)[0] == a[0];
      assert (a + b)[1..] == a[1..] + b;
      ValidSamplesAppend(a[1..], b);
    }
  }

  /** How many files the route reads: the first ten. */
  function AnalysedCount(files: seq<UploadedFile>): (n: nat)
    ensures n <= |files| && n <= DISCOVERY_SAMPLES
  {
    if |files| <= DISCOVERY_SAMPLES then |files| else DISCOVERY_SAMPLES
  }

  /** The positions below `n` of the samples with analysis text, in increasing
      order: a reference for which samples the filter keeps. */
  function KeptIndices(samples: seq<Sample>, n: nat): (r: seq<nat>)
    requires n <= |samples|
    ensures forall j :: 0 <= j < |r| ==> r[j] < n && samples[r[j]].text != []
    ensures forall j, k :: 0 <= j < k < |r| ==> r[j] < r[k]
    decreases n
  {
    if n == 0 then []
    else if samples[n - 1].text != [] then KeptIndices(samples, n - 1) + [n - 1]
    else KeptIndices(samples, n - 1)
  }

  /** No sample with text below `n` is missed. */
  lemma {:induction false} KeptIndicesComplete(samples: seq<Sample>, n: nat, k: nat)
    requires k < n <= |samples| && samples[k].text != []
    ensures k in KeptIndices(samples, n)
    decreases n
  {
    var prev := KeptIndices(samples, n - 1);
    var r := KeptIndices(samples, n);
    if k == n - 1 {
      assert r[|r| - 1] == k;
    } else {
      KeptIndicesComplete(samples, n - 1, k);
      var j :| 0 <= j < |prev| && prev[j] == k;
      assert r[j] == k;
    }
  }

  /** The samples at the given positions, in the order given. */
  function Pick(samples: seq<Sample>, idx: seq<nat>): (r: seq<Sample>)
    requires forall j :: 0 <= j < |idx| ==> idx[j] < |samples|
    ensures |r| == |idx|
    ensures forall j :: 0 <= j < |idx| ==> r[j] == samples[idx[j]]
  {
    seq(|idx|, j requires 0 <= j < |idx| => samples[idx[j]])
  }

  /** Filtering the first `n` samples keeps exactly those with text, in their
      original order. */
  lemma {:induction false} ValidSamplesByIndices(samples: seq<Sample>, n: nat)
    requires n <= |samples|
    ensures ValidSamples(samples[..n]) == Pick(samples, KeptIndices(samples, n))
    decreases n
  {
    if n == 0 {
      assert samples[..0] == [];
    } else if samples[n - 1].text != [] {
      ValidSamplesByIndices(samples, n - 1);
      KeptStep(samples, n);
    } else {
      ValidSamplesByIndices(samples, n - 1);
      SkippedStep(samples, n);
    }
  }

  /** A sample with text is appended by the filter and its position by `KeptIndices`. */
  lemma KeptStep(samples: seq<Sample>, n: nat)
    requires 0 < n <= |samples| && samples[n - 1].text != []
    requires ValidSamples(samples[..n - 1]) == Pick(samples, KeptIndices(samples, n - 1))
    ensures ValidSamples(samples[..n]) == Pick(samples, KeptIndices(samples, n))
  {
    var idx := KeptIndices(samples, n - 1);
    ValidSamplesSnoc(samples, n);
    PickSnoc(samples, idx, n - 1);
    assert KeptIndices(samples, n) == idx + [n - 1];
  }

  /** A sample without text is skipped by both. */
  lemma SkippedStep(samples: seq<Sample>, n: nat)
    requires 0 < n <= |samples| && samples[n - 1].text == []
    requires ValidSamples(samples[..n - 1]) == Pick(samples, KeptIndices(samples, n - 1))
    ensures ValidSamples(samples[..n]) == Pick(samples, KeptIndices(samples, n))
  {
    ValidSamplesSnoc(samples, n);
    assert ValidSamples(samples[..n - 1]) + [] == ValidSamples(samples[..n - 1]);
  }

  /** One more sample: the filter keeps it exactly when it has text. */
  lemma ValidSamplesSnoc(samples: seq<Sample>, n: nat)
    requires 0 < n <= |samples|
    ensures ValidSamples(samples[..n])
         == ValidSamples(samples[..n - 1]) + (if samples[n - 1].text != [] then [samples[n - 1]] else [])
  {
    var s := samples[n - 1];
    assert samples[..n] == samples[..n - 1] + [s];
    ValidSamplesAppend(samples[..n - 1], [s]);
    assert [s][1..] == [];
  }

  lemma PickSnoc(samples: seq<Sample>, idx: seq<nat>, i: nat)
    requires forall j :: 0 <= j < |idx| ==> idx[j] < |samples|
    requires i < |samples|
    ensures Pick(samples, idx + [i]) == Pick(samples, idx) + [samples[i]]
  {
  }

  /** The samples the route analyses: the readable ones among the first ten
      files, in file order. */
  function Analysed(files: seq<UploadedFile>): (r: seq<Sample>)
    ensures |r| <= DISCOVERY_SAMPLES
    ensures forall s :: s in r ==> s.text != [] && |s.text| <= ANALYSIS_CHARS
    ensures var read := ReadSamples(files[..AnalysedCount(files)]);
            r == Pick(read, KeptIndices(read, |read|))
  {
    var first := if |files| <= DISCOVERY_SAMPLES then files else files[..DISCOVERY_SAMPLES];
    assert first == files[..AnalysedCount(files)];
    var read := ReadSamples(first);
    assert read[..|read|] == read;
    ValidSamplesByIndices(read, |read|);
    ValidSamples(read)
  }

  /** A file beyond the tenth never influences the result. */
  lemma AnalysedIgnoresLaterFiles(files: seq<UploadedFile>, more: seq<UploadedFile>)
    requires |files| >= DISCOVERY_SAMPLES
    ensures Analysed(files + more) == Analysed(files)
  {
    if more == [] {
      assert files + more == files;
    } else {
      assert (files + more)[..DISCOVERY_SAMPLES] == files[..DISCOVERY_SAMPLES];
      if |files| == DISCOVERY_SAMPLES {
        assert files[..DISCOVERY_SAMPLES] == files;
      }
    }
  }

  // ---------------------------------------------------------------------------
  // The discovery prompt

  /** The block a valid sample contributes to the prompt (numbered from 1). */
  function SampleBlock(i: nat, s: Sample): (b: string)
    ensures Contains(b, Prefix(s.text, PROMPT_SAMPLE_CHARS))
  {
    var head := "\nSample " + NatToString(i + 1) + " (" + s.fileName + "):\n";
    ContainsInfix(head, Prefix(s.text, PROMPT_SAMPLE_CHARS), "\n...\n");
    head + Prefix(s.text, PROMPT_SAMPLE_CHARS) + "\n...\n"
  }

  function SampleBlocksFrom(samples: seq<Sample>, start: nat): (r: seq<string>)
    ensures |r| == |samples|
    ensures forall i :: 0 <= i < |samples| ==> r[i] == SampleBlock(start + i, samples[i])
    decreases |samples|
  {
    if samples == [] then [] else [SampleBlock(start, samples[0])] + SampleBlocksFrom(samples[1..], start + 1)
  }

  const DISCOVERY_OPENING := "You are an expert document analyzer. The user wants to: \""
  const DISCOVERY_COUNT := "\"\n\nAnalyze these "
  const DISCOVERY_SAMPLES_HEADING := " sample documents and discover ALL common data fields that should be extracted.\n\n"
  const DISCOVERY_INSTRUCTIONS := "\n\nFor each field you discover:\n"
    + "1. Suggest a clear, descriptive field name\n"
    + "2. Identify the data type (text, number, date, or currency)\n"
    + "3. Count how many samples contain this field\n"
    + "4. Extract one example value from each sample\n"
    + "5. Provide a description of what this field represents\n"
    + "6. Estimate confidence (0-100)\n\n"
    + "Respond ONLY with valid JSON array:\n[\n  {\n"
    + "    \"suggestedName\": \"Booking Number\",\n"
    + "    \"suggestedType\": \"text\",\n"
    + "    \"foundInSamples\": 3,\n"
    + "    \"sampleValues\": [\"123456\", \"789012\", \"345678\"],\n"
    + "    \"suggestedDescription\": \"The booking or reservation reference number\",\n"
    + "    \"confidence\": 95\n  }\n]\n\n"
    + "Discover ALL fields that appear in the documents. Include:\n"
    + "- IDs and reference numbers\n- Dates\n- Names (people, companies, locations)\n"
    + "- Amounts and prices\n- Any other relevant data points\n\n"
    + "Return 5-15 fields maximum. Focus on fields that appear in multiple samples."

  /** Where the intent and the sample blocks sit in the assembled prompt
      `pre + x + mid + Join(parts, sep) + post`: `x` right after the opening,
      before every part, and the parts in their order. */
  lemma PromptLayout(pre: string, x: string, mid: string, parts: seq<string>, sep: string, post: string)
    ensures var p := pre + x + mid + Join(parts, sep) + post;
      && StartsWith(p, pre + x) && EndsWith(p, post)
      && Contains(p, x) && Contains(p, Join(parts, sep))
      && (forall i :: 0 <= i < |parts| ==> OccursBefore(p, x, parts[i]))
      && (forall i, j :: 0 <= i < j < |parts| ==> OccursBefore(p, parts[i], parts[j]))
  {
    var joined := Join(parts, sep);
    var head := pre + x + mid;
    var p := head + joined + post;
    assert p[..|pre + x|] == pre + x;
    assert MatchesAt(p, x, |pre|);
    MatchesShift(head, joined, post, joined, 0);
    assert head + joined + post == p;
    forall i | 0 <= i < |parts| ensures OccursBefore(p, x, parts[i]) {
      JoinContains(parts, sep, i);
      var b :| 0 <= b <= |joined| && MatchesAt(joined, parts[i], b);
      MatchesShift(head, joined, post, parts[i], b);
    }
    forall i, j | 0 <= i < j < |parts| ensures OccursBefore(p, parts[i], parts[j]) {
      JoinOrdered(parts, sep, i, j);
      OccursBeforeExtend(head, joined, post, parts[i], parts[j]);
    }
  }

  /** What the prompt shows of each valid sample: its first 800 characters. */
  function Excerpts(valid: seq<Sample>): (r: seq<string>)
    ensures |r| == |valid|
    ensures forall i :: 0 <= i < |valid| ==> r[i] == Prefix(valid[i].text, PROMPT_SAMPLE_CHARS)
  {
    if valid == [] then [] else [Prefix(valid[0].text, PROMPT_SAMPLE_CHARS)] + Excerpts(valid[1..])
  }

  /** Every sample's excerpt occurs in the joined sample blocks. */
  lemma ExcerptsInBlocks(valid: seq<Sample>)
    ensures forall i :: 0 <= i < |valid| ==> Contains(Join(SampleBlocksFrom(valid, 0), "\n"), Excerpts(valid)[i])
  {
    var blocks := SampleBlocksFrom(valid, 0);
    forall i | 0 <= i < |valid| ensures Contains(Join(blocks, "\n"), Excerpts(valid)[i]) {
      JoinContains(blocks, "\n", i);
      ContainsTrans(Join(blocks, "\n"), blocks[i], Excerpts(valid)[i]);
    }
  }

  /** The discovery prompt: it opens with the request quoting the intent, then
      shows at most the first 800 characters of every valid sample, one block
      per sample in order, and closes with the instructions. */
  function DiscoveryPrompt(intent: string, valid: seq<Sample>): (p: string)
    ensures StartsWith(p, DISCOVERY_OPENING + intent)
    ensures EndsWith(p, DISCOVERY_INSTRUCTIONS)
    ensures Contains(p, intent)
    ensures forall i :: 0 <= i < |valid| ==> Contains(p, Excerpts(valid)[i])
    ensures forall i :: 0 <= i < |valid| ==> OccursBefore(p, intent, SampleBlock(i, valid[i]))
    ensures forall i, j :: 0 <= i < j < |valid| ==> OccursBefore(p, SampleBlock(i, valid[i]), SampleBlock(j, valid[j]))
  {
    var blocks := SampleBlocksFrom(valid, 0);
    var joined := Join(blocks, "\n");
    var mid := DISCOVERY_COUNT + NatToString(|valid|) + DISCOVERY_SAMPLES_HEADING;
    PromptLayout(DISCOVERY_OPENING, intent, mid, blocks, "\n", DISCOVERY_INSTRUCTIONS);
    var p := DISCOVERY_OPENING + intent + mid + joined + DISCOVERY_INSTRUCTIONS;
    ExcerptsInBlocks(valid);
    ContainsAllTrans(p, joined, Excerpts(valid));
    p
  }

  // ---------------------------------------------------------------------------
  // Fence stripping

  /** `s.replace(/```json\n?|```\n?/g, "")`: every fence, with the `json` tag and the
      newline that may follow it, is deleted wherever it occurs. */
  function StripFences(s: string): (r: string)
    ensures |r| <= |s|
    decreases |s|
  {
    if s == [] then []
    else if JsonFenceAtStart(s) then StripFences(DropNewline(s[7..]))
    else if FenceAt(s, 0) then StripFences(DropNewline(s[3..]))
    else [s[0]] + StripFences(s[1..])
  }

  /** What is left does not begin with two backticks unless the input did. */
  lemma StripKeepsShortRuns(t: string)
    requires !(|t| >= 2 && t[0] == '`' && t[1] == '`')
    ensures var r := StripFences(t); !(|r| >= 2 && r[0] == '`' && r[1] == '`')
  {
    if t != [] && t[0] == '`' && |t| > 1 {
      assert !FenceAt(t[1..], 0);
      assert StripFences(t[1..]) == [t[1]] + StripFences(t[2..]);
    }
  }

  /** No fence survives: the output never holds three backticks in a row. */
  lemma {:induction false} StripRemovesFences(s: string)
    ensures forall i :: !FenceAt(StripFences(s), i)
    decreases |s|
  {
    if s == [] {
    } else if JsonFenceAtStart(s) {
      StripRemovesFences(DropNewline(s[7..]));
    } else if FenceAt(s, 0) {
      StripRemovesFences(DropNewline(s[3..]));
    } else {
      var rest := StripFences(s[1..]);
      var r := [s[0]] + rest;
      StripRemovesFences(s[1..]);
      if s[0] == '`' {
        StripKeepsShortRuns(s[1..]);
      }
      forall i ensures !FenceAt(r, i) {
        if i >= 1 && FenceAt(r, i) {
          assert FenceAt(rest, i - 1);
        }
      }
    }
  }

  lemma StripLeavesNoFence(s: string)
    ensures !Contains(StripFences(s), FENCE)
  {
    StripRemovesFences(s);
    forall i ensures !MatchesAt(StripFences(s), FENCE, i) {
      FenceAtIsMatch(StripFences(s), i);
    }
  }

  /** Text without any fence is left as it is. */
  lemma {:induction false} StripWithoutFence(s: string)
    requires forall i :: !FenceAt(s, i)
    ensures StripFences(s) == s
    decreases |s|
  {
    if s != [] {
      assert !FenceAt(s, 0);
      assert forall i :: !FenceAt(s[1..], i) by {
        forall i ensures !FenceAt(s[1..], i) {
          if FenceAt(s[1..], i) {
            assert FenceAt(s, i + 1);
          }
        }
      }
      StripWithoutFence(s[1..]);
    }
  }

  lemma StripFenceFree(s: string)
    requires !Contains(s, FENCE)
    ensures StripFences(s) == s
  {
    forall i ensures !FenceAt(s, i) {
      FenceAtIsMatch(s, i);
    }
    StripWithoutFence(s);
  }

  // ---------------------------------------------------------------------------
  // Normalisation

  /** JavaScript's `n || fallback` on an optional number: zero is falsy. */
  function NumberOr(n: Option<int>, fallback: int): (r: int)
    ensures n.Some? && n.value != 0 ==> r == n.value
    ensures n.None? || n.value == 0 ==> r == fallback
  {
    if n.Some? && n.value != 0 then n.value else fallback
  }

  /** `Math.min(Math.max(x, 0), 100)`. */
  function Clamp(x: int): (r: int)
    ensures 0 <= r <= 100
    ensures 0 <= x <= 100 ==> r == x
    ensures x < 0 ==> r == 0
    ensures x > 100 ==> r == 100
  {
    Min(Max(x, 0), 100)
  }

  /** `field.sampleValues?.[i] || ""`. */
  function ValueAt(values: Option<seq<string>>, i: nat): (v: string)
    ensures values.Some? && i < |values.value| ==> v == values.value[i]
    ensures values.None? || i >= |values.value| ==> v == ""
  {
    if values.Some? && i < |values.value| then values.value[i] else ""
  }

  function LabelValues(samples: seq<Sample>, values: Option<seq<string>>, start: nat): (r: seq<Labelled>)
    ensures |r| == |samples|
    ensures forall i :: 0 <= i < |samples| ==>
      r[i] == Labelled(samples[i].fileName, ValueAt(values, start + i))
    decreases |samples|
  {
    if samples == [] then []
    else [Labelled(samples[0].fileName, ValueAt(values, start))] + LabelValues(samples[1..], values, start + 1)
  }

  /** One proposed field after normalisation against the valid samples. */
  function Normalize(raw: RawField, valid: seq<Sample>): (f: DiscoveredField)
    ensures f.suggestedName == StringOr(raw.suggestedName, "Unknown Field")
    ensures f.suggestedKey == Templates.GenerateFieldKey(StringOr(raw.suggestedName, "unknown"))
    ensures f.suggestedType == ParseFieldType(raw.suggestedType)
    ensures f.foundInSamples <= |valid|
    ensures f.foundInSamples == Min(NumberOr(raw.foundInSamples, 1), |valid|)
    ensures 0 <= f.confidence <= 100
    ensures raw.confidence.None? || raw.confidence.value == 0 ==> f.confidence == 50
    ensures raw.confidence.Some? && 0 <= raw.confidence.value <= 100 && raw.confidence.value != 0 ==>
      f.confidence == raw.confidence.value
    ensures |f.sampleValues| == Min(VALUE_SAMPLES, |valid|)
    ensures forall i :: 0 <= i < |f.sampleValues| ==>
      f.sampleValues[i].fileName == valid[i].fileName
      && f.sampleValues[i].value == ValueAt(raw.sampleValues, i)
    ensures f.suggestedDescription == StringOr(raw.suggestedDescription, "")
  {
    var shown := if |valid| <= VALUE_SAMPLES then valid else valid[..VALUE_SAMPLES];
    DiscoveredField(
      StringOr(raw.suggestedName, "Unknown Field"),
      Templates.GenerateFieldKey(StringOr(raw.suggestedName, "unknown")),
      ParseFieldType(raw.suggestedType),
      Min(NumberOr(raw.foundInSamples, 1), |valid|),
      LabelValues(shown, raw.sampleValues, 0),
      Clamp(NumberOr(raw.confidence, 50)),
      StringOr(raw.suggestedDescription, ""))
  }

  /** `foundInSamples` is only bounded above: a missing or zero count becomes 1, a
      positive count within range is kept, and a negative count passes through. */
  lemma FoundInSamplesOneSided(raw: RawField, valid: seq<Sample>)
    requires valid != []
    ensures raw.foundInSamples.None? ==> Normalize(raw, valid).foundInSamples == 1
    ensures raw.foundInSamples.Some? && raw.foundInSamples.value < 0 ==>
      Normalize(raw, valid).foundInSamples == raw.foundInSamples.value
    ensures raw.foundInSamples.Some? && 0 < raw.foundInSamples.value <= |valid| ==>
      Normalize(raw, valid).foundInSamples == raw.foundInSamples.value
  {
  }

  function NormalizeAll(raws: seq<RawField>, valid: seq<Sample>): (r: seq<DiscoveredField>)
    ensures |r| == |raws|
    ensures forall i :: 0 <= i < |raws| ==> r[i] == Normalize(raws[i], valid)
  {
    seq(|raws|, i requires 0 <= i < |raws| => Normalize(raws[i], valid))
  }

  /** `validSamples.map(s => ({ fileName, text: s.fullText || s.text }))`. */
  function SampleTexts(valid: seq<Sample>): (r: seq<Labelled>)
    ensures |r| == |valid|
    ensures forall i :: 0 <= i < |valid| ==> r[i].fileName == valid[i].fileName
    ensures forall i :: 0 <= i < |valid| ==>
      r[i].value == if valid[i].fullText != [] then valid[i].fullText else valid[i].text
  {
    if valid == [] then []
    else
      var s := valid[0];
      [Labelled(s.fileName, if s.fullText != [] then s.fullText else s.text)] + SampleTexts(valid[1..])
  }

  // ---------------------------------------------------------------------------
  // The route

  /** `POST`. `complete` is the model call (an error carries the message of what it
      throws) and `parse` is `JSON.parse` applied to the cleaned reply. A
      `TypeError` thrown while normalising reaches the outer `catch`, which
      answers 500 with its message. */
  function Discover(userIntent: string, files: seq<UploadedFile>,
                    complete: string -> Result<string>, parse: string -> Parsed): (x: Exchange)
    ensures IsBlank(userIntent) ==> x == Exchange(Failure(400, NO_INTENT, None), None)
    ensures !IsBlank(userIntent) && |files| < MIN_FILES ==>
      x == Exchange(Failure(400, TOO_FEW_FILES, None), None)
    ensures !IsBlank(userIntent) && |files| > MAX_FILES ==>
      x == Exchange(Failure(400, TOO_MANY_FILES, None), None)
    ensures !IsBlank(userIntent) && MIN_FILES <= |files| <= MAX_FILES && Analysed(files) == [] ==>
      x == Exchange(Failure(400, NO_TEXT, None), None)
    ensures x.modelPrompt.Some? <==>
      !IsBlank(userIntent) && MIN_FILES <= |files| <= MAX_FILES && Analysed(files) != []
    ensures x.modelPrompt.Some? ==> x.modelPrompt == Some(DiscoveryPrompt(userIntent, Analysed(files)))
  {
    if IsBlank(userIntent) then Exchange(Failure(400, NO_INTENT, None), None)
    else if |files| < MIN_FILES then Exchange(Failure(400, TOO_FEW_FILES, None), None)
    else if |files| > MAX_FILES then Exchange(Failure(400, TOO_MANY_FILES, None), None)
    else
      var valid := Analysed(files);
      if valid == [] then Exchange(Failure(400, NO_TEXT, None), None)
      else
        var prompt := DiscoveryPrompt(userIntent, valid);
        match complete(prompt)
        case Err(message) => Exchange(Failure(500, message, None), Some(prompt))
        case Ok(reply) =>
          match parse(StripFences(Trim(reply)))
          case NotJson => Exchange(Failure(500, UNPARSABLE, Some(reply)), Some(prompt))
          case Unusable(typeError) => Exchange(Failure(500, typeError, None), Some(prompt))
          case Entries(raws) =>
            Exchange(Discovered(NormalizeAll(raws, valid), |valid|, userIntent, SampleTexts(valid)), Some(prompt))
  }

  /** Once the model has answered: a failed call is a 500 with its message, an
      unparsable reply is a 500 carrying the raw reply, a parsed value the
      normalisation cannot read is a 500 with the `TypeError`'s message, and a
      parsed array yields one normalised field per entry, each bounded by the
      number of valid samples. */
  lemma DiscoverOutcome(userIntent: string, files: seq<UploadedFile>,
                        complete: string -> Result<string>, parse: string -> Parsed)
    requires !IsBlank(userIntent) && MIN_FILES <= |files| <= MAX_FILES && Analysed(files) != []
    ensures var x := Discover(userIntent, files, complete, parse);
      var call := complete(DiscoveryPrompt(userIntent, Analysed(files)));
      call.Err? ==> x.response == Failure(500, call.message, None)
    ensures var x := Discover(userIntent, files, complete, parse);
      var valid := Analysed(files);
      var call := complete(DiscoveryPrompt(userIntent, valid));
      call.Ok? ==>
      var reply := call.value;
      var parsed := parse(StripFences(Trim(reply)));
      && (parsed.NotJson? ==> x.response == Failure(500, UNPARSABLE, Some(reply)))
      && (parsed.Unusable? ==> x.response == Failure(500, parsed.typeError, None))
      && (parsed.Entries? ==>
            && x.response.Discovered?
            && x.response.discoveredFields == NormalizeAll(parsed.raws, valid)
            && x.response.sampleTexts == SampleTexts(valid)
            && |x.response.discoveredFields| == |parsed.raws|
            && 1 <= x.response.samplesAnalyzed == |valid| <= DISCOVERY_SAMPLES
            && x.response.userIntent == userIntent
            && |x.response.sampleTexts| == |valid|
            && forall i :: 0 <= i < |parsed.raws| ==>
                 var f := x.response.discoveredFields[i];
                 && 0 <= f.confidence <= 100
                 && f.foundInSamples <= |valid|
                 && |f.sampleValues| == Min(VALUE_SAMPLES, |valid|))
  {
  }

  /** A single readable sample is enough for discovery to reach the model. */
  lemma OneReadableSampleSuffices(userIntent: string, files: seq<UploadedFile>,
                                  complete: string -> Result<string>, parse: string -> Parsed)
    requires !IsBlank(userIntent) && MIN_FILES <= |files| <= MAX_FILES
    requires ExtractText(files[0].pdfText).Some?
    ensures Discover(userIntent, files, complete, parse).modelPrompt.Some?
  {
    var first := if |files| <= DISCOVERY_SAMPLES then files else files[..DISCOVERY_SAMPLES];
    assert ReadSamples(first)[0] == ReadSample(files[0]);
    assert ReadSample(files[0]) in ValidSamples(ReadSamples(first));
  }
}

=== FILE: editor.dfy ===
/** The template editor dialog (components/TemplateEditor.tsx): the form state
    opened from a template or from nothing, the field-list edits, and the checks
    `handleSave` makes before it hands a template to its caller. The clock is a
    parameter: `now` for a new field's id, and a `Stamps` record for the three
    readings `handleSave` takes. */
module TemplateEditor {
  import opened Strings
  import opened Types
  import opened Templates

  const DEFAULT_DOCUMENT_TYPE := "invoice"
  const NO_NAME_ALERT := "Please enter a template name"
  const NO_FIELDS_ALERT := "Please add at least one field"
  const BLANK_FIELD_ALERT := "Please fill in all field names"

  /** The form: the `name`, `description`, `documentType` and `fields` states. */
  datatype Form = Form(name: string, description: string, documentType: string, fields: seq<Field>)

  /** How `handleSave` ends: an alert and no save, or the template passed to `onSave`. */
  datatype Outcome = Refused(alert: string) | Saved(template: Template)

  // ---------------------------------------------------------------------------
  // Opening the dialog

  /** The initial states: `template?.x || default` for each member. An empty name
      or description falls back to the empty string, so only an empty document
      type changes, to "invoice"; the field array is always taken as it is. */
  function InitialForm(template: Option<Template>): (f: Form)
    ensures template.None? ==> f == Form("", "", DEFAULT_DOCUMENT_TYPE, [])
    ensures template.Some? ==>
      && f.name == template.value.name
      && f.description == template.value.description
      && f.fields == template.value.fields
      && f.documentType != ""
      && (template.value.documentType != "" ==> f.documentType == template.value.documentType)
      && (template.value.documentType == "" ==> f.documentType == DEFAULT_DOCUMENT_TYPE)
  {
    match template
    case None => Form("", "", DEFAULT_DOCUMENT_TYPE, [])
    case Some(t) =>
      Form(StringOr(Some(t.name), ""), StringOr(Some(t.description), ""),
           StringOr(Some(t.documentType), DEFAULT_DOCUMENT_TYPE), t.fields)
  }

  // ---------------------------------------------------------------------------
  // Field list

  /** The field `addField` creates: unnamed, optional text with an id from the clock. */
  function NewField(now: nat): (f: Field)
    ensures f.name == "" && f.key == "" && f.description == ""
    ensures !f.required && f.fieldType == TextType
    ensures f.id == "field-" + NatToString(now)
  {
    Field("field-" + NatToString(now), "", "", "", false, TextType, None, None)
  }

  /** `addField`: a new field after the existing ones. */
  function AddField(fields: seq<Field>, now: nat): (r: seq<Field>)
    ensures |r| == |fields| + 1
    ensures r[..|fields|] == fields
    ensures IsBlank(r[|fields|].name)
  {
    fields + [NewField(now)]
  }

  /** A `Partial<ExtractionField>`: each member the update object carries. */
  datatype Patch = Patch(
    id: Option<string>,
    name: Option<string>,
    key: Option<string>,
    description: Option<string>,
    required: Option<bool>,
    fieldType: Option<FieldType>,
    enabled: Option<bool>,
    formatOptions: Option<FormatOptions>)

  const NoChange := Patch(None, None, None, None, None, None, None, None)

  /** The update the name input sends. */
  function Rename(name: string): Patch {
    NoChange.(name := Some(name))
  }

  /** A patched member: the given value, or the old one. */
  function Pick<T>(given: Option<T>, current: T): T {
    if given.Some? then given.value else current
  }

  /** `{ ...field, ...updates }`, after which a given name regenerates the key. */
  function Patched(f: Field, p: Patch): (r: Field)
    ensures p.name.Some? ==> r.key == GenerateFieldKey(p.name.value)
  {
    var merged := Field(
      Pick(p.id, f.id), Pick(p.name, f.name), Pick(p.key, f.key),
      Pick(p.description, f.description), Pick(p.required, f.required),
      Pick(p.fieldType, f.fieldType),
      if p.enabled.Some? then Some(p.enabled.value) else f.enabled,
      if p.formatOptions.Some? then Some(p.formatOptions.value) else f.formatOptions);
    if p.name.Some? then merged.(key := GenerateFieldKey(p.name.value)) else merged
  }

  /** `updateField`: only the field at `index` changes. A new name always brings
      the key derived from it, overriding a key given in the same update; without
      a name the key is the given one or the old one. Every other member is the
      given value when there is one and is kept otherwise. */
  function UpdateField(fields: seq<Field>, index: nat, p: Patch): (r: seq<Field>)
    requires index < |fields|
    ensures |r| == |fields|
    ensures forall j :: 0 <= j < |fields| && j != index ==> r[j] == fields[j]
    ensures p.name.Some? ==> r[index].name == p.name.value && r[index].key == GenerateFieldKey(p.name.value)
    ensures p.name.None? ==> r[index].name == fields[index].name
    ensures p.name.None? && p.key.Some? ==> r[index].key == p.key.value
    ensures p.name.None? && p.key.None? ==> r[index].key == fields[index].key
    ensures p.id.None? ==> r[index].id == fields[index].id
    ensures p.description.None? ==> r[index].description == fields[index].description
    ensures p.required.None? ==> r[index].required == fields[index].required
    ensures p.fieldType.None? ==> r[index].fieldType == fields[index].fieldType
    ensures p.enabled.None? ==> r[index].enabled == fields[index].enabled
    ensures p.formatOptions.None? ==> r[index].formatOptions == fields[index].formatOptions
    ensures p.id.Some? ==> r[index].id == p.id.value
    ensures p.description.Some? ==> r[index].description == p.description.value
    ensures p.required.Some? ==> r[index].required == p.required.value
    ensures p.fieldType.Some? ==> r[index].fieldType == p.fieldType.value
    ensures p.enabled.Some? ==> r[index].enabled == p.enabled
    ensures p.formatOptions.Some? ==> r[index].formatOptions == p.formatOptions
    ensures p == NoChange ==> r == fields
  {
    fields[index := Patched(fields[index], p)]
  }

  /** Typing a name twice is typing the second one: the first name and the key
      derived from it leave no trace. */
  lemma RenameTwice(fields: seq<Field>, index: nat, first: string, second: string)
    requires index < |fields|
    ensures UpdateField(UpdateField(fields, index, Rename(first)), index, Rename(second))
         == UpdateField(fields, index, Rename(second))
  {
  }

  /** Whatever the name, the key it brings is a key: only `[a-z0-9]`, and
      renaming the field to its own key keeps the key. */
  lemma RenamedKeyIsStable(fields: seq<Field>, index: nat, name: string)
    requires index < |fields|
    ensures var r := UpdateField(fields, index, Rename(name));
      && (forall i :: 0 <= i < |r[index].key| ==> IsKeyChar(r[index].key[i]))
      && UpdateField(r, index, Rename(r[index].key))[index].key == r[index].key
  {
    KeyIdempotent(name);
  }

  /** `removeField`: `fields.filter((_, i) => i !== index)`. */
  function RemoveField(fields: seq<Field>, index: int): (r: seq<Field>)
    ensures 0 <= index < |fields| ==> r == fields[..index] + fields[index + 1..]
    ensures !(0 <= index < |fields|) ==> r == fields
  {
    if 0 <= index < |fields| then
      WithoutIndexSplice(fields, index, 0);
      WithoutIndex(fields, index, 0)
    else
      WithoutIndexOutside(fields, index, 0);
      WithoutIndex(fields, index, 0)
  }

  /** Removing the field just added gives the list back. */
  lemma AddThenRemove(fields: seq<Field>, now: nat)
    ensures RemoveField(AddField(fields, now), |fields|) == fields
  {
    var added := AddField(fields, now);
    assert added[..|fields|] == fields;
    assert added[|fields| + 1..] == [];
  }

  // ---------------------------------------------------------------------------
  // Saving

  /** Some field has a name that is empty after `trim()`. */
  predicate HasUnnamedField(fields: seq<Field>) {
    exists i :: 0 <= i < |fields| && IsBlank(fields[i].name)
  }

  /** `handleSave`: the name, then the field count, then the field names are
      checked, each with its own alert. The saved template keeps the edited
      template's id and creation time unless those are empty or zero, when the
      clock supplies them; name and description are trimmed and the document
      type lower-cased. */
  function HandleSave(form: Form, template: Option<Template>, clock: Stamps): (r: Outcome)
    ensures IsBlank(form.name) ==> r == Refused(NO_NAME_ALERT)
    ensures !IsBlank(form.name) && |form.fields| == 0 ==> r == Refused(NO_FIELDS_ALERT)
    ensures !IsBlank(form.name) && |form.fields| > 0 && HasUnnamedField(form.fields) ==> r == Refused(BLANK_FIELD_ALERT)
    ensures r.Saved? <==> !IsBlank(form.name) && |form.fields| > 0 && !HasUnnamedField(form.fields)
    ensures r.Saved? ==>
      && r.template.name == Trim(form.name) && r.template.name != ""
      && r.template.description == Trim(form.description)
      && r.template.fields == form.fields
      && r.template.documentType == Lower(form.documentType)
      && r.template.updatedAt == clock.forUpdated
    ensures r.Saved? && template.Some? && template.value.id != "" ==> r.template.id == template.value.id
    ensures r.Saved? && (template.None? || template.value.id == "") ==>
      r.template.id == "template-" + NatToString(clock.forId)
    ensures r.Saved? && template.Some? && template.value.createdAt != 0 ==> r.template.createdAt == template.value.createdAt
    ensures r.Saved? && (template.None? || template.value.createdAt == 0) ==> r.template.createdAt == clock.forCreated
  {
    TrimEmptyIffBlank(form.name);
    if Trim(form.name) == [] then Refused(NO_NAME_ALERT)
    else if |form.fields| == 0 then Refused(NO_FIELDS_ALERT)
    else if HasUnnamedField(form.fields) then Refused(BLANK_FIELD_ALERT)
    else
      var id := if template.Some? && template.value.id != "" then template.value.id else "template-" + NatToString(clock.forId);
      var createdAt := if template.Some? && template.value.createdAt != 0 then template.value.createdAt else clock.forCreated;
      Saved(Template(id, Trim(form.name), Trim(form.description), form.fields, Lower(form.documentType), createdAt, clock.forUpdated))
  }

  /** A template as `handleSave` leaves it: trimmed non-empty name, trimmed
      description, lower-case non-empty document type, at least one field and
      every field named, a non-empty id and a non-zero creation time. */
  predicate Clean(t: Template) {
    && t.name != "" && Trim(t.name) == t.name
    && Trim(t.description) == t.description
    && t.documentType != "" && Lower(t.documentType) == t.documentType
    && |t.fields| > 0 && !HasUnnamedField(t.fields)
    && t.id != "" && t.createdAt != 0
  }

  /** What is saved from a form with a document type, with a non-zero creation
      reading, is clean. */
  lemma SavedIsClean(form: Form, template: Option<Template>, clock: Stamps)
    requires form.documentType != "" && clock.forCreated != 0
    requires HandleSave(form, template, clock).Saved?
    ensures Clean(HandleSave(form, template, clock).template)
  {
    var t := HandleSave(form, template, clock).template;
    TrimIdempotent(form.name);
    TrimIdempotent(form.description);
    LowerIdempotent(form.documentType);
  }

  /** Opening a clean template and saving without edits gives it back, touched
      only in its update time. */
  lemma ReopenAndSave(t: Template, clock: Stamps)
    requires Clean(t)
    ensures HandleSave(InitialForm(Some(t)), Some(t), clock) == Saved(t.(updatedAt := clock.forUpdated))
  {
    TrimEmptyIffBlank(t.name);
  }

  /** A field just added has no name, so the form cannot be saved until it has
      one (or is removed). */
  lemma AddedFieldBlocksSave(form: Form, template: Option<Template>, clock: Stamps, now: nat)
    requires !IsBlank(form.name)
    ensures HandleSave(form.(fields := AddField(form.fields, now)), template, clock) == Refused(BLANK_FIELD_ALERT)
  {
    var fields := AddField(form.fields, now);
    assert IsBlank(fields[|form.fields|].name);
  }

  /** Clearing a field's name blocks the save; naming the only unnamed field
      with something non-blank unblocks it. */
  lemma RenameDecidesSave(form: Form, template: Option<Template>, clock: Stamps, index: nat, name: string)
    requires !IsBlank(form.name) && index < |form.fields|
    requires forall j :: 0 <= j < |form.fields| && j != index ==> !IsBlank(form.fields[j].name)
    ensures HandleSave(form.(fields := UpdateField(form.fields, index, Rename(name))), template, clock).Saved?
        <==> !IsBlank(name)
  {
    var fields := UpdateField(form.fields, index, Rename(name));
    if IsBlank(name) {
      assert IsBlank(fields[index].name);
    }
  }
}

=== FILE: extract.dfy ===
/** The fixed-field extraction endpoint (app/api/extract-invoice/route.ts): it reads
    the text of one uploaded PDF, asks the model for the four invoice fields of a
    hard-coded prompt, removes a code fence around the reply and parses it. */
module ExtractInvoice {
  import opened Strings
  import opened Types
  import opened Fences
  import opened Templates

  const PDF_TYPE := "application/pdf"

  const NO_FILE := "No file provided"
  const NOT_PDF := "File must be a PDF"
  const UNREADABLE_PDF := "Failed to extract text from PDF"
  const NO_TEXT := "Could not extract text from PDF"
  const UNPARSABLE := "Failed to parse invoice data"

  /** The `file` form entry: its MIME type and, per page, the text items the PDF
      reader reports (`None` when the document cannot be read). */
  datatype Upload = Upload(mimeType: string, pages: Option<seq<seq<string>>>)

  /** The JSON body and status of the reply. */
  datatype Response =
    | Failure(status: int, error: string, details: Option<string>)
    | Extracted(invoiceData: Json)

  /** The reply together with the prompt sent to the model, if one was sent. */
  datatype Exchange = Exchange(response: Response, modelPrompt: Option<string>)

  // ---------------------------------------------------------------------------
  // Text of the document

  /** `extractTextFromPDF`: the items of each page joined by a space, each page
      followed by a newline. */
  function PdfText(pages: seq<seq<string>>): (r: string)
    ensures |r| >= |pages|
    ensures pages != [] ==> StartsWith(r, Join(pages[0], " ") + "\n")
  {
    if pages == [] then []
    else
      StartsWithConcat(Join(pages[0], " ") + "\n", PdfText(pages[1..]));
      Join(pages[0], " ") + "\n" + PdfText(pages[1..])
  }

  lemma BlankAppend(a: string, b: string)
    ensures IsBlank(a + b) <==> IsBlank(a) && IsBlank(b)
  {
    if IsBlank(a + b) {
      assert forall i :: 0 <= i < |a| ==> a[i] == (a + b)[i];
      assert forall i :: 0 <= i < |b| ==> b[i] == (a + b)[|a| + i];
    }
  }

  lemma {:induction false} JoinBlank(parts: seq<string>)
    ensures IsBlank(Join(parts, " ")) <==> forall i :: 0 <= i < |parts| ==> IsBlank(parts[i])
    decreases |parts|
  {
    if |parts| > 1 {
      JoinBlank(parts[1..]);
      BlankAppend(parts[0] + " ", Join(parts[1..], " "));
      BlankAppend(parts[0], " ");
      assert forall i :: 1 <= i < |parts| ==> parts[i] == parts[1..][i - 1];
    }
  }

  /** The document counts as empty exactly when every text item on every page is
      blank: the page separators alone never make it readable. */
  lemma {:induction false} PdfTextBlank(pages: seq<seq<string>>)
    ensures IsBlank(PdfText(pages)) <==>
      forall p, i :: 0 <= p < |pages| && 0 <= i < |pages[p]| ==> IsBlank(pages[p][i])
    decreases |pages|
  {
    if pages != [] {
      PdfTextBlank(pages[1..]);
      JoinBlank(pages[0]);
      BlankAppend(Join(pages[0], " ") + "\n", PdfText(pages[1..]));
      BlankAppend(Join(pages[0], " "), "\n");
      assert forall p :: 1 <= p < |pages| ==> pages[p] == pages[1..][p - 1];
    }
  }

  // ---------------------------------------------------------------------------
  // The prompt

  const PROMPT_HEAD := "You are an expert invoice data extractor. Analyze the following invoice text and extract these specific fields:\n\n1. Order ID\n2. Invoice NO. (Invoice Number)\n3. Tax Invoice Date (in YYYY-MM-DD format)\n4. Invoice Amount (total gross amount, include currency)\n\nInvoice text:\n"

  /** The members of the JSON object the prompt shows: key and placeholder. */
  const SHAPE_MEMBERS: seq<(string, string)> := [
    ("orderId", "extracted order id or booking number"),
    ("invoiceNo", "extracted invoice number"),
    ("taxInvoiceDate", "YYYY-MM-DD"),
    ("invoiceAmount", "amount with currency")]

  /** One member line of the shown object: `  "key": "placeholder"`. */
  function ShapeLine(key: string, placeholder: string): (r: string)
    ensures Contains(r, "\"" + key + "\"")
  {
    ContainsInfix("  ", "\"" + key + "\"", ": \"" + placeholder + "\"");
    "  " + ("\"" + key + "\"") + (": \"" + placeholder + "\"")
  }

  function ShapeLines(members: seq<(string, string)>): (r: seq<string>)
    ensures |r| == |members|
    ensures forall i :: 0 <= i < |members| ==> r[i] == ShapeLine(members[i].0, members[i].1)
  {
    if members == [] then []
    else [ShapeLine(members[0].0, members[0].1)] + ShapeLines(members[1..])
  }

  const TAIL_START := "\n\nPlease respond ONLY with a valid JSON object in this exact format (no additional text or markdown):\n{\n"

  const TAIL_END := "\n}\n\nIf a field cannot be found, use an empty string \"\". Be precise and extract exact values from the invoice."

  const PROMPT_TAIL := TAIL_START + Join(ShapeLines(SHAPE_MEMBERS), ",\n") + TAIL_END

  lemma Sandwich(a: string, b: string, c: string)
    ensures StartsWith(a + b + c, a) && EndsWith(a + b + c, c) && Contains(a + b + c, b)
  {
    assert a + b + c == a + (b + c);
    StartsWithConcat(a, b + c);
    EndsWithConcat(a + b, c);
    ContainsInfix(a, b, c);
  }

  /** The model prompt: the fixed instructions with the document text between them. */
  function InvoicePrompt(pdfText: string): (r: string)
    ensures StartsWith(r, PROMPT_HEAD) && EndsWith(r, PROMPT_TAIL)
    ensures Contains(r, pdfText)
  {
    Sandwich(PROMPT_HEAD, pdfText, PROMPT_TAIL);
    PROMPT_HEAD + pdfText + PROMPT_TAIL
  }

  /** The JSON shape the prompt asks for names, quoted, the key of every field of
      the built-in invoice template, in the template's order. */
  lemma PromptAsksForDefaultKeys(i: nat)
    requires i < |DEFAULT_TEMPLATE.fields|
    ensures SHAPE_MEMBERS[i].0 == DEFAULT_TEMPLATE.fields[i].key
    ensures Contains(PROMPT_TAIL, "\"" + DEFAULT_TEMPLATE.fields[i].key + "\"")
  {
    var lines := ShapeLines(SHAPE_MEMBERS);
    var body := Join(lines, ",\n");
    JoinContains(lines, ",\n", i);
    ContainsInfix(TAIL_START, body, TAIL_END);
    ContainsTrans(PROMPT_TAIL, body, lines[i]);
    ContainsTrans(PROMPT_TAIL, lines[i], "\"" + SHAPE_MEMBERS[i].0 + "\"");
  }

  // ---------------------------------------------------------------------------
  // Cleaning the reply

  /** `.replace(/```\n?$/, "")`: a fence, optionally followed by a newline, at the
      very end is removed. */
  function DropTrailingFence(s: string): (r: string)
    ensures |s| - 4 <= |r| <= |s| && r == s[..|r|]
    ensures r == s <==> !FenceAt(s, |s| - 3) && !(FenceAt(s, |s| - 4) && s[|s| - 1] == '\n')
    ensures r != s ==> FenceAt(s, |r|)
  {
    if FenceAt(s, |s| - 4) && s[|s| - 1] == '\n' then s[..|s| - 4]
    else if FenceAt(s, |s| - 3) then s[..|s| - 3]
    else s
  }

  /** The opening fence (with its tag, when it has one) and a newline after it go,
      then a closing fence; a text that does not open with a fence is kept. Unlike
      the discovery route, a fence anywhere else is left in place. */
  function Unfence(t: string): (r: string)
    ensures !FenceAt(t, 0) ==> r == t
    ensures FenceAt(t, 0) ==> |r| <= |t| - 3 && Contains(t, r)
  {
    if JsonFenceAtStart(t) then
      var r := DropTrailingFence(DropNewline(t[7..]));
      InnerPart(t, 7, r);
      r
    else if FenceAt(t, 0) then
      var r := DropTrailingFence(DropNewline(t[3..]));
      InnerPart(t, 3, r);
      r
    else t
  }

  lemma InnerPart(t: string, k: nat, r: string)
    requires k <= |t| && r == DropTrailingFence(DropNewline(t[k..]))
    ensures Contains(t, r)
  {
    var d := DropNewline(t[k..]);
    var a := if d == t[k..] then k else k + 1;
    assert d == t[a..];
    assert t[a..a + |r|] == r;
    assert MatchesAt(t, r, a);
  }

  /** The reply trimmed and unfenced: the text handed to `JSON.parse`. */
  function CleanReply(reply: string): (r: string)
    ensures !FenceAt(Trim(reply), 0) ==> r == Trim(reply)
    ensures Contains(Trim(reply), r)
  {
    if !FenceAt(Trim(reply), 0) then ContainsSelf(Trim(reply)); Unfence(Trim(reply))
    else Unfence(Trim(reply))
  }

  const JSON_OPENING := "```json\n"
  const PLAIN_OPENING := "```\n"
  const CLOSING := "\n```"

  /** A newline and a closing fence at the end are dropped together. */
  lemma DropClosing(j: string, closing: string)
    requires |closing| == 4 && closing[0] == '\n' && FenceAt(closing, 1)
    ensures DropTrailingFence(j + closing) == j + "\n"
  {
    var s := j + closing;
    assert s[|s| - 1] == closing[3] == '`';
    assert FenceAt(s, |s| - 3) by {
      assert s[|s| - 3] == closing[1] && s[|s| - 2] == closing[2];
    }
    assert s[..|j| + 1] == j + [closing[0]];
  }

  /** The text `opening + j + closing` when `opening` is a fence, its tag and a
      newline, and `closing` a newline and a fence: it unfences to `j` and that
      newline. */
  lemma {:induction false} UnfenceBlock(opening: string, j: string, closing: string, k: nat)
    requires |closing| == 4 && closing[0] == '\n' && FenceAt(closing, 1)
    requires |opening| == k + 1 && FenceAt(opening, 0) && opening[k] == '\n'
    requires k == if JsonFenceAtStart(opening) then 7 else 3
    ensures Unfence(opening + j + closing) == j + "\n"
  {
    var s := opening + j + closing;
    assert FenceAt(s, 0) by {
      assert s[0] == opening[0] && s[1] == opening[1] && s[2] == opening[2];
    }
    assert JsonFenceAtStart(s) <==> JsonFenceAtStart(opening) by {
      if |opening| >= 7 {
        assert s[3] == opening[3] && s[4] == opening[4] && s[5] == opening[5] && s[6] == opening[6];
      } else {
        assert s[3] == '\n';
      }
    }
    assert s[k..] == [opening[k]] + (j + closing);
    DropClosing(j, closing);
  }

  /** A fenced block is already trimmed: it opens and closes with a backtick. */
  lemma CleanBlock(opening: string, j: string, closing: string, k: nat)
    requires |closing| == 4 && closing[0] == '\n' && FenceAt(closing, 1)
    requires |opening| == k + 1 && FenceAt(opening, 0) && opening[k] == '\n'
    requires k == if JsonFenceAtStart(opening) then 7 else 3
    ensures CleanReply(opening + j + closing) == j + "\n"
  {
    var s := opening + j + closing;
    assert s[0] == opening[0] && s[|s| - 1] == closing[3];
    TrimOfTrimmed(s);
    UnfenceBlock(opening, j, closing, k);
  }

  /** A reply fenced as a `json` code block yields its contents (and the newline
      before the closing fence, which `JSON.parse` ignores). */
  lemma CleanJsonBlock(j: string)
    ensures CleanReply(JSON_OPENING + j + CLOSING) == j + "\n"
  {
    CleanBlock(JSON_OPENING, j, CLOSING, 7);
  }

  /** The same for an untagged code block. */
  lemma CleanPlainBlock(j: string)
    ensures CleanReply(PLAIN_OPENING + j + CLOSING) == j + "\n"
  {
    CleanBlock(PLAIN_OPENING, j, CLOSING, 3);
  }

  /** A reply that does not open with a fence reaches the parser trimmed and
      otherwise untouched, fences inside it included. */
  lemma UnfencedReplyKept(reply: string)
    requires reply == Trim(reply) && !FenceAt(reply, 0)
    ensures CleanReply(reply) == reply
  {
  }

  // ---------------------------------------------------------------------------
  // The route

  /** `POST`. `complete` is the model call (an error carries the message of what it
      throws) and `parse` is `JSON.parse` (`None` when it throws). Whatever value
      the reply parses to, an object of the four fields or not, is returned as the
      invoice data. */
  function Extract(file: Option<Upload>, complete: string -> Result<string>,
                   parse: string -> Option<Json>): (x: Exchange)
    ensures file.None? ==> x == Exchange(Failure(400, NO_FILE, None), None)
    ensures file.Some? && file.value.mimeType != PDF_TYPE ==>
      x == Exchange(Failure(400, NOT_PDF, None), None)
    ensures file.Some? && file.value.mimeType == PDF_TYPE && file.value.pages.None? ==>
      x == Exchange(Failure(500, UNREADABLE_PDF, None), None)
    ensures (file.Some? && file.value.mimeType == PDF_TYPE && file.value.pages.Some? &&
             IsBlank(PdfText(file.value.pages.value))) ==>
      x == Exchange(Failure(400, NO_TEXT, None), None)
    ensures x.modelPrompt.Some? <==>
      file.Some? && file.value.mimeType == PDF_TYPE && file.value.pages.Some? &&
      !IsBlank(PdfText(file.value.pages.value))
    ensures x.modelPrompt.Some? ==>
      Contains(x.modelPrompt.value, PdfText(file.value.pages.value)) &&
      StartsWith(x.modelPrompt.value, PROMPT_HEAD)
    ensures x.response.Extracted? ==>
      x.modelPrompt.Some? && complete(x.modelPrompt.value).Ok? &&
      parse(CleanReply(complete(x.modelPrompt.value).value)) == Some(x.response.invoiceData)
  {
    if file.None? then Exchange(Failure(400, NO_FILE, None), None)
    else if file.value.mimeType != PDF_TYPE then Exchange(Failure(400, NOT_PDF, None), None)
    else if file.value.pages.None? then Exchange(Failure(500, UNREADABLE_PDF, None), None)
    else
      var text := PdfText(file.value.pages.value);
      TrimEmptyIffBlank(text);
      if Trim(text) == [] then Exchange(Failure(400, NO_TEXT, None), None)
      else
        var prompt := InvoicePrompt(text);
        match complete(prompt)
        case Err(message) => Exchange(Failure(500, message, None), Some(prompt))
        case Ok(reply) =>
          match parse(CleanReply(reply))
          case None => Exchange(Failure(500, UNPARSABLE, Some(reply)), Some(prompt))
          case Some(data) => Exchange(Extracted(data), Some(prompt))
  }

  /** Once the model has been asked: its failure is a 500 with its message, an
      unparsable reply a 500 carrying the raw reply, and anything else the parsed data. */
  lemma ExtractOutcome(file: Option<Upload>, complete: string -> Result<string>,
                       parse: string -> Option<Json>)
    requires file.Some? && file.value.mimeType == PDF_TYPE && file.value.pages.Some?
    requires !IsBlank(PdfText(file.value.pages.value))
    ensures var call := complete(InvoicePrompt(PdfText(file.value.pages.value)));
      var x := Extract(file, complete, parse);
      && (call.Err? ==> x.response == Failure(500, call.message, None))
      && (call.Ok? && parse(CleanReply(call.value)).None? ==>
            x.response == Failure(500, UNPARSABLE, Some(call.value)))
      && (call.Ok? && parse(CleanReply(call.value)).Some? ==>
            x.response == Extracted(parse(CleanReply(call.value)).value))
  {
    TrimEmptyIffBlank(PdfText(file.value.pages.value));
  }

  /** A document whose pages hold a single non-blank item is sent to the model. */
  lemma ReadableDocumentReachesModel(file: Option<Upload>, complete: string -> Result<string>,
                                     parse: string -> Option<Json>, p: nat, i: nat)
    requires file.Some? && file.value.mimeType == PDF_TYPE && file.value.pages.Some?
    requires p < |file.value.pages.value| && i < |file.value.pages.value[p]|
    requires !IsBlank(file.value.pages.value[p][i])
    ensures Extract(file, complete, parse).modelPrompt.Some?
  {
    PdfTextBlank(file.value.pages.value);
  }
}

=== FILE: fences.dfy ===
/** Markdown code fences as the two API routes recognise them in a model's reply:
    three backticks, optionally tagged `json`, optionally followed by a newline. */
module Fences {
  import opened Strings

  const FENCE := "```"

  /** Three backticks at index `i`. */
  predicate FenceAt(s: string, i: int) {
    0 <= i && i + 3 <= |s| && s[i] == '`' && s[i + 1] == '`' && s[i + 2] == '`'
  }

  /** `json` right after a fence at the start. */
  predicate JsonFenceAtStart(s: string) {
    FenceAt(s, 0) && |s| >= 7 && s[3] == 'j' && s[4] == 's' && s[5] == 'o' && s[6] == 'n'
  }

  lemma FenceAtIsMatch(s: string, i: int)
    ensures FenceAt(s, i) <==> MatchesAt(s, FENCE, i)
  {
    if MatchesAt(s, FENCE, i) {
      assert s[i..i + 3][0] == s[i] && s[i..i + 3][1] == s[i + 1] && s[i..i + 3][2] == s[i + 2];
    }
    if FenceAt(s, i) {
      assert s[i..i + 3] == FENCE;
    }
  }

  function DropNewline(s: string): (r: string)
    ensures r == s || (s != [] && s[0] == '\n' && r == s[1..])
  {
    if s != [] && s[0] == '\n' then s[1..] else s
  }
}

=== FILE: highlights.dfy ===
/** The highlighted sample text of the discovery wizard
    (`renderHighlightedText` in components/DiscoveryWizard.tsx): every
    case-insensitive occurrence of each field's sample value is found, the
    occurrences are ordered by position, and the text is cut into plain and
    highlighted segments. */
module Highlights {
  import opened Strings
  import opened Discovery

  /** The shortest sample value that is searched for. */
  const MIN_VALUE_LENGTH := 2

  /** One occurrence: `[start, end)` of the text, and the field it belongs to. */
  datatype Highlight = Highlight(start: nat, end: nat, fieldKey: string, fieldName: string, value: string)

  /** A rendered piece of the text: `[start, end)`, highlighted or not. */
  datatype Segment = Plain(start: nat, end: nat) | Marked(start: nat, end: nat, fieldKey: string)

  // ---------------------------------------------------------------------------
  // Searching

  /** The inner `while` loop: from `from` on, the first occurrence of `value` in
      `text` (both lower-cased), then the first one after it, and so on. */
  function Occurrences(text: string, value: string, from: nat): (r: seq<nat>)
    requires |value| > 0
    ensures forall j :: 0 <= j < |r| ==> from <= r[j] && MatchesAt(text, value, r[j])
    ensures forall j :: 0 < j < |r| ==> r[j - 1] + |value| <= r[j]
    decreases |text| - from
  {
    if from >= |text| then []
    else match IndexOfFrom(text, value, from)
      case None => []
      case Some(i) => [i] + Occurrences(text, value, i + |value|)
  }

  /** Some occurrence in `r` of a value of length `len` covers position `q`. */
  predicate Covers(r: seq<nat>, len: nat, q: nat) {
    exists j :: 0 <= j < |r| && r[j] <= q < r[j] + len
  }

  /** The search misses nothing: every occurrence at or after `from` is found or
      overlaps one that is (occurrences are taken left to right, without overlap). */
  lemma {:induction false} OccurrencesComplete(text: string, value: string, from: nat, q: nat)
    requires |value| > 0 && from <= q && MatchesAt(text, value, q)
    ensures Covers(Occurrences(text, value, from), |value|, q)
    decreases |text| - from
  {
    var r := Occurrences(text, value, from);
    assert from < |text|;
    var found := IndexOfFrom(text, value, from);
    assert found.Some?;
    var i := found.value;
    assert r == [i] + Occurrences(text, value, i + |value|);
    assert i <= q;
    if q < i + |value| {
      assert r[0] <= q < r[0] + |value|;
    } else {
      OccurrencesComplete(text, value, i + |value|, q);
      CoversCons(i, Occurrences(text, value, i + |value|), |value|, q);
    }
  }

  /** A position covered by a list is covered once another occurrence is put in front. */
  lemma CoversCons(i: nat, rest: seq<nat>, len: nat, q: nat)
    requires Covers(rest, len, q)
    ensures Covers([i] + rest, len, q)
  {
    var j :| 0 <= j < |rest| && rest[j] <= q < rest[j] + len;
    assert ([i] + rest)[j + 1] == rest[j];
  }

  /** `field.sampleValues[sampleIndex]?.value`, with a missing value read as "". */
  function SampleValue(f: DiscoveredField, sampleIndex: nat): string {
    if sampleIndex < |f.sampleValues| then f.sampleValues[sampleIndex].value else ""
  }

  /** A highlight is an occurrence of its value, matched ignoring case. */
  predicate ValidHighlight(text: string, h: Highlight) {
    && h.start + |h.value| == h.end <= |text|
    && |h.value| >= MIN_VALUE_LENGTH
    && Lower(text[h.start..h.end]) == Lower(h.value)
  }

  /** One highlight per position of `found`, each an occurrence of `v`. */
  function HighlightsAt(text: string, f: DiscoveredField, v: string, found: seq<nat>): (r: seq<Highlight>)
    requires |v| >= MIN_VALUE_LENGTH
    requires forall j :: 0 <= j < |found| ==> MatchesAt(Lower(text), Lower(v), found[j])
    requires forall j :: 0 < j < |found| ==> found[j - 1] + |v| <= found[j]
    ensures |r| == |found|
    ensures forall j :: 0 <= j < |r| ==> ValidHighlight(text, r[j]) && r[j].fieldKey == f.suggestedKey
    ensures forall j :: 0 < j < |r| ==> r[j - 1].end <= r[j].start
    decreases |found|
  {
    if found == [] then []
    else
      var h := Highlight(found[0], found[0] + |v|, f.suggestedKey, f.suggestedName, v);
      assert MatchesAt(Lower(text), Lower(v), found[0]);
      LowerSlice(text, h.start, h.end);
      assert forall j :: 0 <= j < |found[1..]| ==> found[1..][j] == found[j + 1];
      var rest := HighlightsAt(text, f, v, found[1..]);
      assert |rest| > 0 ==> rest[0].start == found[1];
      [h] + rest
  }

  /** The highlights of one field: none when its sample value is shorter than two. */
  function FieldHighlights(text: string, f: DiscoveredField, sampleIndex: nat): (r: seq<Highlight>)
    ensures forall j :: 0 <= j < |r| ==> ValidHighlight(text, r[j]) && r[j].fieldKey == f.suggestedKey
    ensures forall j :: 0 < j < |r| ==> r[j - 1].end <= r[j].start
  {
    var v := SampleValue(f, sampleIndex);
    if |v| < MIN_VALUE_LENGTH then []
    else HighlightsAt(text, f, v, Occurrences(Lower(text), Lower(v), 0))
  }

  /** The outer `forEach`: the fields' highlights, field by field. */
  function AllHighlights(text: string, fields: seq<DiscoveredField>, sampleIndex: nat): (r: seq<Highlight>)
    ensures forall j :: 0 <= j < |r| ==> ValidHighlight(text, r[j])
  {
    if fields == [] then []
    else FieldHighlights(text, fields[0], sampleIndex) + AllHighlights(text, fields[1..], sampleIndex)
  }

  // ---------------------------------------------------------------------------
  // Ordering

  predicate SortedByStart(hs: seq<Highlight>) {
    forall j, k :: 0 <= j < k < |hs| ==> hs[j].start <= hs[k].start
  }

  function Insert(h: Highlight, hs: seq<Highlight>): (r: seq<Highlight>)
    requires SortedByStart(hs)
    ensures SortedByStart(r)
    ensures multiset(r) == multiset(hs) + multiset{h}
    ensures |r| == |hs| + 1
    ensures r[0] == h || (hs != [] && r[0] == hs[0])
  {
    if hs == [] || h.start <= hs[0].start then [h] + hs
    else
      var rest := Insert(h, hs[1..]);
      ConsSorted(hs[0], rest);
      ConsMultiset(hs, rest, h);
      [hs[0]] + rest
  }

  lemma ConsMultiset(hs: seq<Highlight>, rest: seq<Highlight>, h: Highlight)
    requires hs != [] && multiset(rest) == multiset(hs[1..]) + multiset{h}
    ensures multiset([hs[0]] + rest) == multiset(hs) + multiset{h}
  {
    assert hs == [hs[0]] + hs[1..];
  }

  /** A highlight starting no later than the first of a sorted list can go in front. */
  lemma ConsSorted(x: Highlight, rest: seq<Highlight>)
    requires SortedByStart(rest)
    requires rest != [] ==> x.start <= rest[0].start
    ensures SortedByStart([x] + rest)
  {
    var r := [x] + rest;
    forall j, k | 0 <= j < k < |r| ensures r[j].start <= r[k].start {
      if j == 0 {
        assert r[k] == rest[k - 1];
        assert rest[0].start <= rest[k - 1].start;
      } else {
        assert r[j] == rest[j - 1] && r[k] == rest[k - 1];
      }
    }
  }

  /** `highlights.sort((a, b) => a.start - b.start)`: the same highlights ordered by
      start. */
  function SortByStart(hs: seq<Highlight>): (r: seq<Highlight>)
    ensures SortedByStart(r)
    ensures multiset(r) == multiset(hs)
    ensures |r| == |hs|
  {
    if hs == [] then []
    else
      assert hs == [hs[0]] + hs[1..];
      Insert(hs[0], SortByStart(hs[1..]))
  }

  // ---------------------------------------------------------------------------
  // Rendering

  /** The text a segment shows. */
  function SegmentText(text: string, s: Segment): string {
    if s.start <= s.end <= |text| then text[s.start..s.end] else ""
  }

  /** What the segments show, in order. */
  function Shown(text: string, segs: seq<Segment>): string {
    if segs == [] then "" else SegmentText(text, segs[0]) + Shown(text, segs[1..])
  }

  lemma {:induction false} ShownAppend(text: string, a: seq<Segment>, b: seq<Segment>)
    ensures Shown(text, a + b) == Shown(text, a) + Shown(text, b)
    decreases |a|
  {
    if a != [] {
      assert (a + b)[0] == a[0];
      assert (a + b)[1..] == a[1..] + b;
      ShownAppend(text, a[1..], b);
      calc {
        Shown(text, a + b);
        SegmentText(text, a[0]) + Shown(text, a[1..] + b);
        SegmentText(text, a[0]) + (Shown(text, a[1..]) + Shown(text, b));
        (SegmentText(text, a[0]) + Shown(text, a[1..])) + Shown(text, b);
        Shown(text, a) + Shown(text, b);
      }
    } else {
      assert a + b == b;
    }
  }

  /** The `forEach` over the sorted highlights as written: the plain text since the
      last highlight when there is a gap, then the highlight, whose end becomes the
      new position even when it overlaps what was already shown. */
  function RenderAsWritten(text: string, hs: seq<Highlight>, last: nat): (r: seq<Segment>)
    ensures hs == [] && last < |text| ==> r == [Plain(last, |text|)]
  {
    if hs == [] then (if last < |text| then [Plain(last, |text|)] else [])
    else
      var h := hs[0];
      (if h.start > last then [Plain(last, h.start)] else [])
      + [Marked(h.start, h.end, h.fieldKey)]
      + RenderAsWritten(text, hs[1..], h.end)
  }

  /** The rendering with overlaps left out: a highlight that starts inside text
      already shown is skipped, so that the segments show the text exactly once. */
  function RenderDisjoint(text: string, hs: seq<Highlight>, last: nat): (r: seq<Segment>)
  {
    if hs == [] then (if last < |text| then [Plain(last, |text|)] else [])
    else
      var h := hs[0];
      if h.start < last then RenderDisjoint(text, hs[1..], last)
      else
        (if h.start > last then [Plain(last, h.start)] else [])
        + [Marked(h.start, h.end, h.fieldKey)]
        + RenderDisjoint(text, hs[1..], h.end)
  }

  predicate InText(text: string, hs: seq<Highlight>) {
    forall j :: 0 <= j < |hs| ==> hs[j].start <= hs[j].end <= |text|
  }

  /** A single segment inside the text shows its slice. */
  lemma ShownOne(text: string, s: Segment)
    requires s.start <= s.end <= |text|
    ensures Shown(text, [s]) == text[s.start..s.end]
  {
    assert [s][1..] == [];
    assert Shown(text, [s]) == text[s.start..s.end] + "";
  }

  lemma SuffixSplit(text: string, a: nat, b: nat)
    requires a <= b <= |text|
    ensures text[a..] == text[a..b] + text[b..]
  {
  }

  /** The disjoint rendering shows the text from `last` on, unchanged. */
  lemma {:induction false} RenderDisjointShowsText(text: string, hs: seq<Highlight>, last: nat)
    requires InText(text, hs) && last <= |text|
    ensures Shown(text, RenderDisjoint(text, hs, last)) == text[last..]
    decreases |hs|
  {
    if hs == [] {
      if last < |text| {
        ShownOne(text, Plain(last, |text|));
      }
    } else {
      var h := hs[0];
      assert InText(text, hs[1..]) by {
        forall j | 0 <= j < |hs[1..]| ensures hs[1..][j].start <= hs[1..][j].end <= |text| {
          assert hs[1..][j] == hs[j + 1];
        }
      }
      if h.start < last {
        RenderDisjointShowsText(text, hs[1..], last);
      } else {
        var m := Marked(h.start, h.end, h.fieldKey);
        var pre: seq<Segment> := if h.start > last then [Plain(last, h.start)] else [];
        var rest := RenderDisjoint(text, hs[1..], h.end);
        assert RenderDisjoint(text, hs, last) == pre + [m] + rest;
        RenderDisjointShowsText(text, hs[1..], h.end);
        ShownAppend(text, pre + [m], rest);
        ShownAppend(text, pre, [m]);
        ShownOne(text, m);
        if h.start > last {
          ShownOne(text, Plain(last, h.start));
        } else {
          assert Shown(text, pre) == [] == text[last..h.start];
        }
        SuffixSplit(text, last, h.start);
        SuffixSplit(text, h.start, h.end);
      }
    }
  }

  predicate Disjoint(hs: seq<Highlight>, last: nat) {
    && (hs != [] ==> last <= hs[0].start)
    && forall j :: 0 < j < |hs| ==> hs[j - 1].end <= hs[j].start
  }

  /** Without overlaps the code as written renders exactly the disjoint rendering. */
  lemma {:induction false} AsWrittenWithoutOverlap(text: string, hs: seq<Highlight>, last: nat)
    requires Disjoint(hs, last)
    ensures RenderAsWritten(text, hs, last) == RenderDisjoint(text, hs, last)
    decreases |hs|
  {
    if hs != [] {
      assert Disjoint(hs[1..], hs[0].end) by {
        forall j | 0 < j < |hs[1..]| ensures hs[1..][j - 1].end <= hs[1..][j].start {
          assert hs[1..][j - 1] == hs[j] && hs[1..][j] == hs[j + 1];
        }
        if |hs| > 1 { assert hs[1..][0] == hs[1]; }
      }
      AsWrittenWithoutOverlap(text, hs[1..], hs[0].end);
    }
  }

  /** The example "abc" with sample values "abc" and "bc": the second occurrence
      starts inside the first, and the code as written shows "bc" twice. */
  lemma OverlapShownTwice()
    ensures var text := "abc";
      var hs := [Highlight(0, 3, "total", "Total", "abc"), Highlight(1, 3, "cents", "Cents", "bc")];
      && ValidHighlight(text, hs[0]) && ValidHighlight(text, hs[1]) && SortedByStart(hs)
      && Shown(text, RenderAsWritten(text, hs, 0)) == "abcbc"
      && Shown(text, RenderDisjoint(text, hs, 0)) == text
  {
    var text := "abc";
    var h0, h1 := Highlight(0, 3, "total", "Total", "abc"), Highlight(1, 3, "cents", "Cents", "bc");
    var hs := [h0, h1];
    assert text[0..3] == "abc" && text[1..3] == "bc";
    LowerWithoutCapitals("abc");
    LowerWithoutCapitals("bc");
    var m0, m1 := Marked(0, 3, "total"), Marked(1, 3, "cents");
    assert hs[1..] == [h1] && [h1][1..] == [];
    assert RenderAsWritten(text, [h1], 3) == [m1];
    assert RenderAsWritten(text, hs, 0) == [m0] + [m1];
    ShownAppend(text, [m0], [m1]);
    ShownOne(text, m0);
    ShownOne(text, m1);
    assert text[0..3] + text[1..3] == "abcbc";
    RenderDisjointShowsText(text, hs, 0);
    assert text[0..] == text;
  }

  /** The highlighted segments of a rendering, in order. */
  function Marks(segs: seq<Segment>): seq<Segment> {
    if segs == [] then [] else (if segs[0].Marked? then [segs[0]] else []) + Marks(segs[1..])
  }

  /** One highlighted segment per highlight, in the highlights' order. */
  function MarksOf(hs: seq<Highlight>): (r: seq<Segment>)
    ensures |r| == |hs|
  {
    if hs == [] then [] else [Marked(hs[0].start, hs[0].end, hs[0].fieldKey)] + MarksOf(hs[1..])
  }

  lemma {:induction false} MarksAppend(a: seq<Segment>, b: seq<Segment>)
    ensures Marks(a + b) == Marks(a) + Marks(b)
    decreases |a|
  {
    if a == [] {
      assert a + b == b;
    } else {
      assert (a + b)[0] == a[0];
      assert (a + b)[1..] == a[1..] + b;
      MarksAppend(a[1..], b);
    }
  }

  /** The code as written highlights every highlight once, in order, whether or
      not it overlaps the ones before it. */
  lemma {:induction false} AsWrittenMarksEvery(text: string, hs: seq<Highlight>, last: nat)
    ensures Marks(RenderAsWritten(text, hs, last)) == MarksOf(hs)
    decreases |hs|
  {
    if hs != [] {
      var h := hs[0];
      var pre := if h.start > last then [Plain(last, h.start)] else [];
      var m := Marked(h.start, h.end, h.fieldKey);
      var rest := RenderAsWritten(text, hs[1..], h.end);
      assert RenderAsWritten(text, hs, last) == pre + [m] + rest;
      MarksAppend(pre + [m], rest);
      MarksAppend(pre, [m]);
      assert Marks(pre) == [];
      assert Marks([m]) == [m] by {
        assert [m][1..] == [];
      }
      AsWrittenMarksEvery(text, hs[1..], h.end);
    }
  }

  /** `renderHighlightedText`: nothing for an empty text ("No text available"),
      otherwise the segments of the code as written over the sorted highlights.
      Every occurrence found is highlighted once, in order of position; the text
      is shown exactly once when the occurrences do not overlap (with overlaps,
      see `OverlapShownTwice`). */
  function RenderHighlightedText(text: string, fields: seq<DiscoveredField>, sampleIndex: nat): (r: Option<seq<Segment>>)
    ensures r.None? <==> text == []
    ensures r.Some? ==> Marks(r.value) == MarksOf(SortByStart(AllHighlights(text, fields, sampleIndex)))
    ensures r.Some? && Disjoint(SortByStart(AllHighlights(text, fields, sampleIndex)), 0) ==>
      Shown(text, r.value) == text
  {
    if text == [] then None
    else
      var hs := SortByStart(AllHighlights(text, fields, sampleIndex));
      AsWrittenMarksEvery(text, hs, 0);
      SortedInText(text, AllHighlights(text, fields, sampleIndex));
      AsWrittenShowsDisjoint(text, hs);
      Some(RenderAsWritten(text, hs, 0))
  }

  /** Highlights inside the text that follow one another without overlap are
      shown exactly by the code as written. */
  lemma AsWrittenShowsDisjoint(text: string, hs: seq<Highlight>)
    requires InText(text, hs)
    ensures Disjoint(hs, 0) ==> Shown(text, RenderAsWritten(text, hs, 0)) == text
  {
    if Disjoint(hs, 0) {
      AsWrittenWithoutOverlap(text, hs, 0);
      RenderDisjointShowsText(text, hs, 0);
      assert text[0..] == text;
    }
  }

  /** Sorting valid highlights keeps them inside the text. */
  lemma SortedInText(text: string, all: seq<Highlight>)
    requires forall j :: 0 <= j < |all| ==> ValidHighlight(text, all[j])
    ensures InText(text, SortByStart(all))
  {
    var hs := SortByStart(all);
    forall j | 0 <= j < |hs| ensures hs[j].start <= hs[j].end <= |text| {
      var k := SameElement(hs, all, j);
      assert ValidHighlight(text, all[k]);
    }
  }

  /** Where an element of one ordering sits in the other. */
  lemma SameElement(a: seq<Highlight>, b: seq<Highlight>, j: nat) returns (k: nat)
    requires multiset(a) == multiset(b) && j < |a|
    ensures k < |b| && b[k] == a[j]
  {
    assert a[j] in multiset(a);
    assert a[j] in b;
    k :| 0 <= k < |b| && b[k] == a[j];
  }

  /** With a single field the highlights never overlap, so the code as written
      already shows the text exactly. */
  lemma SingleFieldShownExactly(text: string, f: DiscoveredField, sampleIndex: nat)
    requires text != []
    ensures var hs := SortByStart(AllHighlights(text, [f], sampleIndex));
      Shown(text, RenderAsWritten(text, hs, 0)) == text
  {
    SingleFieldAll(text, f, sampleIndex);
    DisjointShownExactly(text, FieldHighlights(text, f, sampleIndex));
  }

  /** The highlights of a one-field list are that field's. */
  lemma SingleFieldAll(text: string, f: DiscoveredField, sampleIndex: nat)
    ensures AllHighlights(text, [f], sampleIndex) == FieldHighlights(text, f, sampleIndex)
  {
    assert [f][1..] == [];
    assert FieldHighlights(text, f, sampleIndex) + [] == FieldHighlights(text, f, sampleIndex);
  }

  /** Valid highlights that follow one another without overlap are shown exactly
      by the code as written. */
  lemma DisjointShownExactly(text: string, hs: seq<Highlight>)
    requires forall j :: 0 <= j < |hs| ==> ValidHighlight(text, hs[j])
    requires forall j :: 0 < j < |hs| ==> hs[j - 1].end <= hs[j].start
    ensures Shown(text, RenderAsWritten(text, SortByStart(hs), 0)) == text
  {
    assert forall j :: 0 <= j < |hs| ==> hs[j].start <= hs[j].end <= |text|;
    SortedDisjointUnchanged(hs);
    AsWrittenWithoutOverlap(text, hs, 0);
    RenderDisjointShowsText(text, hs, 0);
    assert text[0..] == text;
  }

  /** Highlights that already follow one another without overlap are left in place
      by the sort. */
  lemma {:induction false} SortedDisjointUnchanged(hs: seq<Highlight>)
    requires forall j :: 0 < j < |hs| ==> hs[j - 1].end <= hs[j].start
    requires forall j :: 0 <= j < |hs| ==> hs[j].start <= hs[j].end
    ensures SortByStart(hs) == hs
    decreases |hs|
  {
    if hs != [] {
      SortedDisjointUnchanged(hs[1..]);
      if |hs| > 1 {
        assert hs[1..][0] == hs[1];
        assert hs[0].start <= hs[1].start;
      }
    }
  }
}

=== FILE: prompts.dfy ===
/** Prompt compilation and prompt bookkeeping (lib/prompt-engineering.ts): the
    extraction prompt built from a template, the document-classification prompt,
    and the per-template histories kept in localStorage. */
module PromptEngineering {
  import opened Strings
  import opened Types

  /** `PromptOptions`; an absent `options` object is `NoOptions`. `includeExamples`
      is declared in the source but never read, so it is not represented. */
  datatype PromptOptions = PromptOptions(
    enabledFields: Option<set<string>>,
    customInstructions: Option<map<string, string>>,
    strictMode: bool)

  const NoOptions := PromptOptions(None, None, false)

  /** The `{ prompt, version }` pair returned by `buildExtractionPrompt`. */
  datatype CompiledPrompt = CompiledPrompt(prompt: string, version: string)

  const NO_FIELDS_MESSAGE := "No fields enabled for extraction"

  // ---------------------------------------------------------------------------
  // Active fields

  /** A field survives the filter when no key set is given or its key is in it. */
  predicate IsActive(f: Field, enabled: Option<set<string>>) {
    enabled.None? || f.key in enabled.value
  }

  /** `template.fields.filter(...)` on `options.enabledFields`. */
  function ActiveFields(fields: seq<Field>, enabled: Option<set<string>>): (r: seq<Field>)
    ensures |r| <= |fields|
    ensures forall f :: f in r <==> f in fields && IsActive(f, enabled)
    ensures enabled.None? ==> r == fields
  {
    if fields == [] then []
    else if IsActive(fields[0], enabled) then [fields[0]] + ActiveFields(fields[1..], enabled)
    else ActiveFields(fields[1..], enabled)
  }

  /** The filter keeps the original order: it distributes over concatenation. */
  lemma {:induction false} ActiveFieldsAppend(a: seq<Field>, b: seq<Field>, enabled: Option<set<string>>)
    ensures ActiveFields(a + b, enabled) == ActiveFields(a, enabled) + ActiveFields(b, enabled)
    decreases |a|
  {
    if a == [] {
      assert a + b == b;
    } else {
      assert (a + b)[1..] == a[1..] + b;
      ActiveFieldsAppend(a[1..], b, enabled);
    }
  }

  // ---------------------------------------------------------------------------
  // Field lines

  const DECIMAL_HINT := " (IMPORTANT: Extract ONLY the numeric decimal value, NO currency symbols. Example: '267.35' not 'S$267.35')"
  const CODE_HINT := " (include currency code: USD 267.35 or SGD 267.35)"
  const COMMAS_HINT := " (format with commas: 1,234.56)"
  const NUMERIC_HINT := " (extract as numeric value only)"

  function Formats(f: Field): FormatOptions {
    if f.formatOptions.Some? then f.formatOptions.value else NoFormatOptions
  }

  /** The currency format in force: `formatOptions?.currencyFormat || "decimal"`. */
  function CurrencyFormat(f: Field): string {
    StringOr(Formats(f).currencyFormat, "decimal")
  }

  /** The type hint appended to a field's line. */
  function TypeHint(f: Field): (h: string)
    ensures f.fieldType == DateType ==>
      h == " (format as " + StringOr(Formats(f).dateFormat, "YYYY-MM-DD") + ")"
    ensures f.fieldType == NumberType ==>
      h == (if Formats(f).numberFormat == Some("with-commas") then COMMAS_HINT else NUMERIC_HINT)
    ensures f.fieldType == CurrencyType ==>
      var format := StringOr(Formats(f).currencyFormat, "decimal");
      h == (if format == "decimal" then DECIMAL_HINT
            else if format == "with-symbol" then
              " (include currency symbol: " + StringOr(Formats(f).currencySymbol, "$") + "267.35)"
            else if format == "with-code" then CODE_HINT
            else "")
    ensures f.fieldType.TextType? || f.fieldType.OtherType? ==> h == ""
  {
    match f.fieldType
    case DateType => " (format as " + StringOr(Formats(f).dateFormat, "YYYY-MM-DD") + ")"
    case CurrencyType =>
      var format := CurrencyFormat(f);
      if format == "decimal" then DECIMAL_HINT
      else if format == "with-symbol" then
        " (include currency symbol: " + StringOr(Formats(f).currencySymbol, "$") + "267.35)"
      else if format == "with-code" then CODE_HINT
      else ""
    case NumberType =>
      if StringOr(Formats(f).numberFormat, "plain") == "with-commas" then COMMAS_HINT else NUMERIC_HINT
    case TextType => ""
    case OtherType(_) => ""
  }

  /** Exactly text fields, fields of an unknown type, and currency fields with an
      unrecognised format get no hint; a missing currency format counts as decimal. */
  lemma HintEmptyIff(f: Field)
    ensures TypeHint(f) == "" <==>
      || f.fieldType.TextType?
      || f.fieldType.OtherType?
      || (f.fieldType.CurrencyType? && CurrencyFormat(f) !in {"decimal", "with-symbol", "with-code"})
  {
    match f.fieldType
    case DateType =>
      assert |TypeHint(f)| >= |" (format as "|;
    case CurrencyType =>
      var format := CurrencyFormat(f);
      if format == "with-symbol" {
        assert |TypeHint(f)| >= |" (include currency symbol: "|;
      } else if format == "decimal" {
        assert TypeHint(f) == DECIMAL_HINT;
        assert |DECIMAL_HINT| > 0;
      } else if format == "with-code" {
        assert TypeHint(f) == CODE_HINT;
        assert |CODE_HINT| > 0;
      }
    case NumberType =>
      assert COMMAS_HINT[0] == ' ' && NUMERIC_HINT[0] == ' ';
    case TextType =>
    case OtherType(_) =>
  }

  /** `options?.customInstructions?.[field.key] || field.description`. */
  function Description(f: Field, custom: Option<map<string, string>>): (d: string)
    ensures custom.Some? && f.key in custom.value && custom.value[f.key] != "" ==>
      d == custom.value[f.key]
    ensures custom.None? || f.key !in custom.value || custom.value[f.key] == "" ==>
      d == f.description
  {
    if custom.Some? && f.key in custom.value then StringOr(Some(custom.value[f.key]), f.description)
    else f.description
  }

  const REQUIRED_MARK := " [REQUIRED]"

  /** The number, name and required mark that open a field's line. */
  function LineHead(index: nat, f: Field): string {
    NatToString(index + 1) + ". " + f.name + (if f.required then REQUIRED_MARK + ": " else ": ")
  }

  /** Line `index` (0-based) of the field list. */
  function FieldLine(index: nat, f: Field, custom: Option<map<string, string>>): string {
    LineHead(index, f) + (Description(f, custom) + TypeHint(f))
  }

  /** The lines of `fields`, numbered from `start + 1`. */
  function FieldLinesFrom(fields: seq<Field>, start: nat, custom: Option<map<string, string>>): (r: seq<string>)
    ensures |r| == |fields|
    decreases |fields|
  {
    if fields == [] then []
    else [FieldLine(start, fields[0], custom)] + FieldLinesFrom(fields[1..], start + 1, custom)
  }

  /** Line `i` belongs to field `i` and carries the number `start + i + 1`. */
  lemma {:induction false} FieldLinesNumbered(fields: seq<Field>, start: nat, custom: Option<map<string, string>>)
    ensures forall i :: 0 <= i < |fields| ==>
      FieldLinesFrom(fields, start, custom)[i] == FieldLine(start + i, fields[i], custom)
    decreases |fields|
  {
    if fields != [] {
      FieldLinesNumbered(fields[1..], start + 1, custom);
    }
  }

  /** Each line begins with its number and the field name, then the required mark
      exactly when the field is required, and ends with the description and the hint. */
  lemma FieldLineShape(index: nat, f: Field, custom: Option<map<string, string>>)
    ensures StartsWith(FieldLine(index, f, custom), NatToString(index + 1) + ". " + f.name)
    ensures f.required ==> StartsWith(FieldLine(index, f, custom),
                                      NatToString(index + 1) + ". " + f.name + (REQUIRED_MARK + ": "))
    ensures !f.required ==> StartsWith(FieldLine(index, f, custom), NatToString(index + 1) + ". " + f.name + ": ")
    ensures EndsWith(FieldLine(index, f, custom), Description(f, custom) + TypeHint(f))
  {
    var name := NatToString(index + 1) + ". " + f.name;
    var head := LineHead(index, f);
    StartsWithConcat(head, Description(f, custom) + TypeHint(f));
    EndsWithConcat(head, Description(f, custom) + TypeHint(f));
    StartsWithConcat(name, if f.required then REQUIRED_MARK + ": " else ": ");
    StartsWithTrans(FieldLine(index, f, custom), head, name);
  }

  // ---------------------------------------------------------------------------
  // JSON skeleton

  /** An object under construction: keys in insertion order, at most one entry each. */
  type Entries = seq<(string, string)>

  predicate DistinctKeys(es: Entries) {
    forall i, j :: 0 <= i < j < |es| ==> es[i].0 != es[j].0
  }

  predicate HasKey(es: Entries, k: string) {
    exists i :: 0 <= i < |es| && es[i].0 == k
  }

  /** `obj[k]`. */
  function Lookup(es: Entries, k: string): (r: Option<string>)
    ensures r.Some? <==> HasKey(es, k)
    ensures r.Some? ==> exists i :: 0 <= i < |es| && es[i] == (k, r.value)
  {
    if es == [] then None
    else if es[0].0 == k then Some(es[0].1)
    else Lookup(es[1..], k)
  }

  /** `obj[k] = v`: an existing key keeps its position, a new key goes last. */
  function Put(es: Entries, k: string, v: string): (r: Entries)
    ensures |r| == if HasKey(es, k) then |es| else |es| + 1
    ensures !HasKey(es, k) ==> r == es + [(k, v)]
  {
    if es == [] then [(k, v)]
    else if es[0].0 == k then [(k, v)] + es[1..]
    else
      assert HasKey(es, k) <==> HasKey(es[1..], k) by {
        if HasKey(es[1..], k) {
          var i :| 0 <= i < |es[1..]| && es[1..][i].0 == k;
          assert es[i + 1].0 == k;
        }
        if HasKey(es, k) {
          var i :| 0 <= i < |es| && es[i].0 == k;
          assert es[1..][i - 1].0 == k;
        }
      }
      [es[0]] + Put(es[1..], k, v)
  }

  /** After `obj[k] = v`, reading `k` gives `v`, reading any other key is unchanged,
      and the keys stay in place. */
  lemma {:induction false} PutLookup(es: Entries, k: string, v: string)
    ensures Lookup(Put(es, k, v), k) == Some(v)
    ensures forall k' :: k' != k ==> Lookup(Put(es, k, v), k') == Lookup(es, k')
    ensures forall i :: 0 <= i < |es| ==> Put(es, k, v)[i].0 == es[i].0
    decreases |es|
  {
    var r := Put(es, k, v);
    if es != [] && es[0].0 == k {
      assert r[0] == (k, v) && r[1..] == es[1..];
    } else if es != [] {
      PutLookup(es[1..], k, v);
      assert r[0] == es[0] && r[1..] == Put(es[1..], k, v);
    }
  }

  /** Keys stay pairwise distinct under `obj[k] = v`. */
  lemma PutDistinct(es: Entries, k: string, v: string)
    requires DistinctKeys(es)
    ensures DistinctKeys(Put(es, k, v))
  {
    var r := Put(es, k, v);
    PutLookup(es, k, v);
    forall i, j | 0 <= i < j < |r| ensures r[i].0 != r[j].0 {
      if j < |es| {
        assert r[i].0 == es[i].0 && r[j].0 == es[j].0;
      } else {
        assert r == es + [(k, v)];
        assert r[i].0 == es[i].0;
      }
    }
  }

  /** The value the skeleton shows for a field. */
  function Placeholder(f: Field): string {
    "extracted " + Lower(f.name)
  }

  /** Some field has key `k`. */
  predicate HasFieldKey(fields: seq<Field>, k: string) {
    exists i :: 0 <= i < |fields| && fields[i].key == k
  }

  /** The keys of a list are those of all but its last field, and the last one's. */
  lemma FieldKeysSplit(fields: seq<Field>)
    requires fields != []
    ensures forall k :: HasFieldKey(fields, k) <==>
      HasFieldKey(fields[..|fields| - 1], k) || k == fields[|fields| - 1].key
  {
    var init := fields[..|fields| - 1];
    forall k | HasFieldKey(fields, k) && k != fields[|fields| - 1].key
      ensures HasFieldKey(init, k)
    {
      var i :| 0 <= i < |fields| && fields[i].key == k;
      assert init[i].key == k;
    }
    forall k | HasFieldKey(init, k) ensures HasFieldKey(fields, k) {
      var i :| 0 <= i < |init| && init[i].key == k;
      assert fields[i].key == k;
    }
  }

  /** After `obj[k] = v` the keys are the old ones and `k`. */
  lemma PutKeys(es: Entries, k: string, v: string)
    ensures forall k' :: HasKey(Put(es, k, v), k') <==> HasKey(es, k') || k' == k
  {
    PutLookup(es, k, v);
    forall k' ensures HasKey(Put(es, k, v), k') <==> HasKey(es, k') || k' == k {
      assert Lookup(Put(es, k, v), k').Some? <==> HasKey(Put(es, k, v), k');
      assert Lookup(es, k').Some? <==> HasKey(es, k');
    }
  }

  /** The `reduce` that builds the expected JSON structure. */
  function Skeleton(fields: seq<Field>): (r: Entries)
    ensures DistinctKeys(r)
    ensures forall k :: HasKey(r, k) <==> HasFieldKey(fields, k)
    decreases |fields|
  {
    if fields == [] then []
    else
      var init := fields[..|fields| - 1];
      var last := fields[|fields| - 1];
      var prev := Skeleton(init);
      PutDistinct(prev, last.key, Placeholder(last));
      PutKeys(prev, last.key, Placeholder(last));
      FieldKeysSplit(fields);
      Put(prev, last.key, Placeholder(last))
  }

  /** A key shared by several fields shows the placeholder of the last of them. */
  lemma {:induction false} SkeletonLastWins(fields: seq<Field>, j: nat)
    requires j < |fields|
    requires forall m :: j < m < |fields| ==> fields[m].key != fields[j].key
    ensures Lookup(Skeleton(fields), fields[j].key) == Some(Placeholder(fields[j]))
    decreases |fields|
  {
    var n := |fields|;
    var init := fields[..n - 1];
    PutLookup(Skeleton(init), fields[n - 1].key, Placeholder(fields[n - 1]));
    if j < n - 1 {
      assert fields[n - 1].key != fields[j].key;
      assert init[j] == fields[j];
      SkeletonLastWins(init, j);
    }
  }

  /** With distinct keys the skeleton has one entry per field, in field order. */
  lemma {:induction false} SkeletonOfDistinctKeys(fields: seq<Field>)
    requires forall i, j :: 0 <= i < j < |fields| ==> fields[i].key != fields[j].key
    ensures |Skeleton(fields)| == |fields|
    ensures forall i :: 0 <= i < |fields| ==> Skeleton(fields)[i] == (fields[i].key, Placeholder(fields[i]))
    decreases |fields|
  {
    if fields != [] {
      var n := |fields|;
      var init := fields[..n - 1];
      var last := fields[n - 1];
      SkeletonOfDistinctKeys(init);
      var prev := Skeleton(init);
      assert !HasKey(prev, last.key) by {
        forall i | 0 <= i < |init| ensures init[i].key != last.key {
          assert init[i] == fields[i];
        }
      }
      assert Skeleton(fields) == prev + [(last.key, Placeholder(last))];
      forall i | 0 <= i < n ensures Skeleton(fields)[i] == (fields[i].key, Placeholder(fields[i])) {
        if i < n - 1 {
          assert init[i] == fields[i];
        }
      }
    }
  }

  // ---------------------------------------------------------------------------
  // JSON.stringify

  function HexDigit(d: nat): (c: char)
    requires d < 16
  {
    if d < 10 then DigitChar(d) else ('a' as int + d - 10) as char
  }

  function HexValue(c: char): (n: nat)
    ensures n < 16
  {
    if IsDigit(c) then c as int - '0' as int
    else if 'a' <= c <= 'f' then c as int - 'a' as int + 10
    else 0
  }

  const BACKSPACE: char := 8 as char
  const FORM_FEED: char := 12 as char

  /** How `JSON.stringify` writes one character inside a string literal. */
  function EscapeChar(c: char): (r: string)
    ensures 1 <= |r| <= 6
    ensures |r| == 1 <==> (c != '"' && c != '\\' && c >= 32 as char)
  {
    if c == '"' then ['\\', '"']
    else if c == '\\' then ['\\', '\\']
    else if c == BACKSPACE then ['\\', 'b']
    else if c == FORM_FEED then ['\\', 'f']
    else if c == '\n' then ['\\', 'n']
    else if c == '\r' then ['\\', 'r']
    else if c == '\t' then ['\\', 't']
    else if c < 32 as char then ['\\', 'u', '0', '0', HexDigit(c as int / 16), HexDigit(c as int % 16)]
    else [c]
  }

  function Escape(s: string): (r: string)
    ensures |s| <= |r|
  {
    if s == [] then [] else EscapeChar(s[0]) + Escape(s[1..])
  }

  /** A string literal as `JSON.stringify` writes it. */
  function Quote(s: string): string {
    "\"" + Escape(s) + "\""
  }

  /** The value of four hexadecimal digits. */
  function CodeUnit(h: string): (n: nat)
    requires |h| == 4
    ensures n < 0x10000
  {
    HexValue(h[0]) * 4096 + HexValue(h[1]) * 256 + HexValue(h[2]) * 16 + HexValue(h[3])
  }

  /** A UTF-16 surrogate code unit, which is not a character on its own. */
  predicate IsSurrogate(n: nat) { 0xD800 <= n < 0xE000 }

  /** How `JSON.parse` reads the body of a string literal (an escaped lone
      surrogate is left undecoded). */
  function Unescape(t: string): string
    decreases |t|
  {
    if t == [] then []
    else if t[0] != '\\' || |t| < 2 then [t[0]] + Unescape(t[1..])
    else if t[1] == '"' then ['"'] + Unescape(t[2..])
    else if t[1] == '\\' then ['\\'] + Unescape(t[2..])
    else if t[1] == 'b' then [BACKSPACE] + Unescape(t[2..])
    else if t[1] == 'f' then [FORM_FEED] + Unescape(t[2..])
    else if t[1] == 'n' then ['\n'] + Unescape(t[2..])
    else if t[1] == 'r' then ['\r'] + Unescape(t[2..])
    else if t[1] == 't' then ['\t'] + Unescape(t[2..])
    else if t[1] == 'u' && |t| >= 6 && !IsSurrogate(CodeUnit(t[2..6])) then
      [CodeUnit(t[2..6]) as char] + Unescape(t[6..])
    else [t[0]] + Unescape(t[1..])
  }

  lemma UnescapeStep(c: char, rest: string)
    ensures Unescape(EscapeChar(c) + rest) == [c] + Unescape(rest)
  {
    var t := EscapeChar(c) + rest;
    if |EscapeChar(c)| == 2 {
      assert t[2..] == rest;
    } else if |EscapeChar(c)| == 6 {
      assert t[6..] == rest;
      assert t[2..6] == ['0', '0', HexDigit(c as int / 16), HexDigit(c as int % 16)];
      assert HexValue(HexDigit(c as int / 16)) == c as int / 16;
      assert HexValue(HexDigit(c as int % 16)) == c as int % 16;
    } else {
      assert t[1..] == rest;
    }
  }

  /** Reading back what was written gives the original string. */
  lemma {:induction false} UnescapeEscape(s: string)
    ensures Unescape(Escape(s)) == s
    decreases |s|
  {
    if s != [] {
      UnescapeStep(s[0], Escape(s[1..]));
      UnescapeEscape(s[1..]);
    }
  }

  function MemberLines(es: Entries): (r: seq<string>)
    ensures |r| == |es|
  {
    if es == [] then [] else ["  " + Quote(es[0].0) + ": " + Quote(es[0].1)] + MemberLines(es[1..])
  }

  /** `JSON.stringify(obj, null, 2)` on an object of strings. */
  function Render(es: Entries): (r: string)
    ensures es == [] ==> r == "{}"
    ensures es != [] ==> StartsWith(r, "{\n") && EndsWith(r, "\n}")
  {
    if es == [] then "{}"
    else
      var body := Join(MemberLines(es), ",\n");
      assert ("{\n" + body + "\n}")[..2] == "{\n";
      assert ("{\n" + body + "\n}")[|"{\n" + body + "\n}"| - 2..] == "\n}";
      "{\n" + body + "\n}"
  }

  // ---------------------------------------------------------------------------
  // The extraction prompt

  const INTRO := "You are an expert document data extractor. Analyze the following "
  const FIELDS_HEADING := " text and extract these specific fields:\n\n"
  const DOCUMENT_HEADING := "\n\nDocument text:\n"
  const FORMAT_HEADING := "\n\nPlease respond ONLY with a valid JSON object in this exact format (no additional text or markdown):\n"
  const RULES_BODY := "\n\nCRITICAL RULES:\n"
    + "- For currency/amount fields: Return ONLY the decimal number (e.g., \"267.35\" not \"S$267.35\", \"USD 267.35\", or \"SGD 267.35\")\n"
    + "- For date fields: Use YYYY-MM-DD format\n"
    + "- For number fields: Extract numeric value only\n"
    + "- If a field cannot be found, use an empty string \"\"\n"
    + "- Be precise and extract exact values from the document"
  const LAST_RULE := "\n- Focus on accuracy over speed"
  const STRICT_LINE := "\n- If unsure, return empty string rather than guessing"

  /** A prompt ending with the last fixed rule does not end with the strict line. */
  lemma LastRuleIsNotStrictLine(p: string)
    requires EndsWith(p, LAST_RULE)
    ensures !EndsWith(p, STRICT_LINE)
  {
    assert p[|p| - 1] == LAST_RULE[|LAST_RULE| - 1] == 'd';
    assert STRICT_LINE[|STRICT_LINE| - 1] == 'g';
  }

  /** Where the parts of an assembled prompt can be found in it. */
  lemma {:induction false} PromptParts(a: string, lines: string, dh: string, text: string, fh: string,
                                       json: string, rules: string, tail: string)
    ensures var p := a + lines + dh + text + fh + json + rules + tail;
      && Contains(p, lines) && Contains(p, text) && Contains(p, json)
      && StartsWith(p, a) && EndsWith(p, tail) && (tail == [] ==> EndsWith(p, rules))
  {
    var p := a + lines + dh + text + fh + json + rules + tail;
    assert p[|a|..|a| + |lines|] == lines;
    assert MatchesAt(p, lines, |a|);
    var t := |a| + |lines| + |dh|;
    assert p[t..t + |text|] == text;
    assert MatchesAt(p, text, t);
    var j := t + |text| + |fh|;
    assert p[j..j + |json|] == json;
    assert MatchesAt(p, json, j);
    assert p[..|a|] == a;
    assert p[|p| - |tail|..] == tail;
    if tail == [] {
      assert p[|p| - |rules|..] == rules;
    }
  }

  /** The prompt text: it depends on the document type, the active fields, the
      document and the options, and not on the clock. */
  function ExtractionPromptText(documentType: string, active: seq<Field>, documentText: string,
                                options: PromptOptions): (p: string)
    ensures Contains(p, documentText)
    ensures Contains(p, Join(FieldLinesFrom(active, 0, options.customInstructions), "\n"))
    ensures Contains(p, Render(Skeleton(active)))
    ensures StartsWith(p, INTRO + documentType)
    ensures options.strictMode <==> EndsWith(p, STRICT_LINE)
  {
    var lines := Join(FieldLinesFrom(active, 0, options.customInstructions), "\n");
    var json := Render(Skeleton(active));
    var a := INTRO + documentType + FIELDS_HEADING;
    var rules := RULES_BODY + LAST_RULE;
    var tail := if options.strictMode then STRICT_LINE else "";
    PromptParts(a, lines, DOCUMENT_HEADING, documentText, FORMAT_HEADING, json, rules, tail);
    var p := a + lines + DOCUMENT_HEADING + documentText + FORMAT_HEADING + json + rules + tail;
    StartsWithConcat(INTRO + documentType, FIELDS_HEADING);
    StartsWithTrans(p, a, INTRO + documentType);
    EndsWithConcat(RULES_BODY, LAST_RULE);
    if options.strictMode then p
    else
      EndsWithTrans(p, rules, LAST_RULE);
      LastRuleIsNotStrictLine(p);
      p
  }

  /** `buildExtractionPrompt`; `now` stands for `Date.now()`. */
  function BuildExtractionPrompt(template: Template, documentText: string, options: PromptOptions, now: nat)
    : (r: Result<CompiledPrompt>)
    ensures r.Err? <==> ActiveFields(template.fields, options.enabledFields) == []
    ensures r.Err? ==> r.message == NO_FIELDS_MESSAGE
    ensures r.Ok? ==>
      var active := ActiveFields(template.fields, options.enabledFields);
      && r.value.prompt == ExtractionPromptText(template.documentType, active, documentText, options)
      && r.value.version == "v" + NatToString(now) + "-" + NatToString(|active|) + "f"
  {
    var active := ActiveFields(template.fields, options.enabledFields);
    if active == [] then Err(NO_FIELDS_MESSAGE)
    else
      Ok(CompiledPrompt(ExtractionPromptText(template.documentType, active, documentText, options),
                        "v" + NatToString(now) + "-" + NatToString(|active|) + "f"))
  }

  /** With no key set every field is active, so a template with fields always compiles
      and its version counts all of them. */
  lemma AllFieldsWithoutKeySet(template: Template, documentText: string, now: nat)
    requires template.fields != []
    ensures BuildExtractionPrompt(template, documentText, NoOptions, now).Ok?
    ensures BuildExtractionPrompt(template, documentText, NoOptions, now).value.version
      == "v" + NatToString(now) + "-" + NatToString(|template.fields|) + "f"
  {
  }

  // ---------------------------------------------------------------------------
  // The validation prompt

  const VALIDATION_LIMIT := 2000
  const TRUNCATION_MARK := "...(truncated)"

  /** The document excerpt shown to the classifier. */
  function Excerpt(documentText: string): (r: string)
    ensures |r| <= VALIDATION_LIMIT + |TRUNCATION_MARK|
    ensures |documentText| <= VALIDATION_LIMIT ==> r == documentText
    ensures |documentText| > VALIDATION_LIMIT ==>
      r == documentText[..VALIDATION_LIMIT] + TRUNCATION_MARK
  {
    Prefix(documentText, VALIDATION_LIMIT)
      + (if |documentText| > VALIDATION_LIMIT then TRUNCATION_MARK else "")
  }

  const VALIDATION_TAIL := "\n\nRespond ONLY with valid JSON:\n{\n"
    + "  \"isValid\": true or false,\n"
    + "  \"detectedType\": \"invoice|receipt|statement|bill|contract|article|letter|other\",\n"
    + "  \"confidence\": 0-100,\n"
    + "  \"reason\": \"brief explanation if not valid\"\n}"

  /** Where the parts of the classification prompt can be found in it. */
  lemma ValidationParts(head: string, expectedType: string, mid: string, excerpt: string, tail: string)
    ensures var p := head + expectedType + mid + excerpt + tail;
      Contains(p, expectedType) && EndsWith(p, excerpt + tail)
  {
    var p := head + expectedType + mid + excerpt + tail;
    assert p[|head|..|head| + |expectedType|] == expectedType;
    assert MatchesAt(p, expectedType, |head|);
    assert p[|p| - |excerpt + tail|..] == excerpt + tail;
  }

  /** `buildValidationPrompt`. */
  function BuildValidationPrompt(documentText: string, expectedType: string): (p: string)
    ensures Contains(p, expectedType)
    ensures EndsWith(p, Excerpt(documentText) + VALIDATION_TAIL)
  {
    var head := "You are a document classifier. Analyze the following text and determine:\n\n1. Is this a valid ";
    var mid := "?\n2. What type of document is this?\n3. Confidence level (0-100)\n\nDocument text:\n";
    ValidationParts(head, expectedType, mid, Excerpt(documentText), VALIDATION_TAIL);
    head + expectedType + mid + Excerpt(documentText) + VALIDATION_TAIL
  }

  // ---------------------------------------------------------------------------
  // Prompt history

  const HISTORY_LIMIT := 20

  /** The stored history slot of one template; no entry reads as missing. */
  function HistorySlot(store: Store, templateId: string): Slot<seq<PromptVersion>> {
    if templateId in store.promptHistory then store.promptHistory[templateId] else Missing
  }

  /** `savePromptVersion`. A history that cannot be read makes the save a no-op,
      and so does a write that throws (`writeError`): both are logged and
      swallowed. */
  function SavePromptVersion(inBrowser: bool, store: Store, pv: PromptVersion, writeError: Option<string>): (r: Store)
    ensures !inBrowser || writeError.Some? ==> r == store
    ensures r.templates == store.templates && r.activeId == store.activeId
    ensures r.trainedInstructions == store.trainedInstructions
    ensures forall id :: id != pv.templateId ==>
      (id in r.promptHistory <==> id in store.promptHistory)
      && (id in r.promptHistory ==> r.promptHistory[id] == store.promptHistory[id])
    ensures inBrowser && writeError.None? && HistorySlot(store, pv.templateId).Unreadable? ==> r == store
    ensures inBrowser && writeError.None? && HistorySlot(store, pv.templateId).Missing? ==>
      HistorySlot(r, pv.templateId) == Holds([pv])
    ensures inBrowser && writeError.None? && HistorySlot(store, pv.templateId).Holds? ==>
      var h := HistorySlot(store, pv.templateId).value;
      HistorySlot(r, pv.templateId) == Holds(if |h| < HISTORY_LIMIT then h + [pv] else h[1..] + [pv])
  {
    if !inBrowser || writeError.Some? then store
    else
      var slot := if pv.templateId in store.promptHistory then store.promptHistory[pv.templateId] else Missing;
      match slot
      case Unreadable => store
      case Missing => store.(promptHistory := store.promptHistory[pv.templateId := Holds([pv])])
      case Holds(h) =>
        var grown := h + [pv];
        assert |h| >= HISTORY_LIMIT ==> grown[1..] == h[1..] + [pv];
        var kept := if |grown| > HISTORY_LIMIT then grown[1..] else grown;
        store.(promptHistory := store.promptHistory[pv.templateId := Holds(kept)])
  }

  /** `loadPromptHistory`: nothing stored or nothing readable reads as empty. */
  function LoadPromptHistory(inBrowser: bool, store: Store, templateId: string): (r: seq<PromptVersion>)
    ensures (!inBrowser || templateId !in store.promptHistory || !store.promptHistory[templateId].Holds?) ==> r == []
    ensures inBrowser && templateId in store.promptHistory && store.promptHistory[templateId].Holds? ==>
      r == store.promptHistory[templateId].value
  {
    if inBrowser && templateId in store.promptHistory && store.promptHistory[templateId].Holds? then
      store.promptHistory[templateId].value
    else []
  }

  /** After a save, the template's history ends with the new version, drops only its
      oldest entry, and stays within 20 entries when it was within 20 before. */
  lemma SaveThenLoadHistory(store: Store, pv: PromptVersion)
    requires pv.templateId !in store.promptHistory || !store.promptHistory[pv.templateId].Unreadable?
    ensures var before := LoadPromptHistory(true, store, pv.templateId);
      var after := LoadPromptHistory(true, SavePromptVersion(true, store, pv, None), pv.templateId);
      && after != [] && after[|after| - 1] == pv
      && (|before| < HISTORY_LIMIT ==> after == before + [pv])
      && (|before| >= HISTORY_LIMIT ==> after == before[1..] + [pv])
      && (|before| <= HISTORY_LIMIT ==> |after| <= HISTORY_LIMIT)
  {
    var before := LoadPromptHistory(true, store, pv.templateId);
    if |before| >= HISTORY_LIMIT {
      assert (before + [pv])[1..] == before[1..] + [pv];
    }
  }

  // ---------------------------------------------------------------------------
  // Trained instructions

  /** `getTrainedInstructions`. */
  function GetTrainedInstructions(inBrowser: bool, store: Store, templateId: string): (r: map<string, string>)
    ensures (!inBrowser || templateId !in store.trainedInstructions
      || !store.trainedInstructions[templateId].Holds?) ==> r == map[]
    ensures inBrowser && templateId in store.trainedInstructions && store.trainedInstructions[templateId].Holds? ==>
      r == store.trainedInstructions[templateId].value
  {
    if inBrowser && templateId in store.trainedInstructions && store.trainedInstructions[templateId].Holds? then
      store.trainedInstructions[templateId].value
    else map[]
  }

  /** `saveTrainedInstructions`: overwrites the template's record. A write that
      throws (`writeError`) is logged and swallowed, leaving the record as it was. */
  function SaveTrainedInstructions(inBrowser: bool, store: Store, templateId: string,
                                   instructions: map<string, string>, writeError: Option<string>): (r: Store)
    ensures !inBrowser || writeError.Some? ==> r == store
    ensures inBrowser && writeError.None? ==>
      templateId in r.trainedInstructions && r.trainedInstructions[templateId] == Holds(instructions)
    ensures r.templates == store.templates && r.activeId == store.activeId
    ensures r.promptHistory == store.promptHistory
    ensures forall id :: id != templateId ==>
      (id in r.trainedInstructions <==> id in store.trainedInstructions)
      && (id in r.trainedInstructions ==> r.trainedInstructions[id] == store.trainedInstructions[id])
  {
    if !inBrowser || writeError.Some? then store
    else store.(trainedInstructions := store.trainedInstructions[templateId := Holds(instructions)])
  }

  lemma SaveThenGetTrainedInstructions(store: Store, templateId: string, instructions: map<string, string>)
    ensures GetTrainedInstructions(true, SaveTrainedInstructions(true, store, templateId, instructions, None), templateId)
      == instructions
  {
  }
}

=== FILE: results.dfy ===
/** The batch results table (components/MultiInvoiceResults.tsx): which rows are
    selected, the column order the user drags into shape, and the CSV and
    clipboard text built from the selected rows. The download link, the clipboard
    write and the alerts are left to the caller: an export that finds no row
    yields the alert's text as an error. */
module MultiInvoiceResults {
  import opened Strings
  import opened Types

  const FILENAME_HEADER := "Filename"
  const NO_ROWS_TO_DOWNLOAD := "No selected rows to download"
  const NO_ROWS_TO_COPY := "No selected rows to copy"

  /** `FieldConfig`: a column; its `label` (here `heading`, a reserved word in Dafny) is the field's name. */
  datatype Column = Column(key: string, heading: string)

  /** The initial column order: the template's fields, in order. */
  function ColumnsOf(t: Template): (r: seq<Column>)
    ensures |r| == |t.fields|
    ensures forall k :: 0 <= k < |r| ==> r[k].key == t.fields[k].key && r[k].heading == t.fields[k].name
  {
    seq(|t.fields|, k requires 0 <= k < |t.fields| => Column(t.fields[k].key, t.fields[k].name))
  }

  // ---------------------------------------------------------------------------
  // Rows

  /** A result that can be exported: a success with data. */
  predicate Exportable(r: ExtractionResult) {
    r.status == Success && r.data.Some?
  }

  /** The positions from `from` on that are selected and exportable, in results
      order (`ExportIndicesExact` shows that none is missing). */
  function ExportIndices(results: seq<ExtractionResult>, selected: set<nat>, from: nat): (r: seq<nat>)
    ensures forall k :: 0 <= k < |r| ==>
      from <= r[k] < |results| && r[k] in selected && Exportable(results[r[k]])
    decreases |results| - from
  {
    if from >= |results| then []
    else if from in selected && Exportable(results[from]) then
      [from] + ExportIndices(results, selected, from + 1)
    else ExportIndices(results, selected, from + 1)
  }

  /** The positions are increasing. */
  lemma {:induction false} ExportIndicesIncrease(results: seq<ExtractionResult>, selected: set<nat>, from: nat)
    ensures forall k :: 0 < k < |ExportIndices(results, selected, from)| ==>
      ExportIndices(results, selected, from)[k - 1] < ExportIndices(results, selected, from)[k]
    decreases |results| - from
  {
    if from < |results| {
      ExportIndicesIncrease(results, selected, from + 1);
      var rest := ExportIndices(results, selected, from + 1);
      if from in selected && Exportable(results[from]) {
        var r := [from] + rest;
        assert ExportIndices(results, selected, from) == r;
        forall k | 0 < k < |r| ensures r[k - 1] < r[k] {
          assert r[k] == rest[k - 1] && from + 1 <= rest[k - 1];
          if k > 1 { assert r[k - 1] == rest[k - 2]; }
        }
      }
    }
  }

  /** Every selected exportable position from `from` on is among the positions. */
  lemma {:induction false} ExportIndicesComplete(results: seq<ExtractionResult>, selected: set<nat>, from: nat, j: nat)
    requires from <= j < |results| && j in selected && Exportable(results[j])
    ensures j in ExportIndices(results, selected, from)
    decreases j - from
  {
    if j > from {
      ExportIndicesComplete(results, selected, from + 1, j);
      var rest := ExportIndices(results, selected, from + 1);
      assert j in rest;
    }
  }

  /** `results.filter((r, idx) => selectedIndices.has(idx) && r.status === "success" && r.data)`. */
  function SelectedResults(results: seq<ExtractionResult>, selected: set<nat>): (r: seq<ExtractionResult>)
    ensures forall k :: 0 <= k < |r| ==> Exportable(r[k])
    ensures |r| == |ExportIndices(results, selected, 0)|
    ensures forall k :: 0 <= k < |r| ==> r[k] == results[ExportIndices(results, selected, 0)[k]]
  {
    var ix := ExportIndices(results, selected, 0);
    seq(|ix|, k requires 0 <= k < |ix| => results[ix[k]])
  }

  /** Nothing is exported exactly when no selected row is an exportable one; in
      particular an empty selection exports nothing. */
  lemma SelectionExportsNothing(results: seq<ExtractionResult>, selected: set<nat>)
    ensures SelectedResults(results, selected) == [] <==>
      forall j :: 0 <= j < |results| && j in selected ==> !Exportable(results[j])
    ensures selected == {} ==> SelectedResults(results, selected) == []
  {
    var ix := ExportIndices(results, selected, 0);
    if ix != [] {
      assert ix[0] in selected && Exportable(results[ix[0]]);
    }
    if j :| 0 <= j < |results| && j in selected && Exportable(results[j]) {
      ExportIndicesComplete(results, selected, 0, j);
    }
  }

  /** `result.data![key] || ""`. */
  function CellValue(data: ExtractedData, key: string): (v: string)
    ensures key in data ==> v == data[key]
    ensures key !in data ==> v == ""
  {
    if key in data then data[key] else ""
  }

  /** The header row: "Filename" first when file names are included, then the column labels. */
  function HeaderRow(columns: seq<Column>, includeFilename: bool): (r: seq<string>)
    ensures |r| == |columns| + (if includeFilename then 1 else 0)
    ensures includeFilename ==> r[0] == FILENAME_HEADER
    ensures var off := if includeFilename then 1 else 0;
      forall k :: 0 <= k < |columns| ==> r[k + off] == columns[k].heading
  {
    (if includeFilename then [FILENAME_HEADER] else [])
    + seq(|columns|, k requires 0 <= k < |columns| => columns[k].heading)
  }

  /** The row of one result: its file name first when included, then one cell per
      column in column order. */
  function DataRow(r: ExtractionResult, columns: seq<Column>, includeFilename: bool): (row: seq<string>)
    requires r.data.Some?
    ensures |row| == |columns| + (if includeFilename then 1 else 0)
    ensures includeFilename ==> row[0] == r.fileName
    ensures var off := if includeFilename then 1 else 0;
      forall k :: 0 <= k < |columns| ==> row[k + off] == CellValue(r.data.value, columns[k].key)
  {
    (if includeFilename then [r.fileName] else [])
    + seq(|columns|, k requires 0 <= k < |columns| => CellValue(r.data.value, columns[k].key))
  }

  /** The exported table, or `None` when no row qualifies: the header row when
      asked for, then one row per selected successful result, in results order. */
  function ExportTable(results: seq<ExtractionResult>, columns: seq<Column>, selected: set<nat>,
                       includeHeaders: bool, includeFilename: bool): (r: Option<seq<seq<string>>>)
    ensures r.None? <==> SelectedResults(results, selected) == []
    ensures r.Some? ==> var off := if includeHeaders then 1 else 0;
      var rows := SelectedResults(results, selected);
      && |r.value| == |rows| + off
      && (includeHeaders ==> r.value[0] == HeaderRow(columns, includeFilename))
      && forall k :: 0 <= k < |rows| ==> r.value[k + off] == DataRow(rows[k], columns, includeFilename)
    ensures r.Some? ==> forall k :: 0 <= k < |r.value| ==>
      |r.value[k]| == |columns| + (if includeFilename then 1 else 0)
  {
    var rows := SelectedResults(results, selected);
    if rows == [] then None
    else Some(Table(rows, columns, includeHeaders, includeFilename))
  }

  /** The table of some rows that all carry data. */
  function Table(rows: seq<ExtractionResult>, columns: seq<Column>, includeHeaders: bool,
                 includeFilename: bool): (t: seq<seq<string>>)
    requires forall k :: 0 <= k < |rows| ==> rows[k].data.Some?
    ensures var off := if includeHeaders then 1 else 0;
      && |t| == |rows| + off
      && (includeHeaders ==> t[0] == HeaderRow(columns, includeFilename))
      && forall k :: 0 <= k < |rows| ==> t[k + off] == DataRow(rows[k], columns, includeFilename)
    ensures forall k :: 0 <= k < |t| ==> |t[k]| == |columns| + (if includeFilename then 1 else 0)
  {
    var off := if includeHeaders then 1 else 0;
    seq(|rows| + off, i requires 0 <= i < |rows| + off =>
      if i < off then HeaderRow(columns, includeFilename) else DataRow(rows[i - off], columns, includeFilename))
  }

  // ---------------------------------------------------------------------------
  // CSV

  /** The CSV form of a cell: wrapped in double quotes. As written the quotes
      inside the value are kept as they are; with `doubleQuotes` each is written
      twice, as section 2, rule 7 of RFC 4180 requires. */
  function QuoteCell(c: string, doubleQuotes: bool): string {
    "\"" + (if doubleQuotes then DoubleQuotes(c) else c) + "\""
  }

  /** `c` with every double quote written twice. */
  function DoubleQuotes(c: string): (r: string)
    ensures '"' !in c ==> r == c
    decreases |c|
  {
    if c == [] then []
    else (if c[0] == '"' then "\"\"" else [c[0]]) + DoubleQuotes(c[1..])
  }

  /** `row.map(cell => `"${cell}"`).join(",")`. */
  function CsvLine(row: seq<string>, doubleQuotes: bool): string {
    Join(seq(|row|, k requires 0 <= k < |row| => QuoteCell(row[k], doubleQuotes)), ",")
  }

  /** `csvRows.map(...).join("\n")`. */
  function CsvText(rows: seq<seq<string>>, doubleQuotes: bool): string {
    Join(seq(|rows|, k requires 0 <= k < |rows| => CsvLine(rows[k], doubleQuotes)), "\n")
  }

  /** `downloadSelectedCSV`: the CSV text of the exported table, cells quoted as
      written. */
  function DownloadCsv(results: seq<ExtractionResult>, columns: seq<Column>, selected: set<nat>,
                       includeHeaders: bool, includeFilename: bool): (r: Result<string>)
    ensures r.Err? <==> SelectedResults(results, selected) == []
    ensures r.Err? ==> r.message == NO_ROWS_TO_DOWNLOAD
    ensures r.Ok? ==> r.value == CsvText(ExportTable(results, columns, selected, includeHeaders, includeFilename).value, false)
  {
    match ExportTable(results, columns, selected, includeHeaders, includeFilename)
    case None => Err(NO_ROWS_TO_DOWNLOAD)
    case Some(table) => Ok(CsvText(table, false))
  }

  // A reader for section 2 of RFC 4180, with "\n" as the line break.

  /** The rest of a quoted field after its opening quote: the contents, a
      doubled quote read as one, and what follows the closing quote. */
  function QuotedField(s: string): (r: Option<(string, string)>)
    ensures r.Some? ==> |r.value.1| < |s|
    decreases |s|
  {
    if s == [] then None
    else if s[0] == '"' then
      if |s| >= 2 && s[1] == '"' then
        match QuotedField(s[2..])
        case None => None
        case Some(p) => Some(("\"" + p.0, p.1))
      else Some(("", s[1..]))
    else
      match QuotedField(s[1..])
      case None => None
      case Some(p) => Some(([s[0]] + p.0, p.1))
  }

  /** An unquoted field: everything up to the next comma or line break. */
  function PlainField(s: string): (r: (string, string))
    ensures r.0 + r.1 == s
    decreases |s|
  {
    if s == [] || s[0] == ',' || s[0] == '\n' then ("", s)
    else
      var p := PlainField(s[1..]);
      assert [s[0]] + p.0 + p.1 == s;
      ([s[0]] + p.0, p.1)
  }

  function CsvField(s: string): (r: Option<(string, string)>)
    ensures r.Some? ==> |r.value.1| <= |s|
  {
    if s != [] && s[0] == '"' then QuotedField(s[1..]) else Some(PlainField(s))
  }

  /** The fields of one record and the text after it. */
  function RecordFields(s: string): (r: Option<(seq<string>, string)>)
    ensures r.Some? ==> |r.value.1| <= |s|
    decreases |s|
  {
    match CsvField(s)
    case None => None
    case Some(p) =>
      if p.1 != [] && p.1[0] == ',' then
        match RecordFields(p.1[1..])
        case None => None
        case Some(q) => Some(([p.0] + q.0, q.1))
      else Some(([p.0], p.1))
  }

  /** The records of a CSV text, or `None` when it is malformed. */
  function ParseCsv(s: string): (r: Option<seq<seq<string>>>)
    decreases |s|
  {
    match RecordFields(s)
    case None => None
    case Some(p) =>
      if p.1 == [] then Some([p.0])
      else if p.1[0] == '\n' then
        match ParseCsv(p.1[1..])
        case None => None
        case Some(rows) => Some([p.0] + rows)
      else None
  }

  lemma {:induction false} QuotedFieldOf(c: string, t: string)
    requires t == [] || t[0] != '"'
    ensures QuotedField(DoubleQuotes(c) + "\"" + t) == Some((c, t))
    decreases |c|
  {
    var s := DoubleQuotes(c) + "\"" + t;
    if c == [] {
      assert s == "\"" + t;
      QuotedFieldClose(t);
    } else {
      var head := if c[0] == '"' then "\"\"" else [c[0]];
      var u := DoubleQuotes(c[1..]) + "\"" + t;
      assert s == head + u by {
        assert DoubleQuotes(c) == head + DoubleQuotes(c[1..]);
      }
      QuotedFieldOf(c[1..], t);
      if c[0] == '"' {
        QuotedFieldDoubled(u, c[1..], t);
        assert "\"" + c[1..] == c;
      } else {
        QuotedFieldChar(c[0], u, c[1..], t);
        assert [c[0]] + c[1..] == c;
      }
    }
  }

  /** A lone quote closes the field. */
  lemma QuotedFieldClose(t: string)
    requires t == [] || t[0] != '"'
    ensures QuotedField("\"" + t) == Some(("", t))
  {
    assert ("\"" + t)[1..] == t;
  }

  /** A doubled quote is read as one. */
  lemma QuotedFieldDoubled(u: string, c: string, t: string)
    requires QuotedField(u) == Some((c, t))
    ensures QuotedField("\"\"" + u) == Some(("\"" + c, t))
  {
    assert ("\"\"" + u)[2..] == u;
  }

  /** Any other character is kept. */
  lemma QuotedFieldChar(x: char, u: string, c: string, t: string)
    requires x != '"' && QuotedField(u) == Some((c, t))
    ensures QuotedField([x] + u) == Some(([x] + c, t))
  {
    assert ([x] + u)[1..] == u;
  }

  lemma CsvFieldOf(c: string, t: string)
    requires t == [] || t[0] != '"'
    ensures CsvField(QuoteCell(c, true) + t) == Some((c, t))
  {
    var s := QuoteCell(c, true) + t;
    assert s == "\"" + (DoubleQuotes(c) + "\"" + t);
    assert s[1..] == DoubleQuotes(c) + "\"" + t;
    QuotedFieldOf(c, t);
  }

  lemma CsvLineCons(row: seq<string>, doubleQuotes: bool)
    requires |row| >= 2
    ensures CsvLine(row, doubleQuotes) == QuoteCell(row[0], doubleQuotes) + "," + CsvLine(row[1..], doubleQuotes)
  {
    var parts := seq(|row|, k requires 0 <= k < |row| => QuoteCell(row[k], doubleQuotes));
    assert parts[1..] == seq(|row[1..]|, k requires 0 <= k < |row[1..]| => QuoteCell(row[1..][k], doubleQuotes));
  }

  /** A record written with doubled quotes reads back as its cells. */
  lemma {:induction false} RecordFieldsOf(row: seq<string>, t: string)
    requires |row| >= 1
    requires t == [] || t[0] == '\n'
    ensures RecordFields(CsvLine(row, true) + t) == Some((row, t))
    decreases |row|
  {
    if |row| == 1 {
      assert CsvLine(row, true) == QuoteCell(row[0], true);
      CsvFieldOf(row[0], t);
      assert [row[0]] == row;
    } else {
      var rest := CsvLine(row[1..], true) + t;
      assert CsvLine(row, true) + t == QuoteCell(row[0], true) + ("," + rest) by {
        CsvLineCons(row, true);
      }
      assert RecordFields(rest) == Some((row[1..], t)) by {
        RecordFieldsOf(row[1..], t);
      }
      assert RecordFields(QuoteCell(row[0], true) + ("," + rest)) == Some(([row[0]] + row[1..], t)) by {
        CsvFieldOf(row[0], "," + rest);
        assert ("," + rest)[1..] == rest;
      }
      assert [row[0]] + row[1..] == row;
    }
  }

  lemma CsvTextCons(rows: seq<seq<string>>, doubleQuotes: bool)
    requires |rows| >= 2
    ensures CsvText(rows, doubleQuotes) == CsvLine(rows[0], doubleQuotes) + "\n" + CsvText(rows[1..], doubleQuotes)
  {
    var parts := seq(|rows|, k requires 0 <= k < |rows| => CsvLine(rows[k], doubleQuotes));
    assert parts[1..] == seq(|rows[1..]|, k requires 0 <= k < |rows[1..]| => CsvLine(rows[1..][k], doubleQuotes));
  }

  /** With quotes doubled, reading the CSV text gives back the table, whatever
      the cells hold, as long as no row is empty. */
  lemma {:induction false} CsvRoundTrip(rows: seq<seq<string>>)
    requires |rows| >= 1
    requires forall k :: 0 <= k < |rows| ==> |rows[k]| >= 1
    ensures ParseCsv(CsvText(rows, true)) == Some(rows)
    decreases |rows|
  {
    if |rows| == 1 {
      assert CsvText(rows, true) == CsvLine(rows[0], true);
      RecordFieldsOf(rows[0], "");
      assert CsvLine(rows[0], true) + "" == CsvLine(rows[0], true);
      assert [rows[0]] == rows;
    } else {
      var rest := CsvText(rows[1..], true);
      var s := CsvLine(rows[0], true) + ("\n" + rest);
      assert CsvText(rows, true) == s by {
        CsvTextCons(rows, true);
      }
      assert ParseCsv(s) == Some([rows[0]] + rows[1..]) by {
        RecordFieldsOf(rows[0], "\n" + rest);
        CsvRoundTrip(rows[1..]);
        ParseCsvCons(s, rows[0], rest, rows[1..]);
      }
      assert [rows[0]] + rows[1..] == rows;
    }
  }

  /** A record followed by a line break and a readable rest reads as one more row. */
  lemma ParseCsvCons(s: string, row: seq<string>, rest: string, rows: seq<seq<string>>)
    requires RecordFields(s) == Some((row, "\n" + rest))
    requires ParseCsv(rest) == Some(rows)
    ensures ParseCsv(s) == Some([row] + rows)
  {
    assert ("\n" + rest)[1..] == rest;
  }

  predicate QuoteFree(rows: seq<seq<string>>) {
    forall k, m :: 0 <= k < |rows| && 0 <= m < |rows[k]| ==> '"' !in rows[k][m]
  }

  /** Without double quotes in any cell the text as written is the doubled one. */
  lemma QuoteFreeUnchanged(rows: seq<seq<string>>)
    requires QuoteFree(rows)
    ensures CsvText(rows, false) == CsvText(rows, true)
  {
    var a := seq(|rows|, k requires 0 <= k < |rows| => CsvLine(rows[k], false));
    var b := seq(|rows|, k requires 0 <= k < |rows| => CsvLine(rows[k], true));
    forall k | 0 <= k < |rows| ensures a[k] == b[k] {
      var row := rows[k];
      assert seq(|row|, m requires 0 <= m < |row| => QuoteCell(row[m], false))
          == seq(|row|, m requires 0 <= m < |row| => QuoteCell(row[m], true));
    }
    assert a == b;
  }

  /** The downloaded CSV reads back as the exported table when no cell contains a
      double quote and there is at least one column. */
  lemma DownloadReadsBack(results: seq<ExtractionResult>, columns: seq<Column>, selected: set<nat>,
                          includeHeaders: bool, includeFilename: bool)
    requires |columns| >= 1 || includeFilename
    requires DownloadCsv(results, columns, selected, includeHeaders, includeFilename).Ok?
    requires QuoteFree(ExportTable(results, columns, selected, includeHeaders, includeFilename).value)
    ensures ParseCsv(DownloadCsv(results, columns, selected, includeHeaders, includeFilename).value)
         == ExportTable(results, columns, selected, includeHeaders, includeFilename)
  {
    var table := ExportTable(results, columns, selected, includeHeaders, includeFilename).value;
    QuoteFreeUnchanged(table);
    CsvRoundTrip(table);
  }

  /** A value with a double quote, as in `12" pipe`, breaks the CSV as written:
      the quote ends the cell early and the text no longer reads as CSV, while the
      same cell with the quote doubled reads back. */
  lemma EmbeddedQuoteBreaksCsv()
    ensures ParseCsv(CsvText([["a\"b"]], false)) == None
    ensures ParseCsv(CsvText([["a\"b"]], true)) == Some([["a\"b"]])
  {
    assert QuoteCell("a\"b", false) == "\"a\"b\"";
    var line := seq(1, k requires 0 <= k < 1 => QuoteCell("a\"b", false));
    assert line == ["\"a\"b\""];
    assert CsvLine(["a\"b"], false) == "\"a\"b\"";
    var lines := seq(1, k requires 0 <= k < 1 => CsvLine([["a\"b"]][k], false));
    assert lines == ["\"a\"b\""];
    var s := "\"a\"b\"";
    assert CsvText([["a\"b"]], false) == s;
    assert s[1..] == "a\"b\"";
    assert "a\"b\""[1..] == "\"b\"";
    assert "\"b\""[1..] == "b\"";
    assert QuotedField("\"b\"") == Some(("", "b\""));
    assert [s[1]] + "" == "a";
    assert QuotedField("a\"b\"") == Some(("a", "b\""));
    assert RecordFields(s) == Some((["a"], "b\""));
    CsvRoundTrip([["a\"b"]]);
  }

  // ---------------------------------------------------------------------------
  // Clipboard

  /** A data cell on the clipboard: `="value"`, which spreadsheets read as text. */
  function Formula(v: string): string {
    "=\"" + v + "\""
  }

  /** `copySelectedToClipboard`: tab-separated lines, the header cells as they are,
      every data cell as a formula. */
  function ClipboardText(results: seq<ExtractionResult>, columns: seq<Column>, selected: set<nat>,
                         includeHeaders: bool, includeFilename: bool): (r: Result<string>)
    ensures r.Err? <==> SelectedResults(results, selected) == []
    ensures r.Err? ==> r.message == NO_ROWS_TO_COPY
  {
    var rows := SelectedResults(results, selected);
    if rows == [] then Err(NO_ROWS_TO_COPY)
    else Ok(Join(ClipboardLines(rows, columns, includeHeaders, includeFilename), "\n"))
  }

  /** The clipboard's lines before joining. */
  function ClipboardLines(rows: seq<ExtractionResult>, columns: seq<Column>,
                          includeHeaders: bool, includeFilename: bool): seq<string>
    requires forall k :: 0 <= k < |rows| ==> rows[k].data.Some?
  {
    (if includeHeaders then [Join(HeaderRow(columns, includeFilename), "\t")] else [])
    + seq(|rows|, k requires 0 <= k < |rows| => Join(Formulas(DataRow(rows[k], columns, includeFilename)), "\t"))
  }

  function Formulas(cells: seq<string>): (r: seq<string>)
    ensures |r| == |cells|
    ensures forall m :: 0 <= m < |r| ==> r[m] == Formula(cells[m])
  {
    seq(|cells|, m requires 0 <= m < |cells| => Formula(cells[m]))
  }

  /** No cell of the table holds a tab or a line break. */
  predicate PlainCells(rows: seq<seq<string>>) {
    forall k, m :: 0 <= k < |rows| && 0 <= m < |rows[k]| ==> '\t' !in rows[k][m] && '\n' !in rows[k][m]
  }

  /** Splitting the clipboard text at line breaks and tabs gives back the exported
      table, the data cells as formulas, when no cell holds a tab or line break and
      there is at least one column. */
  lemma ClipboardReadsBack(results: seq<ExtractionResult>, columns: seq<Column>, selected: set<nat>,
                           includeHeaders: bool, includeFilename: bool)
    requires |columns| >= 1 || includeFilename
    requires ClipboardText(results, columns, selected, includeHeaders, includeFilename).Ok?
    requires PlainCells(ExportTable(results, columns, selected, includeHeaders, includeFilename).value)
    ensures var text := ClipboardText(results, columns, selected, includeHeaders, includeFilename).value;
      var table := ExportTable(results, columns, selected, includeHeaders, includeFilename).value;
      var off := if includeHeaders then 1 else 0;
      var lines := Split(text, '\n');
      && |lines| == |table|
      && (includeHeaders ==> Split(lines[0], '\t') == table[0])
      && forall k :: off <= k < |table| ==> Split(lines[k], '\t') == Formulas(table[k])
  {
    var rows := SelectedResults(results, selected);
    var table := ExportTable(results, columns, selected, includeHeaders, includeFilename).value;
    var lines := ClipboardLines(rows, columns, includeHeaders, includeFilename);
    var off := if includeHeaders then 1 else 0;
    ClipboardLinesOfTable(results, columns, selected, includeHeaders, includeFilename);
    forall k | 0 <= k < |lines|
      ensures '\n' !in lines[k]
      ensures k < off ==> Split(lines[k], '\t') == table[k]
      ensures off <= k ==> Split(lines[k], '\t') == Formulas(table[k])
    {
      if k < off {
        LineReadsBack(table[k]);
      } else {
        FormulasPlain(table[k]);
        LineReadsBack(Formulas(table[k]));
      }
    }
    SplitJoin(lines, '\n');
  }

  /** The clipboard lines are the table's rows joined with tabs, the data rows as
      formulas. */
  lemma ClipboardLinesOfTable(results: seq<ExtractionResult>, columns: seq<Column>, selected: set<nat>,
                              includeHeaders: bool, includeFilename: bool)
    requires SelectedResults(results, selected) != []
    ensures var table := ExportTable(results, columns, selected, includeHeaders, includeFilename).value;
      var lines := ClipboardLines(SelectedResults(results, selected), columns, includeHeaders, includeFilename);
      var off := if includeHeaders then 1 else 0;
      && |lines| == |table|
      && (forall k :: 0 <= k < off ==> lines[k] == Join(table[k], "\t"))
      && (forall k :: off <= k < |lines| ==> lines[k] == Join(Formulas(table[k]), "\t"))
  {
    var rows := SelectedResults(results, selected);
    LinesOfRows(rows, columns, includeHeaders, includeFilename,
                ExportTable(results, columns, selected, includeHeaders, includeFilename).value);
  }

  /** `ClipboardLinesOfTable` for any table laid out as the export lays it out. */
  lemma LinesOfRows(rows: seq<ExtractionResult>, columns: seq<Column>, includeHeaders: bool,
                    includeFilename: bool, table: seq<seq<string>>)
    requires forall k :: 0 <= k < |rows| ==> rows[k].data.Some?
    requires var off := if includeHeaders then 1 else 0;
      && |table| == |rows| + off
      && (includeHeaders ==> table[0] == HeaderRow(columns, includeFilename))
      && forall k :: 0 <= k < |rows| ==> table[k + off] == DataRow(rows[k], columns, includeFilename)
    ensures var lines := ClipboardLines(rows, columns, includeHeaders, includeFilename);
      var off := if includeHeaders then 1 else 0;
      && |lines| == |table|
      && (forall k :: 0 <= k < off ==> lines[k] == Join(table[k], "\t"))
      && (forall k :: off <= k < |lines| ==> lines[k] == Join(Formulas(table[k]), "\t"))
  {
    var lines := ClipboardLines(rows, columns, includeHeaders, includeFilename);
    var off := if includeHeaders then 1 else 0;
    forall k | off <= k < |lines| ensures lines[k] == Join(Formulas(table[k]), "\t") {
      assert table[(k - off) + off] == DataRow(rows[k - off], columns, includeFilename);
    }
  }

  /** A non-empty row of plain cells joined with tabs has no line break and splits
      back at the tabs. */
  lemma LineReadsBack(cells: seq<string>)
    requires |cells| >= 1
    requires forall m :: 0 <= m < |cells| ==> '\t' !in cells[m] && '\n' !in cells[m]
    ensures '\n' !in Join(cells, "\t")
    ensures Split(Join(cells, "\t"), '\t') == cells
  {
    SplitJoin(cells, '\t');
    JoinWithout(cells, '\t', '\n');
  }

  /** Wrapping plain cells as formulas adds no tab or line break. */
  lemma FormulasPlain(cells: seq<string>)
    requires forall m :: 0 <= m < |cells| ==> '\t' !in cells[m] && '\n' !in cells[m]
    ensures forall m :: 0 <= m < |cells| ==> '\t' !in Formulas(cells)[m] && '\n' !in Formulas(cells)[m]
  {
    forall m | 0 <= m < |cells| ensures '\t' !in Formulas(cells)[m] && '\n' !in Formulas(cells)[m] {
      assert Formulas(cells)[m] == "=\"" + cells[m] + "\"";
    }
  }

  /** A character in none of the parts nor the separator is not in the joined text. */
  lemma {:induction false} JoinWithout(parts: seq<string>, sep: char, c: char)
    requires c != sep
    requires forall i :: 0 <= i < |parts| ==> c !in parts[i]
    ensures c !in Join(parts, [sep])
    decreases |parts|
  {
    if |parts| > 1 {
      JoinWithout(parts[1..], sep, c);
    }
  }

  // ---------------------------------------------------------------------------
  // Column order and selection

  /** `handleDragOver` while column `dragged` is held over column `index`: the
      dragged column is taken out and put back at `index`, which becomes the
      dragged position. Nothing changes without a drag or over the column itself. */
  function MoveColumn(columns: seq<Column>, dragged: Option<nat>, index: nat): (r: (seq<Column>, Option<nat>))
    requires dragged.Some? ==> dragged.value < |columns|
    requires index < |columns|
    ensures dragged.None? || dragged.value == index ==> r == (columns, dragged)
    ensures dragged.Some? && dragged.value != index ==>
      && |r.0| == |columns|
      && multiset(r.0) == multiset(columns)
      && r.0[index] == columns[dragged.value]
      && r.0[..index] + r.0[index + 1..] == columns[..dragged.value] + columns[dragged.value + 1..]
      && r.1 == Some(index)
  {
    if dragged.None? || dragged.value == index then (columns, dragged)
    else
      var d := dragged.value;
      var without := columns[..d] + columns[d + 1..];
      assert columns == columns[..d] + [columns[d]] + columns[d + 1..];
      assert without == without[..index] + without[index..];
      var moved := without[..index] + [columns[d]] + without[index..];
      assert multiset(moved) == multiset(without) + multiset{columns[d]};
      assert multiset(columns) == multiset(without) + multiset{columns[d]};
      assert moved[index] == columns[d];
      assert moved[..index] == without[..index];
      assert moved[index + 1..] == without[index..];
      (moved, Some(index))
  }

  /** Dragging a column back to where it came from restores the order. */
  lemma MoveBack(columns: seq<Column>, from: nat, to: nat)
    requires from < |columns| && to < |columns| && from != to
    ensures var moved := MoveColumn(columns, Some(from), to);
      MoveColumn(moved.0, Some(to), from) == (columns, Some(from))
  {
    var without := columns[..from] + columns[from + 1..];
    var moved := without[..to] + [columns[from]] + without[to..];
    assert moved[..to] + moved[to + 1..] == without;
    assert without[..from] + [columns[from]] + without[from..] == columns;
  }

  /** `toggleRow`. */
  function ToggleRow(selected: set<nat>, index: nat): (r: set<nat>)
    ensures index in r <==> index !in selected
    ensures forall j :: j != index ==> (j in r <==> j in selected)
  {
    if index in selected then selected - {index} else selected + {index}
  }

  /** Toggling a row twice restores the selection. */
  lemma ToggleRowTwice(selected: set<nat>, index: nat)
    ensures ToggleRow(ToggleRow(selected, index), index) == selected
  {
  }

  /** The indices of `n` rows. */
  function AllRows(n: nat): (r: set<nat>)
    ensures forall j :: j in r <==> 0 <= j < n
    ensures |r| == n
  {
    if n == 0 then {} else
      var s := AllRows(n - 1);
      assert n - 1 !in s;
      assert |s + {n - 1}| == |s| + 1;
      s + {n - 1}
  }

  /** `toggleSelectAll` over `n` rows: clear when as many rows are selected as
      there are results, otherwise select every row. */
  function ToggleSelectAll(selected: set<nat>, n: nat): (r: set<nat>)
    ensures |selected| == n ==> r == {}
    ensures |selected| != n ==> r == AllRows(n)
  {
    if |selected| == n then {} else AllRows(n)
  }

  /** A selection of existing rows has as many members as there are rows exactly
      when every row is selected. */
  lemma {:induction false} FullSelection(selected: set<nat>, n: nat)
    requires forall j :: j in selected ==> j < n
    ensures |selected| == n <==> selected == AllRows(n)
    decreases n
  {
    if n > 0 {
      var smaller := selected - {n - 1};
      FullSelection(smaller, n - 1);
      if n - 1 in selected {
        assert |smaller| == |selected| - 1;
        if smaller == AllRows(n - 1) {
          assert selected == smaller + {n - 1};
        } else {
          assert selected != AllRows(n);
        }
      } else {
        assert smaller == selected;
        assert |selected| <= |AllRows(n - 1)| by { SubsetSize(selected, AllRows(n - 1)); }
        assert n - 1 in AllRows(n);
      }
    } else {
      assert selected == {};
    }
  }

  lemma SubsetSize(a: set<nat>, b: set<nat>)
    requires a <= b
    ensures |a| <= |b|
  {
    assert b == a + (b - a);
  }

  /** With a selection of existing rows, "select all" selects every row unless all
      are selected already, and pressing it twice from a partial selection clears
      it. */
  lemma SelectAllBehaviour(selected: set<nat>, n: nat)
    requires forall j :: j in selected ==> j < n
    ensures selected != AllRows(n) ==> ToggleSelectAll(selected, n) == AllRows(n)
    ensures selected == AllRows(n) ==> ToggleSelectAll(selected, n) == {}
    ensures n > 0 && selected != AllRows(n) ==> ToggleSelectAll(ToggleSelectAll(selected, n), n) == {}
  {
    FullSelection(selected, n);
  }

  /** The successful rows. */
  function SuccessRows(results: seq<ExtractionResult>): (r: set<nat>)
    ensures forall j :: j in r <==> 0 <= j < |results| && results[j].status == Success
  {
    set j: nat | j < |results| && results[j].status == Success
  }

  /** The auto-selection step on each render: once every row has finished and it
      has not happened yet, the successful rows become the selection and the flag
      is set. */
  function AutoSelect(results: seq<ExtractionResult>, selected: set<nat>, done: bool): (r: (set<nat>, bool))
    ensures var complete := |results| > 0 && forall j :: 0 <= j < |results| ==> results[j].status != Processing;
      && (complete && !done ==> r == (SuccessRows(results), true))
      && (!(complete && !done) ==> r == (selected, done))
  {
    if |results| > 0 && (forall j :: 0 <= j < |results| ==> results[j].status != Processing) && !done
    then (SuccessRows(results), true)
    else (selected, done)
  }

  /** Auto-selection happens once: a second step changes nothing. */
  lemma AutoSelectOnce(results: seq<ExtractionResult>, selected: set<nat>, done: bool)
    ensures var once := AutoSelect(results, selected, done);
      AutoSelect(results, once.0, once.1) == once
  {
  }

  /** After auto-selection the export holds exactly the successful results that
      carry data, in order. */
  lemma AutoSelectedExport(results: seq<ExtractionResult>, j: nat)
    requires j < |results|
    ensures var rows := ExportIndices(results, SuccessRows(results), 0);
      Exportable(results[j]) <==> j in rows
  {
    if Exportable(results[j]) {
      ExportIndicesComplete(results, SuccessRows(results), 0, j);
    }
  }
}

=== FILE: storage.dfy ===
/** `LocalTemplateStorage` (lib/storage.ts): the template list and the active
    template id kept in the browser's localStorage. A write can fail (storage
    full or disabled): `writeError` is what `setItem` throws, `None` when it
    succeeds. */
module TemplateStorage {
  import opened Strings
  import opened Types

  const DEFAULT_ID := "default"
  const CANNOT_DELETE_DEFAULT := "Cannot delete default template"

  /** The ids of a list, as a set. */
  function Ids(ts: seq<Template>): set<string> {
    set i | 0 <= i < |ts| :: ts[i].id
  }

  /** No two entries share an id. */
  predicate DistinctIds(ts: seq<Template>) {
    forall i, j :: 0 <= i < j < |ts| ==> ts[i].id != ts[j].id
  }

  /** `loadTemplates`: the stored list, or nothing when none is stored or it cannot
      be read. */
  function LoadTemplates(store: Store): (r: seq<Template>)
    ensures store.templates.Holds? ==> r == store.templates.value
    ensures !store.templates.Holds? ==> r == []
  {
    if store.templates.Holds? then store.templates.value else []
  }

  /** The list after saving `t` at time `now`: an entry with its id is replaced in
      place by `t` stamped with `now`; otherwise `t` is appended as it is. */
  function Upsert(ts: seq<Template>, t: Template, now: nat): (r: seq<Template>)
    ensures FindById(ts, t.id).None? ==> r == ts + [t]
    ensures FindById(ts, t.id).Some? ==>
      var i := FindById(ts, t.id).value;
      && |r| == |ts|
      && r[i] == t.(updatedAt := now)
      && forall j :: 0 <= j < |ts| && j != i ==> r[j] == ts[j]
  {
    match FindById(ts, t.id)
    case None => ts + [t]
    case Some(i) => ts[i := t.(updatedAt := now)]
  }

  /** `saveTemplate`: the list is loaded, `t` is upserted and the list is written
      back; a failing write leaves the store as it was. */
  function SaveTemplate(store: Store, t: Template, now: nat, writeError: Option<string>): (r: Result<Store>)
    ensures r.Ok? <==> writeError.None?
    ensures r.Err? ==> r.message == writeError.value
    ensures r.Ok? ==> r.value == store.(templates := Holds(Upsert(LoadTemplates(store), t, now)))
  {
    if writeError.None? then Ok(store.(templates := Holds(Upsert(LoadTemplates(store), t, now))))
    else Err(writeError.value)
  }

  /** An upsert keeps the ids distinct, adds `t`'s id, and grows the list by one
      exactly when the id was new. */
  lemma UpsertKeepsIdsDistinct(ts: seq<Template>, t: Template, now: nat)
    requires DistinctIds(ts)
    ensures DistinctIds(Upsert(ts, t, now))
    ensures Ids(Upsert(ts, t, now)) == Ids(ts) + {t.id}
    ensures |Upsert(ts, t, now)| == |ts| + (if t.id in Ids(ts) then 0 else 1)
  {
    var r := Upsert(ts, t, now);
    match FindById(ts, t.id)
    case None =>
      assert r[|ts|] == t;
      assert t.id !in Ids(ts);
      assert Ids(r) == Ids(ts) + {t.id} by {
        forall x | x in Ids(r) ensures x in Ids(ts) + {t.id} {
          var i :| 0 <= i < |r| && r[i].id == x;
          if i < |ts| { assert r[i] == ts[i]; }
        }
        forall x | x in Ids(ts) ensures x in Ids(r) {
          var i :| 0 <= i < |ts| && ts[i].id == x;
          assert r[i] == ts[i];
        }
      }
    case Some(k) =>
      assert t.id in Ids(ts);
      assert Ids(r) == Ids(ts) by {
        forall x | x in Ids(r) ensures x in Ids(ts) {
          var i :| 0 <= i < |r| && r[i].id == x;
        }
        forall x | x in Ids(ts) ensures x in Ids(r) {
          var i :| 0 <= i < |ts| && ts[i].id == x;
          assert r[i].id == ts[i].id;
        }
      }
  }

  /** After saving, the entry found under `t`'s id is `t`, stamped with `now` when
      it replaced an older entry. */
  lemma SaveThenFind(ts: seq<Template>, t: Template, now: nat)
    ensures var r := Upsert(ts, t, now);
      && FindById(r, t.id).Some?
      && r[FindById(r, t.id).value] == (if t.id in Ids(ts) then t.(updatedAt := now) else t)
  {
    var r := Upsert(ts, t, now);
    match FindById(ts, t.id)
    case None =>
      assert t.id !in Ids(ts);
      assert r[|ts|] == t;
      assert FindById(r, t.id).value == |ts|;
    case Some(k) =>
      assert t.id in Ids(ts);
      assert r[k].id == t.id;
      assert FindById(r, t.id).value == k;
  }

  /** Saving over a list that cannot be read replaces it by the one template. */
  lemma SaveOverUnreadable(store: Store, t: Template, now: nat)
    requires !store.templates.Holds?
    ensures SaveTemplate(store, t, now, None).value.templates == Holds([t])
  {
    assert [] + [t] == [t];
  }

  /** `deleteTemplate`: the built-in template cannot be deleted; otherwise every
      entry with the id is dropped and the rest is written back in order. */
  function DeleteTemplate(store: Store, id: string, writeError: Option<string>): (r: Result<Store>)
    ensures id == DEFAULT_ID ==> r == Err(CANNOT_DELETE_DEFAULT)
    ensures r.Ok? <==> id != DEFAULT_ID && writeError.None?
    ensures id != DEFAULT_ID && writeError.Some? ==> r == Err(writeError.value)
    ensures r.Ok? ==> r.value == store.(templates := Holds(WithoutId(LoadTemplates(store), id)))
  {
    if id == DEFAULT_ID then Err(CANNOT_DELETE_DEFAULT)
    else if writeError.Some? then Err(writeError.value)
    else Ok(store.(templates := Holds(WithoutId(LoadTemplates(store), id))))
  }

  /** After a delete no entry has the id, the others are kept, and deleting an id
      that is not stored writes back the same list. */
  lemma DeleteRemovesId(store: Store, id: string)
    requires id != DEFAULT_ID
    ensures var after := LoadTemplates(DeleteTemplate(store, id, None).value);
      && id !in Ids(after)
      && (forall t :: t in LoadTemplates(store) && t.id != id ==> t in after)
      && (id !in Ids(LoadTemplates(store)) ==> after == LoadTemplates(store))
  {
    var before := LoadTemplates(store);
    var after := LoadTemplates(DeleteTemplate(store, id, None).value);
    assert after == WithoutId(before, id);
    if id !in Ids(before) {
      assert forall j :: 0 <= j < |before| ==> before[j].id != id;
    }
  }

  /** Deleting twice is deleting once. */
  lemma DeleteIdempotent(store: Store, id: string)
    requires id != DEFAULT_ID
    ensures var once := DeleteTemplate(store, id, None).value;
      DeleteTemplate(once, id, None).value == once
  {
    var once := DeleteTemplate(store, id, None).value;
    DeleteRemovesId(store, id);
    var list := LoadTemplates(once);
    assert forall j :: 0 <= j < |list| ==> list[j].id != id by {
      forall j | 0 <= j < |list| ensures list[j].id != id {
        assert list[j].id in Ids(list);
      }
    }
  }

  /** `getActiveTemplateId`: the stored string, or nothing (`null`) when none is
      stored or reading throws. An empty string is returned as it is. */
  function GetActiveTemplateId(store: Store): (r: Option<string>)
    ensures store.activeId.Holds? <==> r.Some?
    ensures r.Some? ==> r.value == store.activeId.value
  {
    if store.activeId.Holds? then Some(store.activeId.value) else None
  }

  /** `setActiveTemplateId`: a failing write is swallowed and changes nothing. */
  function SetActiveTemplateId(store: Store, id: string, writeError: Option<string>): (r: Store)
    ensures writeError.None? ==> r.activeId == Holds(id)
    ensures writeError.Some? ==> r == store
    ensures r.templates == store.templates
    ensures r.promptHistory == store.promptHistory && r.trainedInstructions == store.trainedInstructions
  {
    if writeError.None? then store.(activeId := Holds(id)) else store
  }

  /** The id set is the id read back, and the list is untouched. */
  lemma SetThenGetActive(store: Store, id: string)
    ensures GetActiveTemplateId(SetActiveTemplateId(store, id, None)) == Some(id)
    ensures LoadTemplates(SetActiveTemplateId(store, id, None)) == LoadTemplates(store)
  {
  }
}

=== FILE: strings.dfy ===
/** Helpers shared by every module: the small part of JavaScript's string library
    the application uses, and the array filter that drops one position. Case
    mapping, trimming and line terminators follow the ASCII characters only: any
    other character is left as it is, is not whitespace, and is matched by `.`. */
module Strings {

  datatype Option<+T> = None | Some(value: T)

  /** The outcome of an operation that can throw: the value, or the error message. */
  datatype Result<+T> = Ok(value: T) | Err(message: string)

  // ---------------------------------------------------------------------------
  // Characters

  predicate IsUpperLetter(c: char) { 'A' <= c <= 'Z' }
  predicate IsLowerLetter(c: char) { 'a' <= c <= 'z' }
  predicate IsDigit(c: char) { '0' <= c <= '9' }

  /** The class `[a-z0-9]` of the key-derivation regular expressions. */
  predicate IsKeyChar(c: char) { IsLowerLetter(c) || IsDigit(c) }

  /** JavaScript `toLowerCase` on an ASCII character. */
  function LowerChar(c: char): (r: char)
    ensures IsUpperLetter(c) ==> IsLowerLetter(r)
    ensures !IsUpperLetter(c) ==> r == c
  {
    if IsUpperLetter(c) then (c as int + 32) as char else c
  }

  /** JavaScript `toUpperCase` on an ASCII character. */
  function UpperChar(c: char): (r: char)
    ensures IsLowerLetter(c) ==> IsUpperLetter(r)
    ensures !IsLowerLetter(c) ==> r == c
  {
    if IsLowerLetter(c) then (c as int - 32) as char else c
  }

  /** The characters removed by `String.prototype.trim` (the ASCII ones). */
  predicate IsWhitespace(c: char) {
    c == ' ' || c == '\t' || c == '\n' || c == '\r' || c == 11 as char || c == 12 as char
  }

  /** The characters the regular-expression `.` does not match (the ASCII ones). */
  predicate IsLineTerminator(c: char) { c == '\n' || c == '\r' }

  // ---------------------------------------------------------------------------
  // Strings

  /** `toLowerCase`. */
  function Lower(s: string): (r: string)
    ensures |r| == |s|
  {
    if s == [] then [] else [LowerChar(s[0])] + Lower(s[1..])
  }

  lemma {:induction false} LowerAt(s: string)
    ensures forall i :: 0 <= i < |s| ==> Lower(s)[i] == LowerChar(s[i])
    decreases |s|
  {
    if s != [] {
      LowerAt(s[1..]);
    }
  }

  lemma {:induction false} LowerAppend(a: string, b: string)
    ensures Lower(a + b) == Lower(a) + Lower(b)
    decreases |a|
  {
    if a == [] {
      assert a + b == b;
    } else {
      assert (a + b)[1..] == a[1..] + b;
      LowerAppend(a[1..], b);
    }
  }

  /** Lower-casing twice is lower-casing once. */
  lemma LowerIdempotent(s: string)
    ensures Lower(Lower(s)) == Lower(s)
  {
    LowerAt(s);
    LowerAt(Lower(s));
  }

  /** A string without capitals is its own lower case. */
  lemma LowerWithoutCapitals(s: string)
    requires forall i :: 0 <= i < |s| ==> !IsUpperLetter(s[i])
    ensures Lower(s) == s
  {
    LowerAt(s);
  }

  /** A capital followed by no capitals: only the first character changes. */
  lemma LowerCapitalised(c: char, rest: string)
    requires forall i :: 0 <= i < |rest| ==> !IsUpperLetter(rest[i])
    ensures Lower([c] + rest) == [LowerChar(c)] + rest
  {
    assert ([c] + rest)[1..] == rest;
    LowerWithoutCapitals(rest);
  }

  /** Lower-casing commutes with taking a slice. */
  lemma LowerSlice(s: string, i: nat, j: nat)
    requires i <= j <= |s|
    ensures Lower(s[i..j]) == Lower(s)[i..j]
  {
    LowerPrefix(s, j);
    LowerSuffix(s[..j], i);
    assert s[i..j] == s[..j][i..];
  }

  lemma {:induction false} LowerPrefix(s: string, j: nat)
    requires j <= |s|
    ensures Lower(s[..j]) == Lower(s)[..j]
    decreases j
  {
    if j > 0 {
      LowerPrefix(s[1..], j - 1);
      assert s[..j] == [s[0]] + s[1..][..j - 1];
      assert s[..j][1..] == s[1..][..j - 1];
    }
  }

  lemma {:induction false} LowerSuffix(s: string, i: nat)
    requires i <= |s|
    ensures Lower(s[i..]) == Lower(s)[i..]
    decreases i
  {
    if i == 0 {
      assert s[0..] == s;
    } else {
      LowerSuffix(s[1..], i - 1);
      assert s[i..] == s[1..][i - 1..];
    }
  }

  function TrimStart(s: string): (r: string)
    ensures |r| <= |s| && r == s[|s| - |r|..]
    ensures r == [] || !IsWhitespace(r[0])
    ensures forall i :: 0 <= i < |s| - |r| ==> IsWhitespace(s[i])
  {
    if s == [] || !IsWhitespace(s[0]) then s else TrimStart(s[1..])
  }

  function TrimEnd(s: string): (r: string)
    ensures |r| <= |s| && r == s[..|r|]
    ensures r == [] || !IsWhitespace(r[|r| - 1])
    ensures forall i :: |r| <= i < |s| ==> IsWhitespace(s[i])
  {
    if s == [] || !IsWhitespace(s[|s| - 1]) then s else TrimEnd(s[..|s| - 1])
  }

  /** `String.prototype.trim`. */
  function Trim(s: string): (r: string)
    ensures r == [] || (!IsWhitespace(r[0]) && !IsWhitespace(r[|r| - 1]))
  {
    TrimEnd(TrimStart(s))
  }

  /** A string that is empty after `trim()`: `!s.trim()` in the source. */
  predicate IsBlank(s: string) {
    forall i :: 0 <= i < |s| ==> IsWhitespace(s[i])
  }

  lemma TrimEmptyIffBlank(s: string)
    ensures Trim(s) == [] <==> IsBlank(s)
  {
  }

  lemma {:induction false} TrimOfTrimmed(s: string)
    requires s == [] || (!IsWhitespace(s[0]) && !IsWhitespace(s[|s| - 1]))
    ensures Trim(s) == s
  {
  }

  /** Trimming twice is trimming once. */
  lemma TrimIdempotent(s: string)
    ensures Trim(Trim(s)) == Trim(s)
  {
    TrimOfTrimmed(Trim(s));
  }

  predicate StartsWith(s: string, p: string) {
    |p| <= |s| && s[..|p|] == p
  }

  predicate EndsWith(s: string, p: string) {
    |p| <= |s| && s[|s| - |p|..] == p
  }

  /** `p` occurs in `s` at index `i`. */
  predicate MatchesAt(s: string, p: string, i: int) {
    0 <= i && i + |p| <= |s| && s[i..i + |p|] == p
  }

  predicate Contains(s: string, p: string) {
    exists i :: 0 <= i <= |s| && MatchesAt(s, p, i)
  }

  lemma StartsWithConcat(a: string, b: string)
    ensures StartsWith(a + b, a)
  {
    assert (a + b)[..|a|] == a;
  }

  lemma EndsWithConcat(a: string, b: string)
    ensures EndsWith(a + b, b)
  {
    assert (a + b)[|a|..] == b;
  }

  lemma StartsWithTrans(a: string, b: string, c: string)
    requires StartsWith(a, b) && StartsWith(b, c)
    ensures StartsWith(a, c)
  {
    assert a[..|c|] == b[..|b|][..|c|];
  }

  lemma EndsWithTrans(a: string, b: string, c: string)
    requires EndsWith(a, b) && EndsWith(b, c)
    ensures EndsWith(a, c)
  {
    assert a[|a| - |c|..] == b[|b| - |c|..];
  }

  /** An occurrence survives text added on either side. */
  lemma ContainsExtend(s: string, p: string, t: string)
    requires Contains(s, p)
    ensures Contains(s + t, p) && Contains(t + s, p)
  {
    var i :| 0 <= i <= |s| && MatchesAt(s, p, i);
    assert (s + t)[i..i + |p|] == s[i..i + |p|];
    assert MatchesAt(s + t, p, i);
    assert (t + s)[|t| + i..|t| + i + |p|] == s[i..i + |p|];
    assert MatchesAt(t + s, p, |t| + i);
  }

  lemma ContainsSelf(s: string)
    ensures Contains(s, s)
  {
    assert s[0..|s|] == s;
    assert MatchesAt(s, s, 0);
  }

  lemma ContainsTrans(a: string, b: string, c: string)
    requires Contains(a, b) && Contains(b, c)
    ensures Contains(a, c)
  {
    var i :| 0 <= i <= |a| && MatchesAt(a, b, i);
    var j :| 0 <= j <= |b| && MatchesAt(b, c, j);
    forall k | 0 <= k < |c| ensures a[i + j + k] == c[k] {
      assert a[i + j + k] == a[i..i + |b|][j + k] == b[j + k];
      assert b[j + k] == b[j..j + |c|][k];
    }
    assert a[i + j..i + j + |c|] == c;
    assert MatchesAt(a, c, i + j);
  }

  lemma ContainsAllTrans(a: string, b: string, parts: seq<string>)
    requires Contains(a, b)
    requires forall i :: 0 <= i < |parts| ==> Contains(b, parts[i])
    ensures forall i :: 0 <= i < |parts| ==> Contains(a, parts[i])
  {
    forall i | 0 <= i < |parts| ensures Contains(a, parts[i]) {
      ContainsTrans(a, b, parts[i]);
    }
  }

  /** Every part occurs in the joined text. */
  lemma {:induction false} JoinContains(parts: seq<string>, sep: string, i: nat)
    requires i < |parts|
    ensures Contains(Join(parts, sep), parts[i])
    decreases |parts|
  {
    if |parts| == 1 {
      ContainsSelf(parts[0]);
    } else if i == 0 {
      ContainsSelf(parts[0]);
      ContainsExtend(parts[0], parts[0], sep);
      ContainsExtend(parts[0] + sep, parts[0], Join(parts[1..], sep));
    } else {
      JoinContains(parts[1..], sep, i - 1);
      ContainsExtend(Join(parts[1..], sep), parts[i], parts[0] + sep);
    }
  }

  /** An occurrence moves right by the length of text put in front. */
  lemma MatchesShift(pre: string, s: string, post: string, p: string, i: int)
    requires MatchesAt(s, p, i)
    ensures MatchesAt(pre + s + post, p, |pre| + i)
  {
    assert (pre + s + post)[|pre| + i..|pre| + i + |p|] == s[i..i + |p|];
  }

  /** `x` occurs in `s` and ends no later than an occurrence of `y` begins. */
  predicate OccursBefore(s: string, x: string, y: string) {
    exists a, b :: 0 <= a <= b <= |s| && MatchesAt(s, x, a) && MatchesAt(s, y, b) && a + |x| <= b
  }

  lemma OccursBeforeExtend(pre: string, s: string, post: string, x: string, y: string)
    requires OccursBefore(s, x, y)
    ensures OccursBefore(pre + s + post, x, y)
  {
    var a, b :| 0 <= a <= b <= |s| && MatchesAt(s, x, a) && MatchesAt(s, y, b) && a + |x| <= b;
    MatchesShift(pre, s, post, x, a);
    MatchesShift(pre, s, post, y, b);
  }

  /** The parts of a join appear in their order. */
  lemma {:induction false} JoinOrdered(parts: seq<string>, sep: string, i: nat, j: nat)
    requires i < j < |parts|
    ensures OccursBefore(Join(parts, sep), parts[i], parts[j])
    decreases |parts|
  {
    var rest := Join(parts[1..], sep);
    assert Join(parts, sep) == parts[0] + sep + rest;
    if i == 0 {
      JoinContains(parts[1..], sep, j - 1);
      var b :| 0 <= b <= |rest| && MatchesAt(rest, parts[j], b);
      MatchesShift(parts[0] + sep, rest, "", parts[j], b);
      assert parts[0] + sep + rest + "" == Join(parts, sep);
      assert MatchesAt(Join(parts, sep), parts[0], 0);
    } else {
      JoinOrdered(parts[1..], sep, i - 1, j - 1);
      OccursBeforeExtend(parts[0] + sep, rest, "", parts[i], parts[j]);
      assert parts[0] + sep + rest + "" == Join(parts, sep);
    }
  }

  /** `s.split(sep)` for a one-character separator: the pieces between the
      separators, an empty text giving one empty piece. */
  function Split(s: string, sep: char): (r: seq<string>)
    ensures |r| >= 1
    decreases |s|
  {
    if s == [] then [""]
    else
      var rest := Split(s[1..], sep);
      if s[0] == sep then [""] + rest else [[s[0]] + rest[0]] + rest[1..]
  }

  /** A piece without the separator, followed by the separator and more text,
      splits off as the first piece. */
  lemma {:induction false} SplitPiece(p: string, sep: char, t: string)
    requires sep !in p
    ensures Split(p + [sep] + t, sep) == [p] + Split(t, sep)
    ensures Split(p, sep) == [p]
    decreases |p|
  {
    if p == [] {
      assert p + [sep] + t == [sep] + t;
      assert ([sep] + t)[1..] == t;
    } else {
      SplitPiece(p[1..], sep, t);
      assert (p + [sep] + t)[1..] == p[1..] + [sep] + t;
      assert [p[0]] + p[1..] == p;
    }
  }

  /** Splitting undoes joining when no part contains the separator. */
  lemma {:induction false} SplitJoin(parts: seq<string>, sep: char)
    requires |parts| >= 1
    requires forall i :: 0 <= i < |parts| ==> sep !in parts[i]
    ensures Split(Join(parts, [sep]), sep) == parts
    decreases |parts|
  {
    if |parts| == 1 {
      SplitPiece(parts[0], sep, "");
    } else {
      SplitJoin(parts[1..], sep);
      SplitPiece(parts[0], sep, Join(parts[1..], [sep]));
      assert [parts[0]] + parts[1..] == parts;
    }
  }

  lemma ContainsInfix(a: string, b: string, c: string)
    ensures Contains(a + b + c, b)
  {
    assert (a + b + c)[|a|..|a| + |b|] == b;
    assert MatchesAt(a + b + c, b, |a|);
  }

  /** JavaScript's `s || fallback` on an optional string: the empty string is falsy. */
  function StringOr(s: Option<string>, fallback: string): (r: string)
    ensures s.Some? && s.value != "" ==> r == s.value
    ensures s.None? || s.value == "" ==> r == fallback
  {
    if s.Some? && s.value != "" then s.value else fallback
  }

  /** `s.substring(0, n)`. */
  function Prefix(s: string, n: nat): (r: string)
    ensures |r| == if |s| < n then |s| else n
    ensures r == s[..|r|]
  {
    if |s| <= n then s else s[..n]
  }

  /** `s.indexOf(p, from)` for `0 <= from`: the first occurrence at or after `from`. */
  function IndexOfFrom(s: string, p: string, from: nat): (r: Option<nat>)
    ensures r.Some? ==> from <= r.value && MatchesAt(s, p, r.value)
    ensures r.Some? ==> forall j :: from <= j < r.value ==> !MatchesAt(s, p, j)
    ensures r.None? ==> forall j :: from <= j ==> !MatchesAt(s, p, j)
    decreases |s| + 1 - from
  {
    if from + |p| > |s| then None
    else if s[from..from + |p|] == p then Some(from)
    else IndexOfFrom(s, p, from + 1)
  }

  /** `parts.join(sep)`. */
  function Join(parts: seq<string>, sep: string): (r: string)
    ensures parts == [] ==> r == []
    ensures |parts| == 1 ==> r == parts[0]
  {
    if parts == [] then []
    else if |parts| == 1 then parts[0]
    else parts[0] + sep + Join(parts[1..], sep)
  }

  /** The characters of `s` that lie in `[a-z0-9]`: `s.replace(/[^a-z0-9]/g, '')`. */
  function KeepKeyChars(s: string): (r: string)
    ensures |r| <= |s|
    ensures forall i :: 0 <= i < |r| ==> IsKeyChar(r[i])
    ensures (forall i :: 0 <= i < |s| ==> IsKeyChar(s[i])) ==> r == s
    ensures (forall i :: 0 <= i < |s| ==> !IsKeyChar(s[i])) ==> r == []
  {
    if s == [] then []
    else if IsKeyChar(s[0]) then [s[0]] + KeepKeyChars(s[1..])
    else KeepKeyChars(s[1..])
  }

  lemma {:induction false} KeepKeyCharsAppend(a: string, b: string)
    ensures KeepKeyChars(a + b) == KeepKeyChars(a) + KeepKeyChars(b)
    decreases |a|
  {
    if a != [] {
      assert (a + b)[1..] == a[1..] + b;
      KeepKeyCharsAppend(a[1..], b);
    } else {
      assert a + b == b;
    }
  }

  function DigitChar(d: nat): (c: char)
    requires d < 10
    ensures IsDigit(c)
  {
    ('0' as int + d) as char
  }

  /** Decimal rendering of a natural number, as template literals print it. */
  function NatToString(n: nat): (r: string)
    ensures 1 <= |r|
    ensures forall i :: 0 <= i < |r| ==> IsDigit(r[i])
    ensures n < 10 ==> r == [DigitChar(n)]
  {
    if n < 10 then [DigitChar(n)] else NatToString(n / 10) + [DigitChar(n % 10)]
  }

  // ---------------------------------------------------------------------------
  // Numbers

  function Min(a: int, b: int): int { if a <= b then a else b }
  function Max(a: int, b: int): int { if a >= b then a else b }

  // ---------------------------------------------------------------------------
  // Sequences

  /** `xs.filter((_, i) => i !== index)`, walking from position `at`. */
  function WithoutIndex<T>(xs: seq<T>, index: int, at: nat): (r: seq<T>)
    decreases |xs|
  {
    if xs == [] then []
    else (if at == index then [] else [xs[0]]) + WithoutIndex(xs[1..], index, at + 1)
  }

  /** The filter keeps everything when it never reaches the index. */
  lemma {:induction false} WithoutIndexOutside<T>(xs: seq<T>, index: int, at: nat)
    requires !(at <= index < at + |xs|)
    ensures WithoutIndex(xs, index, at) == xs
    decreases |xs|
  {
    if xs != [] {
      WithoutIndexOutside(xs[1..], index, at + 1);
      assert xs == [xs[0]] + xs[1..];
    }
  }

  /** The filter cuts out exactly the one position it skips. */
  lemma {:induction false} WithoutIndexSplice<T>(xs: seq<T>, index: int, at: nat)
    requires at <= index < at + |xs|
    ensures WithoutIndex(xs, index, at) == xs[..index - at] + xs[index - at + 1..]
    decreases |xs|
  {
    if at == index {
      WithoutIndexOutside(xs[1..], index, at + 1);
      assert xs[..0] + xs[1..] == xs[1..];
    } else {
      WithoutIndexSplice(xs[1..], index, at + 1);
      assert xs[..index - at] == [xs[0]] + xs[1..][..index - at - 1];
      assert xs[index - at + 1..] == xs[1..][index - at..];
    }
  }
}

=== FILE: templates.dfy ===
/** lib/templates.ts: field-key derivation, the built-in template, and the
    localStorage-backed template list with its active-template id. */
module Templates {
  import opened Strings
  import opened Types

  // ---------------------------------------------------------------------------
  // Key derivation

  /** Length of the leading run of characters outside `[a-z0-9]`. */
  function SeparatorRun(s: string): (n: nat)
    ensures n <= |s|
    ensures forall i :: 0 <= i < n ==> !IsKeyChar(s[i])
    ensures n < |s| ==> IsKeyChar(s[n])
  {
    if s == [] || IsKeyChar(s[0]) then 0 else 1 + SeparatorRun(s[1..])
  }

  /** The largest `k` with `1 <= k <= hi` such that `s[k]` is matched by `.`:
      where the backtracking regular-expression engine places the capture when
      a separator run reaches the end of the text. */
  function LastCapture(s: string, hi: int): (r: Option<nat>)
    requires hi < |s|
    ensures r.Some? ==> 1 <= r.value <= hi && !IsLineTerminator(s[r.value])
    ensures r.Some? ==> forall j :: r.value < j <= hi ==> IsLineTerminator(s[j])
    ensures r.None? ==> forall j :: 1 <= j <= hi ==> IsLineTerminator(s[j])
    decreases hi
  {
    if hi < 1 then None
    else if !IsLineTerminator(s[hi]) then Some(hi)
    else LastCapture(s, hi - 1)
  }

  /** `s.replace(/[^a-z0-9]+(.)/g, (_, char) => char.toUpperCase())`: every run of
      characters outside `[a-z0-9]` together with the character after it becomes
      that character upper-cased. */
  function CapitalizeAfterRuns(s: string): (r: string)
    ensures |r| <= |s|
    ensures (forall i :: 0 <= i < |s| ==> !IsKeyChar(s[i])) ==> forall i :: 0 <= i < |r| ==> !IsKeyChar(r[i])
    decreases |s|
  {
    if s == [] then []
    else if IsKeyChar(s[0]) then [s[0]] + CapitalizeAfterRuns(s[1..])
    else
      var n := SeparatorRun(s);
      if n < |s| then [UpperChar(s[n])] + CapitalizeAfterRuns(s[n + 1..])
      else match LastCapture(s, n - 1)
        case Some(k) => [UpperChar(s[k])] + CapitalizeAfterRuns(s[k + 1..])
        case None => [s[0]] + CapitalizeAfterRuns(s[1..])
  }

  /** `generateFieldKey` (lib/templates.ts and its copy in the discover-fields route):
      lower-case, capitalise after separators, then drop everything outside `[a-z0-9]`. */
  function GenerateFieldKey(name: string): (key: string)
    ensures forall i :: 0 <= i < |key| ==> IsKeyChar(key[i])
    ensures |key| <= |name|
  {
    KeepKeyChars(CapitalizeAfterRuns(Lower(name)))
  }

  /** What the key keeps of a lower-cased name, character by character: a
      `[a-z0-9]` character survives unless it is a letter directly after a
      separator (`afterSeparator`); separators never survive. */
  function KeptChars(t: string, afterSeparator: bool): string
    decreases |t|
  {
    if t == [] then []
    else if !IsKeyChar(t[0]) then KeptChars(t[1..], true)
    else if afterSeparator && IsLowerLetter(t[0]) then KeptChars(t[1..], false)
    else [t[0]] + KeptChars(t[1..], false)
  }

  lemma {:induction false} KeptCharsSkipsRun(t: string, j: nat, b: bool)
    requires 1 <= j <= |t|
    requires forall i :: 0 <= i < j ==> !IsKeyChar(t[i])
    ensures KeptChars(t, b) == KeptChars(t[j..], true)
    decreases j
  {
    if j > 1 {
      KeptCharsSkipsRun(t[1..], j - 1, true);
      assert t[1..][j - 1..] == t[j..];
    }
  }

  /** The two regular-expression passes together equal `KeptChars`. */
  lemma {:induction false} TwoPassesKeepChars(t: string)
    ensures KeepKeyChars(CapitalizeAfterRuns(t)) == KeptChars(t, false)
    decreases |t|
  {
    if t == [] {
    } else if IsKeyChar(t[0]) {
      TwoPassesKeepChars(t[1..]);
      KeepKeyCharsAppend([t[0]], CapitalizeAfterRuns(t[1..]));
    } else {
      var n := SeparatorRun(t);
      if n < |t| {
        TwoPassesKeepChars(t[n + 1..]);
        KeepKeyCharsAppend([UpperChar(t[n])], CapitalizeAfterRuns(t[n + 1..]));
        KeptCharsSkipsRun(t, n, false);
        assert t[n..][1..] == t[n + 1..];
      } else {
        KeptCharsSkipsRun(t, n, false);
        assert t[n..] == [];
      }
    }
  }

  /** The key of a name, as the characters it keeps of the lower-cased name. */
  lemma KeyIsKeptChars(name: string)
    ensures GenerateFieldKey(name) == KeptChars(Lower(name), false)
  {
    TwoPassesKeepChars(Lower(name));
  }

  lemma {:induction false} KeptCharsOfKeyText(s: string)
    requires forall i :: 0 <= i < |s| ==> IsKeyChar(s[i])
    ensures KeptChars(s, false) == s
    decreases |s|
  {
    if s != [] {
      KeptCharsOfKeyText(s[1..]);
    }
  }

  /** A text made only of `[a-z0-9]` is its own key. */
  lemma KeyOfKeyText(s: string)
    requires forall i :: 0 <= i < |s| ==> IsKeyChar(s[i])
    ensures GenerateFieldKey(s) == s
  {
    LowerAt(s);
    assert Lower(s) == s;
    KeyIsKeptChars(s);
    KeptCharsOfKeyText(s);
  }

  /** Key derivation is idempotent. */
  lemma KeyIdempotent(name: string)
    ensures GenerateFieldKey(GenerateFieldKey(name)) == GenerateFieldKey(name)
  {
    KeyOfKeyText(GenerateFieldKey(name));
  }

  lemma {:induction false} KeptCharsKeyPrefix(u: string, z: string, b: bool)
    requires forall i :: 0 <= i < |u| ==> IsKeyChar(u[i])
    requires u != [] ==> !b || IsDigit(u[0])
    ensures u != [] ==> KeptChars(u + z, b) == u + KeptChars(z, false)
    decreases |u|
  {
    if u != [] {
      assert (u + z)[1..] == u[1..] + z;
      if u[1..] != [] {
        KeptCharsKeyPrefix(u[1..], z, false);
      } else {
        assert u[1..] + z == z;
      }
    }
  }

  /** A separator: a character that is not `[a-z0-9]` even after lower-casing. */
  predicate IsSeparator(c: char) { !IsKeyChar(LowerChar(c)) }

  /** A word: letters of either case and digits. */
  predicate IsWord(u: string) { forall i :: 0 <= i < |u| ==> !IsSeparator(u[i]) }

  predicate IsSeparatorRun(r: string) { forall i :: 0 <= i < |r| ==> IsSeparator(r[i]) }

  lemma {:induction false} KeptCharsAfterRun(run: string, z: string, b: bool)
    requires run != [] && forall i :: 0 <= i < |run| ==> !IsKeyChar(run[i])
    ensures KeptChars(run + z, b) == KeptChars(z, true)
  {
    KeptCharsSkipsRun(run + z, |run|, b);
    assert (run + z)[|run|..] == z;
  }

  lemma {:induction false} KeptCharsOfSeparators(t: string, b: bool)
    requires forall i :: 0 <= i < |t| ==> !IsKeyChar(t[i])
    ensures KeptChars(t, b) == []
    decreases |t|
  {
    if t != [] {
      KeptCharsOfSeparators(t[1..], true);
    }
  }

  lemma {:induction false} KeptAfterSeparator(lu: string, lr: string, c: char, lw: string)
    requires forall i :: 0 <= i < |lu| ==> IsKeyChar(lu[i])
    requires lr != [] && forall i :: 0 <= i < |lr| ==> !IsKeyChar(lr[i])
    ensures IsLowerLetter(c) ==> KeptChars(lu + (lr + ([c] + lw)), false) == lu + KeptChars(lw, false)
    ensures IsDigit(c) ==> KeptChars(lu + (lr + ([c] + lw)), false) == lu + [c] + KeptChars(lw, false)
  {
    var tail := [c] + lw;
    KeptCharsAfterRun(lr, tail, false);
    assert tail[1..] == lw;
    if lu != [] {
      KeptCharsKeyPrefix(lu, lr + tail, false);
    } else {
      assert lu + (lr + tail) == lr + tail;
    }
  }

  lemma LowerOfParts(u: string, run: string, c: char, w: string)
    ensures Lower(u + run + [c] + w) == Lower(u) + (Lower(run) + ([LowerChar(c)] + Lower(w)))
  {
    LowerAppend(u + run + [c], w);
    LowerAppend(u + run, [c]);
    LowerAppend(u, run);
    assert Lower([c]) == [LowerChar(c)];
  }

  /** A letter directly after a run of separators is dropped from the key (it is
      upper-cased by the first pass and deleted by the second), while a digit in
      the same place survives. */
  lemma LetterAfterSeparatorDropped(u: string, run: string, c: char, w: string)
    requires IsWord(u)
    requires run != [] && IsSeparatorRun(run)
    ensures IsLowerLetter(LowerChar(c)) ==>
      GenerateFieldKey(u + run + [c] + w) == Lower(u) + GenerateFieldKey(w)
    ensures IsDigit(c) ==>
      GenerateFieldKey(u + run + [c] + w) == Lower(u) + [c] + GenerateFieldKey(w)
  {
    var t := u + run + [c] + w;
    var lu, lr, lw := Lower(u), Lower(run), Lower(w);
    LowerOfParts(u, run, c, w);
    KeyIsKeptChars(t);
    KeyIsKeptChars(w);
    LowerAt(u);
    LowerAt(run);
    assert forall i :: 0 <= i < |lu| ==> IsKeyChar(lu[i]);
    assert forall i :: 0 <= i < |lr| ==> !IsKeyChar(lr[i]);
    KeptAfterSeparator(lu, lr, LowerChar(c), lw);
  }

  /** A word followed only by separators keeps the whole lower-cased word. */
  lemma KeyOfWordThenSeparators(v: string, tail: string)
    requires IsWord(v) && IsSeparatorRun(tail)
    ensures GenerateFieldKey(v + tail) == Lower(v)
  {
    LowerAppend(v, tail);
    KeyIsKeptChars(v + tail);
    var lv, lt := Lower(v), Lower(tail);
    LowerAt(v);
    LowerAt(tail);
    assert forall i :: 0 <= i < |lv| ==> IsKeyChar(lv[i]);
    assert forall i :: 0 <= i < |lt| ==> !IsKeyChar(lt[i]);
    KeptCharsOfSeparators(lt, false);
    if lv != [] {
      KeptCharsKeyPrefix(lv, lt, false);
    } else {
      assert lv + lt == lt;
    }
  }

  /** Two words separated by one space: the second word loses its initial. */
  lemma KeyOfTwoWords(u: string, c: char, v: string, tail: string)
    requires IsWord(u) && IsWord(v) && IsSeparatorRun(tail)
    requires IsLowerLetter(LowerChar(c))
    ensures GenerateFieldKey(u + " " + [c] + v + tail) == Lower(u) + Lower(v)
  {
    assert IsSeparatorRun(" ");
    LetterAfterSeparatorDropped(u, " ", c, v + tail);
    assert u + " " + [c] + v + tail == u + " " + [c] + (v + tail);
    KeyOfWordThenSeparators(v, tail);
  }

  /** Three words separated by single spaces: the second and third lose their initials. */
  lemma KeyOfThreeWords(u: string, c: char, v: string, d: char, w: string)
    requires IsWord(u) && IsWord(v) && IsWord(w)
    requires IsLowerLetter(LowerChar(c)) && IsLowerLetter(LowerChar(d))
    ensures GenerateFieldKey(u + " " + [c] + (v + " " + [d] + w)) == Lower(u) + (Lower(v) + Lower(w))
  {
    assert IsSeparatorRun(" ");
    LetterAfterSeparatorDropped(u, " ", c, v + " " + [d] + w);
    KeyOfTwoWords(v, d, w, "");
    assert v + " " + [d] + w + "" == v + " " + [d] + w;
  }

  /** A capitalised word: a capital, then lower-case letters. */
  predicate IsTitleWord(w: string) {
    w != [] && IsUpperLetter(w[0]) && forall i :: 1 <= i < |w| ==> IsLowerLetter(w[i])
  }

  /** Lower-case letters form a word that lower-casing keeps. */
  lemma LowerLettersWord(s: string)
    requires forall i :: 0 <= i < |s| ==> IsLowerLetter(s[i])
    ensures IsWord(s) && Lower(s) == s
  {
    LowerWithoutCapitals(s);
  }

  /** A capitalised word is a word whose lower case changes only its capital. */
  lemma TitleWordLower(w: string)
    requires IsTitleWord(w)
    ensures IsWord(w) && IsWord(w[1..])
    ensures Lower(w) == [LowerChar(w[0])] + w[1..]
    ensures Lower(w[1..]) == w[1..]
  {
    assert w == [w[0]] + w[1..];
    LowerLettersWord(w[1..]);
    LowerCapitalised(w[0], w[1..]);
  }

  /** Two capitalised words and a separator tail: the key is the first word in
      lower case followed by the second word without its capital. */
  lemma KeyOfTwoTitleWords(name: string, u: string, v: string, tail: string)
    requires IsTitleWord(u) && IsTitleWord(v) && IsSeparatorRun(tail)
    requires name == u + " " + v + tail
    ensures GenerateFieldKey(name) == [LowerChar(u[0])] + u[1..] + v[1..]
  {
    TitleWordLower(u);
    TitleWordLower(v);
    assert name == u + " " + [v[0]] + v[1..] + tail by {
      assert v == [v[0]] + v[1..];
    }
    KeyOfTwoWords(u, v[0], v[1..], tail);
  }

  /** The same for three capitalised words. */
  lemma KeyOfThreeTitleWords(name: string, u: string, v: string, w: string)
    requires IsTitleWord(u) && IsTitleWord(v) && IsTitleWord(w)
    requires name == u + " " + v + " " + w
    ensures GenerateFieldKey(name) == [LowerChar(u[0])] + u[1..] + v[1..] + w[1..]
  {
    var v', w' := v[1..], w[1..];
    assert IsWord(u) && IsWord(v') && IsWord(w') by {
      TitleWordLower(u);
      TitleWordLower(v);
      TitleWordLower(w);
    }
    assert name == u + " " + [v[0]] + (v' + " " + [w[0]] + w') by {
      assert v == [v[0]] + v';
      assert w == [w[0]] + w';
    }
    assert GenerateFieldKey(name) == Lower(u) + (Lower(v') + Lower(w')) by {
      KeyOfThreeWords(u, v[0], v', w[0], w');
    }
    assert Lower(u) + (Lower(v') + Lower(w')) == [LowerChar(u[0])] + u[1..] + v' + w' by {
      TitleWordLower(u);
      TitleWordLower(v);
      TitleWordLower(w);
    }
  }

  /** The example in the source comment does not hold: "Invoice NO." maps to
      "invoiceo", not "invoiceNo". */
  lemma InvoiceNoExample(name: string)
    requires name == "Invoice NO."
    ensures GenerateFieldKey(name) == "invoiceo"
  {
    assert IsWord("O") && IsSeparatorRun(".");
    assert name == "Invoice" + " " + ['N'] + "O" + ".";
    KeyOfTwoWords("Invoice", 'N', "O", ".");
    TitleWordLower("Invoice");
    TitleWordLower("O");
  }

  lemma OrderIdKey(name: string)
    requires name == "Order ID"
    ensures GenerateFieldKey(name) == "orderd"
  {
    assert IsWord("D");
    assert name == "Order" + " " + ['I'] + "D" + "";
    KeyOfTwoWords("Order", 'I', "D", "");
    TitleWordLower("Order");
    TitleWordLower("D");
  }

  lemma TaxInvoiceDateKey(name: string)
    requires name == "Tax Invoice Date"
    ensures GenerateFieldKey(name) == "taxnvoiceate"
  {
    KeyOfThreeTitleWords(name, "Tax", "Invoice", "Date");
  }

  lemma InvoiceAmountKey(name: string)
    requires name == "Invoice Amount"
    ensures GenerateFieldKey(name) == "invoicemount"
  {
    KeyOfTwoTitleWords(name, "Invoice", "Amount", "");
  }

  // ---------------------------------------------------------------------------
  // The camel-case key the comment describes

  /** The one-pass reading of the key the comment on `generateFieldKey` promises:
      as `KeptChars`, except that a letter directly after a separator is kept in
      upper case instead of dropped. It is what the two passes give when the
      second one deletes `/[^a-zA-Z0-9]/g` rather than `/[^a-z0-9]/g`. */
  function CamelKeptChars(t: string, afterSeparator: bool): (r: string)
    ensures |r| <= |t|
    ensures forall i :: 0 <= i < |r| ==> IsKeyChar(r[i]) || IsUpperLetter(r[i])
    decreases |t|
  {
    if t == [] then []
    else if !IsKeyChar(t[0]) then CamelKeptChars(t[1..], true)
    else if afterSeparator && IsLowerLetter(t[0]) then [UpperChar(t[0])] + CamelKeptChars(t[1..], false)
    else [t[0]] + CamelKeptChars(t[1..], false)
  }

  /** The corrected `generateFieldKey`: "Invoice NO." becomes "invoiceNo". */
  function CamelFieldKey(name: string): (key: string)
    ensures |key| <= |name|
    ensures forall i :: 0 <= i < |key| ==> IsKeyChar(key[i]) || IsUpperLetter(key[i])
  {
    CamelKeptChars(Lower(name), false)
  }

  lemma {:induction false} CamelWithoutCapitals(t: string, b: bool)
    ensures KeepKeyChars(CamelKeptChars(t, b)) == KeptChars(t, b)
    decreases |t|
  {
    if t != [] {
      var b' := !IsKeyChar(t[0]);
      CamelWithoutCapitals(t[1..], b');
      if IsKeyChar(t[0]) {
        var c := if b && IsLowerLetter(t[0]) then UpperChar(t[0]) else t[0];
        KeepKeyCharsAppend([c], CamelKeptChars(t[1..], false));
      }
    }
  }

  /** The key as written is the camel-case key with its capitals deleted: the
      only difference between the two is the letters the second pass drops. */
  lemma AsWrittenDropsCapitals(name: string)
    ensures GenerateFieldKey(name) == KeepKeyChars(CamelFieldKey(name))
  {
    KeyIsKeptChars(name);
    CamelWithoutCapitals(Lower(name), false);
  }

  lemma {:induction false} CamelLowered(t: string, b: bool)
    requires forall i :: 0 <= i < |t| ==> !IsUpperLetter(t[i])
    ensures Lower(CamelKeptChars(t, b)) == KeepKeyChars(t)
    decreases |t|
  {
    if t != [] {
      CamelLowered(t[1..], !IsKeyChar(t[0]));
      if IsKeyChar(t[0]) {
        var c := if b && IsLowerLetter(t[0]) then UpperChar(t[0]) else t[0];
        LowerAppend([c], CamelKeptChars(t[1..], false));
      }
    }
  }

  /** The camel-case key loses no letter: lower-cased, it is exactly the
      `[a-z0-9]` characters of the lower-cased name. */
  lemma CamelKeyKeepsEveryKeyChar(name: string)
    ensures Lower(CamelFieldKey(name)) == KeepKeyChars(Lower(name))
  {
    LowerAt(name);
    CamelLowered(Lower(name), false);
  }

  lemma {:induction false} CamelKeyPrefix(u: string, z: string, b: bool)
    requires forall i :: 0 <= i < |u| ==> IsKeyChar(u[i])
    requires u != [] ==> !b || IsDigit(u[0])
    ensures u != [] ==> CamelKeptChars(u + z, b) == u + CamelKeptChars(z, false)
    decreases |u|
  {
    if u != [] {
      assert (u + z)[1..] == u[1..] + z;
      if u[1..] != [] {
        CamelKeyPrefix(u[1..], z, false);
      } else {
        assert u[1..] + z == z;
      }
    }
  }

  lemma {:induction false} CamelSkipsRun(t: string, j: nat, b: bool)
    requires j <= |t| && forall i :: 0 <= i < j ==> !IsKeyChar(t[i])
    ensures j > 0 ==> CamelKeptChars(t, b) == CamelKeptChars(t[j..], true)
    decreases j
  {
    if j > 1 {
      CamelSkipsRun(t[1..], j - 1, true);
      assert t[1..][j - 1..] == t[j..];
    }
  }

  lemma {:induction false} CamelOfSeparators(t: string, b: bool)
    requires forall i :: 0 <= i < |t| ==> !IsKeyChar(t[i])
    ensures CamelKeptChars(t, b) == []
    decreases |t|
  {
    if t != [] {
      CamelOfSeparators(t[1..], true);
    }
  }

  lemma CamelAfterSpace(lu: string, lc: char, lw: string)
    requires forall i :: 0 <= i < |lu| ==> IsKeyChar(lu[i])
    requires IsLowerLetter(lc)
    ensures CamelKeptChars(lu + (" " + ([lc] + lw)), false) == lu + [UpperChar(lc)] + CamelKeptChars(lw, false)
  {
    var rest := [lc] + lw;
    assert rest[1..] == lw;
    assert CamelKeptChars(" " + rest, false) == CamelKeptChars(rest, true) by {
      assert (" " + rest)[1..] == rest;
    }
    if lu != [] {
      CamelKeyPrefix(lu, " " + rest, false);
    } else {
      assert lu + (" " + rest) == " " + rest;
    }
  }

  lemma CamelWordThenSeparators(lv: string, lt: string)
    requires forall i :: 0 <= i < |lv| ==> IsKeyChar(lv[i])
    requires forall i :: 0 <= i < |lt| ==> !IsKeyChar(lt[i])
    ensures CamelKeptChars(lv + lt, false) == lv
  {
    CamelOfSeparators(lt, false);
    if lv != [] {
      CamelKeyPrefix(lv, lt, false);
    } else {
      assert lv + lt == lt;
    }
  }

  /** Two words separated by one space: the second word keeps its initial, in
      upper case. */
  lemma CamelOfTwoWords(u: string, c: char, v: string, tail: string)
    requires IsWord(u) && IsWord(v) && IsSeparatorRun(tail)
    requires IsLowerLetter(LowerChar(c))
    ensures CamelFieldKey(u + " " + [c] + v + tail) == Lower(u) + [UpperChar(LowerChar(c))] + Lower(v)
  {
    var lu, lc, lv, lt := Lower(u), LowerChar(c), Lower(v), Lower(tail);
    LowerOfTwoWords(u, c, v, tail);
    assert forall i :: 0 <= i < |lu| ==> IsKeyChar(lu[i]) by {
      LowerAt(u);
    }
    assert CamelKeptChars(lv + lt, false) == lv by {
      LowerAt(v);
      LowerAt(tail);
      CamelWordThenSeparators(lv, lt);
    }
    CamelAfterSpace(lu, lc, lv + lt);
  }

  lemma LowerOfTwoWords(u: string, c: char, v: string, tail: string)
    ensures Lower(u + " " + [c] + v + tail) == Lower(u) + (" " + ([LowerChar(c)] + (Lower(v) + Lower(tail))))
  {
    var lu, lc, lv, lt := Lower(u), LowerChar(c), Lower(v), Lower(tail);
    LowerAppend(u + " " + [c] + v, tail);
    LowerOfParts(u, " ", c, v);
    LowerWithoutCapitals(" ");
    assert lu + (" " + ([lc] + lv)) + lt == lu + (" " + ([lc] + (lv + lt)));
  }

  /** The comment's example holds for the corrected key. */
  lemma CamelInvoiceNoExample(name: string)
    requires name == "Invoice NO."
    ensures CamelFieldKey(name) == "invoiceNo"
  {
    assert IsWord("O") && IsSeparatorRun(".");
    assert name == "Invoice" + " " + ['N'] + "O" + ".";
    CamelOfTwoWords("Invoice", 'N', "O", ".");
    TitleWordLower("Invoice");
    assert Lower("O") == "o";
  }

  // ---------------------------------------------------------------------------
  // The built-in template

  function BuiltInField(id: string, name: string, key: string, description: string,
                        required: bool, t: FieldType): Field
  {
    Field(id, name, key, description, required, t, None, None)
  }

  /** `DEFAULT_TEMPLATE`; its module-load timestamps are represented by 0. */
  const DEFAULT_TEMPLATE: Template := Template(
    "default",
    "Standard Invoice",
    "Default invoice extraction with 4 standard fields",
    [ BuiltInField("field-1", "Order ID", "orderId", "Order or booking reference number", false, TextType),
      BuiltInField("field-2", "Invoice NO.", "invoiceNo", "Invoice number or ID", true, TextType),
      BuiltInField("field-3", "Tax Invoice Date", "taxInvoiceDate", "Invoice date in YYYY-MM-DD format", true, DateType),
      BuiltInField("field-4", "Invoice Amount", "invoiceAmount",
                   "Total invoice amount (decimal only, no currency symbols)", true, CurrencyType) ],
    "invoice",
    0,
    0)

  /** None of the built-in keys is what `generateFieldKey` makes of its field's name:
      the camel-case keys cannot be produced by the function. */
  lemma OrderIdNotDerivable(f: Field)
    requires f == DEFAULT_TEMPLATE.fields[0]
    ensures GenerateFieldKey(f.name) != f.key
  {
    assert f.name == "Order ID" && f.key[5] == 'I';
    OrderIdKey(f.name);
  }

  lemma InvoiceNoNotDerivable(f: Field)
    requires f == DEFAULT_TEMPLATE.fields[1]
    ensures GenerateFieldKey(f.name) != f.key
  {
    assert f.name == "Invoice NO." && f.key[7] == 'N';
    InvoiceNoExample(f.name);
  }

  lemma TaxInvoiceDateNotDerivable(f: Field)
    requires f == DEFAULT_TEMPLATE.fields[2]
    ensures GenerateFieldKey(f.name) != f.key
  {
    assert f.name == "Tax Invoice Date" && f.key[3] == 'I';
    TaxInvoiceDateKey(f.name);
  }

  lemma InvoiceAmountNotDerivable(f: Field)
    requires f == DEFAULT_TEMPLATE.fields[3]
    ensures GenerateFieldKey(f.name) != f.key
  {
    assert f.name == "Invoice Amount" && f.key[7] == 'A';
    InvoiceAmountKey(f.name);
  }

  lemma BuiltInKeysNotDerivable()
    ensures forall i :: 0 <= i < |DEFAULT_TEMPLATE.fields| ==>
      GenerateFieldKey(DEFAULT_TEMPLATE.fields[i].name) != DEFAULT_TEMPLATE.fields[i].key
  {
    forall i | 0 <= i < |DEFAULT_TEMPLATE.fields|
      ensures GenerateFieldKey(DEFAULT_TEMPLATE.fields[i].name) != DEFAULT_TEMPLATE.fields[i].key
    {
      if i == 0 {
        OrderIdNotDerivable(DEFAULT_TEMPLATE.fields[i]);
      } else if i == 1 {
        InvoiceNoNotDerivable(DEFAULT_TEMPLATE.fields[i]);
      } else if i == 2 {
        TaxInvoiceDateNotDerivable(DEFAULT_TEMPLATE.fields[i]);
      } else {
        InvoiceAmountNotDerivable(DEFAULT_TEMPLATE.fields[i]);
      }
    }
  }

  // ---------------------------------------------------------------------------
  // Template list in localStorage

  predicate HasDefault(ts: seq<Template>) {
    exists i :: 0 <= i < |ts| && ts[i].id == "default"
  }

  /** `loadTemplates`. `inBrowser` is `typeof window !== "undefined"`. */
  function LoadTemplates(inBrowser: bool, store: Store): (r: seq<Template>)
    ensures HasDefault(r)
    ensures !inBrowser || !store.templates.Holds? ==> r == [DEFAULT_TEMPLATE]
    ensures inBrowser && store.templates.Holds? ==>
      var stored := store.templates.value;
      && (HasDefault(stored) ==> r == stored)
      && (!HasDefault(stored) ==> r == [DEFAULT_TEMPLATE] + stored)
  {
    assert [DEFAULT_TEMPLATE][0].id == "default";
    if !inBrowser then [DEFAULT_TEMPLATE]
    else match store.templates
      case Missing => [DEFAULT_TEMPLATE]
      case Unreadable => [DEFAULT_TEMPLATE]
      case Holds(stored) =>
        if HasDefault(stored) then stored
        else assert ([DEFAULT_TEMPLATE] + stored)[0].id == "default"; [DEFAULT_TEMPLATE] + stored
  }

  /** `templates.filter(t => t.id !== "default")`. */
  function CustomTemplates(ts: seq<Template>): (r: seq<Template>)
    ensures !HasDefault(r)
    ensures forall t :: t in r <==> t in ts && t.id != "default"
    ensures |r| <= |ts|
  {
    WithoutId(ts, "default")
  }

  /** `saveTemplates`: every template except the built-in one is written, in order.
      A write that throws (`writeError`, a full quota for instance) is logged and
      swallowed, so the slot keeps what it held and the caller sees nothing. */
  function SaveTemplates(inBrowser: bool, store: Store, ts: seq<Template>, writeError: Option<string>): (r: Store)
    ensures inBrowser && writeError.None? ==> r.templates == Holds(CustomTemplates(ts))
    ensures !inBrowser || writeError.Some? ==> r == store
    ensures r.activeId == store.activeId && r.promptHistory == store.promptHistory
    ensures r.trainedInstructions == store.trainedInstructions
  {
    if !inBrowser || writeError.Some? then store else store.(templates := Holds(CustomTemplates(ts)))
  }

  /** Loading after a successful save yields the built-in template followed by
      the saved custom templates in their order. */
  lemma SaveThenLoad(store: Store, ts: seq<Template>)
    ensures LoadTemplates(true, SaveTemplates(true, store, ts, None))
         == [DEFAULT_TEMPLATE] + CustomTemplates(ts)
  {
  }

  /** Filtering out the built-in template distributes over concatenation. */
  lemma {:induction false} CustomTemplatesAppend(a: seq<Template>, b: seq<Template>)
    ensures CustomTemplates(a + b) == CustomTemplates(a) + CustomTemplates(b)
    decreases |a|
  {
    if a == [] {
      assert a + b == b;
    } else {
      assert (a + b)[0] == a[0];
      assert (a + b)[1..] == a[1..] + b;
      CustomTemplatesAppend(a[1..], b);
    }
  }

  /** `getActiveTemplateId`: the stored id, or "default" when none is stored, it
      is empty, or storage cannot be read. */
  function GetActiveTemplateId(inBrowser: bool, store: Store): (r: string)
    ensures r != ""
    ensures inBrowser && store.activeId.Holds? && store.activeId.value != "" ==> r == store.activeId.value
    ensures !inBrowser || !store.activeId.Holds? ==> r == "default"
  {
    if !inBrowser then "default"
    else match store.activeId
      case Holds(id) => if id != "" then id else "default"
      case _ => "default"
  }

  /** `setActiveTemplateId`. A write that throws is logged and swallowed, so the
      slot keeps what it held. */
  function SetActiveTemplateId(inBrowser: bool, store: Store, id: string, writeError: Option<string>): (r: Store)
    ensures inBrowser && writeError.None? ==> r.activeId == Holds(id)
    ensures !inBrowser || writeError.Some? ==> r == store
    ensures r.templates == store.templates && r.promptHistory == store.promptHistory
    ensures r.trainedInstructions == store.trainedInstructions
  {
    if !inBrowser || writeError.Some? then store else store.(activeId := Holds(id))
  }

  lemma SetThenGetActive(store: Store, id: string)
    ensures GetActiveTemplateId(true, SetActiveTemplateId(true, store, id, None))
         == if id == "" then "default" else id
  {
  }

  /** `createNewTemplate`. The id, `createdAt` and `updatedAt` each read the clock
      separately (`clock`). */
  function CreateNewTemplate(name: string, description: string, clock: Stamps): (t: Template)
    ensures t.fields == [] && t.documentType == "document"
    ensures t.name == name && t.description == description
    ensures t.id == "template-" + NatToString(clock.forId) && t.id != "default"
    ensures t.createdAt == clock.forCreated && t.updatedAt == clock.forUpdated
  {
    var t := Template("template-" + NatToString(clock.forId), name, description, [], "document",
                      clock.forCreated, clock.forUpdated);
    assert t.id[0] == 't';
    t
  }

  /** A new template added to the list and saved comes back from a reload last,
      after the built-in template and the earlier custom templates. */
  lemma NewTemplateSurvivesSave(store: Store, ts: seq<Template>, name: string, description: string, clock: Stamps)
    ensures var t := CreateNewTemplate(name, description, clock);
      LoadTemplates(true, SaveTemplates(true, store, ts + [t], None))
        == [DEFAULT_TEMPLATE] + CustomTemplates(ts) + [t]
  {
    var t := CreateNewTemplate(name, description, clock);
    SaveThenLoad(store, ts + [t]);
    CustomTemplatesAppend(ts, [t]);
    assert [t][1..] == [];
    assert CustomTemplates([t]) == [t];
  }
}

=== FILE: training.dfy ===
/** Training statistics (lib/training.ts): how often each template field was
    extracted correctly over a set of reviewed samples, which fields deserve a
    better description, and the text around a found value. */
module Training {
  import opened Strings
  import opened Types

  /** `FieldExtraction` (its optional position and source snippet are not read). */
  datatype FieldExtraction = FieldExtraction(value: string, confidence: int)

  /** `TrainingSample`: extractions and corrections are keyed by field key. */
  datatype TrainingSample = TrainingSample(
    id: string,
    fileName: string,
    pdfText: string,
    extractedFields: map<string, FieldExtraction>,
    userCorrections: map<string, string>,
    reviewed: bool,
    overallConfidence: real)

  /** One entry of `fieldSuccessRates`. */
  datatype Rate = Rate(success: nat, total: nat)

  type Rates = map<string, Rate>

  /** `TemplateSuggestion` of type "description"; its `reason` prints the rate as a
      rounded percentage and is represented by the two counts. */
  datatype Suggestion = Suggestion(fieldKey: string, fieldName: string, suggestion: string, success: nat, total: nat)

  const SUGGESTION_TEXT := "Try adding more details about where this field appears in the document"

  // ---------------------------------------------------------------------------
  // Success counting

  /** Whether a sample counts as a success for a key: no correction (or an empty
      one) or a correction equal to the extracted value, and an extracted value
      that is not blank. */
  predicate IsSuccess(s: TrainingSample, key: string) {
    var corrected := if key in s.userCorrections then s.userCorrections[key] else "";
    && (corrected == "" || (key in s.extractedFields && corrected == s.extractedFields[key].value))
    && key in s.extractedFields
    && !IsBlank(s.extractedFields[key].value)
  }

  /** The keys of the fields. */
  function KeySet(fields: seq<Field>): set<string> {
    set i | 0 <= i < |fields| :: fields[i].key
  }

  /** The counters before any sample: zero for every field's key. */
  function InitialRates(fields: seq<Field>): (r: Rates)
    ensures r.Keys == KeySet(fields)
    ensures forall k :: k in r ==> r[k] == Rate(0, 0)
  {
    map k | k in KeySet(fields) :: Rate(0, 0)
  }

  function RateOf(rates: Rates, key: string): Rate {
    if key in rates then rates[key] else Rate(0, 0)
  }

  /** The inner `forEach`: one sample, every field in order. */
  function CountSample(rates: Rates, s: TrainingSample, fields: seq<Field>): Rates
    decreases |fields|
  {
    if fields == [] then rates
    else
      var k := fields[0].key;
      var current := RateOf(rates, k);
      var step := Rate(current.success + (if IsSuccess(s, k) then 1 else 0), current.total + 1);
      CountSample(rates[k := step], s, fields[1..])
  }

  /** Counting a sample adds the fields' keys to the counters and no other key. */
  lemma {:induction false} CountSampleKeys(rates: Rates, s: TrainingSample, fields: seq<Field>)
    ensures CountSample(rates, s, fields).Keys == rates.Keys + KeySet(fields)
    decreases |fields|
  {
    if fields != [] {
      var k := fields[0].key;
      var current := RateOf(rates, k);
      var step := Rate(current.success + (if IsSuccess(s, k) then 1 else 0), current.total + 1);
      CountSampleKeys(rates[k := step], s, fields[1..]);
      KeySetCons(fields);
    }
  }

  lemma KeySetCons(fields: seq<Field>)
    requires fields != []
    ensures KeySet(fields) == {fields[0].key} + KeySet(fields[1..])
  {
    forall x | x in KeySet(fields) ensures x in {fields[0].key} + KeySet(fields[1..]) {
      var i :| 0 <= i < |fields| && fields[i].key == x;
      if i > 0 { assert fields[1..][i - 1].key == x; }
    }
  }

  /** The outer `forEach` over the samples. */
  function CountSamples(rates: Rates, samples: seq<TrainingSample>, fields: seq<Field>): (r: Rates)
    ensures KeySet(fields) <= rates.Keys ==> r.Keys == rates.Keys
    ensures samples == [] ==> r == rates
    decreases |samples|
  {
    if samples == [] then rates
    else
      CountSampleKeys(rates, samples[0], fields);
      CountSamples(CountSample(rates, samples[0], fields), samples[1..], fields)
  }

  /** `fieldSuccessRates` of `calculateTrainingResults`. */
  function SuccessRates(samples: seq<TrainingSample>, fields: seq<Field>): Rates {
    CountSamples(InitialRates(fields), samples, fields)
  }

  // ---------------------------------------------------------------------------
  // The reference counts

  /** How many fields carry the key. */
  function Multiplicity(fields: seq<Field>, key: string): (m: nat)
    ensures m <= |fields|
    ensures m > 0 <==> exists i :: 0 <= i < |fields| && fields[i].key == key
  {
    if fields == [] then 0
    else (if fields[0].key == key then 1 else 0) + Multiplicity(fields[1..], key)
  }

  /** How many samples are a success for the key. */
  function SuccessCount(samples: seq<TrainingSample>, key: string): (c: nat)
    ensures c <= |samples|
  {
    if samples == [] then 0
    else (if IsSuccess(samples[0], key) then 1 else 0) + SuccessCount(samples[1..], key)
  }

  function Bump(r: Rate, m: nat, hit: bool): Rate {
    Rate(r.success + (if hit then m else 0), r.total + m)
  }

  /** One sample adds, for each key, one to the total per field carrying the key,
      and as much to the successes when the sample is a success for it. */
  lemma {:induction false} CountSampleAt(rates: Rates, s: TrainingSample, fields: seq<Field>, key: string)
    ensures RateOf(CountSample(rates, s, fields), key)
         == Bump(RateOf(rates, key), Multiplicity(fields, key), IsSuccess(s, key))
    decreases |fields|
  {
    if fields != [] {
      var k := fields[0].key;
      var current := RateOf(rates, k);
      var step := Rate(current.success + (if IsSuccess(s, k) then 1 else 0), current.total + 1);
      var next := rates[k := step];
      assert CountSample(rates, s, fields) == CountSample(next, s, fields[1..]);
      CountSampleAt(next, s, fields[1..], key);
      if k == key {
        assert RateOf(next, key) == Bump(RateOf(rates, key), 1, IsSuccess(s, key));
      } else {
        assert RateOf(next, key) == RateOf(rates, key);
      }
    }
  }

  /** The reference counters: one per (sample, field) pair with the key, and one
      success per such pair whose sample is a success for the key. */
  function PairCount(samples: seq<TrainingSample>, fields: seq<Field>, key: string): (r: Rate)
    ensures r.success <= r.total
    ensures samples == [] ==> r == Rate(0, 0)
  {
    if samples == [] then Rate(0, 0)
    else Bump(PairCount(samples[1..], fields, key), Multiplicity(fields, key), IsSuccess(samples[0], key))
  }

  /** For a key carried by one field the pairs are the samples themselves. */
  lemma {:induction false} PairCountDistinct(samples: seq<TrainingSample>, fields: seq<Field>, key: string)
    requires Multiplicity(fields, key) == 1
    ensures PairCount(samples, fields, key) == Rate(SuccessCount(samples, key), |samples|)
    decreases |samples|
  {
    if samples != [] {
      PairCountDistinct(samples[1..], fields, key);
    }
  }

  /** Over all samples each key's counters grow by its reference counts. */
  lemma {:induction false} CountSamplesAt(rates: Rates, samples: seq<TrainingSample>, fields: seq<Field>, key: string)
    ensures var p := PairCount(samples, fields, key);
      RateOf(CountSamples(rates, samples, fields), key)
        == Rate(RateOf(rates, key).success + p.success, RateOf(rates, key).total + p.total)
    decreases |samples|
  {
    if samples != [] {
      var next := CountSample(rates, samples[0], fields);
      CountSampleAt(rates, samples[0], fields, key);
      CountSamplesAt(next, samples[1..], fields, key);
    }
  }

  /** Exactly the template's keys have counters. */
  lemma SuccessRatesKeys(samples: seq<TrainingSample>, fields: seq<Field>)
    ensures SuccessRates(samples, fields).Keys == KeySet(fields)
  {
    assert InitialRates(fields).Keys == KeySet(fields);
  }

  /** The success rates against their reference counts, hence `success <= total`;
      with distinct keys every total is the number of samples and every success
      count the number of successful samples. */
  lemma SuccessRatesCount(samples: seq<TrainingSample>, fields: seq<Field>, key: string)
    requires key in KeySet(fields)
    ensures key in SuccessRates(samples, fields)
    ensures SuccessRates(samples, fields)[key] == PairCount(samples, fields, key)
    ensures SuccessRates(samples, fields)[key].success <= SuccessRates(samples, fields)[key].total
    ensures Multiplicity(fields, key) == 1 ==>
      SuccessRates(samples, fields)[key] == Rate(SuccessCount(samples, key), |samples|)
  {
    var init := InitialRates(fields);
    var rates := CountSamples(init, samples, fields);
    SuccessRatesKeys(samples, fields);
    CountSamplesAt(init, samples, fields, key);
    assert RateOf(init, key) == Rate(0, 0);
    assert rates[key] == RateOf(rates, key);
    if Multiplicity(fields, key) == 1 {
      PairCountDistinct(samples, fields, key);
    }
  }

  // ---------------------------------------------------------------------------
  // Suggestions

  /** `successPercent < 70 && rate.total >= 2`, with the percentage compared by
      cross-multiplication; a zero total has percentage 0 but never two samples. */
  predicate NeedsWork(r: Rate) {
    r.total >= 2 && 10 * r.success < 7 * r.total
  }

  /** The suggestion made for a field with the given counters. */
  function Suggest(f: Field, rate: Rate): Suggestion {
    Suggestion(f.key, f.name, SUGGESTION_TEXT, rate.success, rate.total)
  }

  /** The positions, from `from` on, of the fields whose rate needs work, ascending. */
  function NeedyFrom(fields: seq<Field>, rates: Rates, from: nat): (r: seq<nat>)
    requires from <= |fields|
    ensures forall j :: 0 <= j < |r| ==> from <= r[j] < |fields| && NeedsWork(RateOf(rates, fields[r[j]].key))
    ensures forall j, k :: 0 <= j < k < |r| ==> r[j] < r[k]
    ensures forall i :: from <= i < |fields| && NeedsWork(RateOf(rates, fields[i].key)) ==> i in r
    decreases |fields| - from
  {
    if from == |fields| then []
    else if NeedsWork(RateOf(rates, fields[from].key)) then [from] + NeedyFrom(fields, rates, from + 1)
    else NeedyFrom(fields, rates, from + 1)
  }

  /** The suggestions: one per field whose rate needs work, in field order. */
  function Suggestions(fields: seq<Field>, rates: Rates): (r: seq<Suggestion>)
    ensures |r| <= |fields|
  {
    var needy := NeedyFrom(fields, rates, 0);
    NeedyBound(needy, |fields|);
    seq(|needy|, j requires 0 <= j < |needy| => Suggest(fields[needy[j]], RateOf(rates, fields[needy[j]].key)))
  }

  /** An ascending sequence of positions below `n` has at most `n` members. */
  lemma {:induction false} NeedyBound(r: seq<nat>, n: nat)
    requires forall j :: 0 <= j < |r| ==> r[j] < n
    requires forall j, k :: 0 <= j < k < |r| ==> r[j] < r[k]
    ensures |r| <= n
    decreases |r|
  {
    if r != [] {
      NeedyBound(r[..|r| - 1], r[|r| - 1]);
    }
  }

  /** Exactly the fields whose rate needs work get a suggestion, in field order,
      one each, naming the field and carrying its counters. */
  lemma SuggestionsPerField(fields: seq<Field>, rates: Rates, i: nat)
    requires i < |fields|
    ensures NeedsWork(RateOf(rates, fields[i].key)) <==>
      exists j :: 0 <= j < |Suggestions(fields, rates)| && Suggestions(fields, rates)[j] == Suggest(fields[i], RateOf(rates, fields[i].key))
  {
    var needy := NeedyFrom(fields, rates, 0);
    var r := Suggestions(fields, rates);
    if NeedsWork(RateOf(rates, fields[i].key)) {
      var j :| 0 <= j < |needy| && needy[j] == i;
      assert r[j] == Suggest(fields[i], RateOf(rates, fields[i].key));
    } else {
      forall j | 0 <= j < |r| ensures r[j] != Suggest(fields[i], RateOf(rates, fields[i].key)) {
        assert NeedsWork(RateOf(rates, fields[needy[j]].key));
      }
    }
  }

  /** `calculateTrainingResults` (without the average confidence, below). */
  datatype TrainingResults = TrainingResults(fieldSuccessRates: Rates, suggestions: seq<Suggestion>)

  function CalculateTrainingResults(samples: seq<TrainingSample>, fields: seq<Field>): (r: TrainingResults)
    ensures r.fieldSuccessRates.Keys == KeySet(fields)
    ensures |r.suggestions| <= |fields|
    ensures samples == [] ==>
      && r.suggestions == []
      && forall k :: k in r.fieldSuccessRates ==> r.fieldSuccessRates[k] == Rate(0, 0)
  {
    var rates := SuccessRates(samples, fields);
    assert InitialRates(fields).Keys == KeySet(fields);
    if samples == [] then
      NoneNeedWork(fields, rates);
      TrainingResults(rates, Suggestions(fields, rates))
    else TrainingResults(rates, Suggestions(fields, rates))
  }

  lemma {:induction false} NoNeedyFrom(fields: seq<Field>, rates: Rates, from: nat)
    requires from <= |fields|
    requires forall k :: k in rates ==> rates[k] == Rate(0, 0)
    ensures NeedyFrom(fields, rates, from) == []
    decreases |fields| - from
  {
    if from < |fields| {
      NoNeedyFrom(fields, rates, from + 1);
    }
  }

  lemma NoneNeedWork(fields: seq<Field>, rates: Rates)
    requires forall k :: k in rates ==> rates[k] == Rate(0, 0)
    ensures Suggestions(fields, rates) == []
  {
    NoNeedyFrom(fields, rates, 0);
  }

  /** Some suggestion names the field's key exactly when the key's rate needs work. */
  lemma SuggestedKey(fields: seq<Field>, rates: Rates, i: nat)
    requires i < |fields|
    ensures (exists j :: 0 <= j < |Suggestions(fields, rates)| && Suggestions(fields, rates)[j].fieldKey == fields[i].key)
            <==> NeedsWork(RateOf(rates, fields[i].key))
  {
    var sugs := Suggestions(fields, rates);
    var needy := NeedyFrom(fields, rates, 0);
    SuggestionsPerField(fields, rates, i);
    forall j | 0 <= j < |sugs| && sugs[j].fieldKey == fields[i].key
      ensures NeedsWork(RateOf(rates, fields[i].key))
    {
      assert sugs[j].fieldKey == fields[needy[j]].key;
    }
  }

  /** A field extracted well in at least seven of every ten samples gets no
      suggestion; with distinct keys, one below that over two or more samples does. */
  lemma SuggestionThreshold(samples: seq<TrainingSample>, fields: seq<Field>, i: nat)
    requires i < |fields| && Multiplicity(fields, fields[i].key) == 1
    ensures var r := CalculateTrainingResults(samples, fields);
      (exists j :: 0 <= j < |r.suggestions| && r.suggestions[j].fieldKey == fields[i].key)
      <==> |samples| >= 2 && 10 * SuccessCount(samples, fields[i].key) < 7 * |samples|
  {
    var rates := SuccessRates(samples, fields);
    assert CalculateTrainingResults(samples, fields).suggestions == Suggestions(fields, rates);
    assert fields[i].key in KeySet(fields);
    SuccessRatesCount(samples, fields, fields[i].key);
    assert RateOf(rates, fields[i].key) == Rate(SuccessCount(samples, fields[i].key), |samples|);
    SuggestedKey(fields, rates, i);
  }

  // ---------------------------------------------------------------------------
  // Average confidence

  function ConfidenceSum(samples: seq<TrainingSample>): real {
    if samples == [] then 0.0 else samples[0].overallConfidence + ConfidenceSum(samples[1..])
  }

  /** `averageConfidence`: the sum of the confidences divided by `max(count, 1)`. */
  function AverageConfidence(samples: seq<TrainingSample>): (r: real)
    ensures samples == [] ==> r == 0.0
  {
    if samples == [] then 0.0 else ConfidenceSum(samples) / (|samples| as real)
  }

  /** With samples, the average lies between the lowest and highest confidence. */
  lemma AverageBounds(samples: seq<TrainingSample>, lo: real, hi: real)
    requires samples != []
    requires forall i :: 0 <= i < |samples| ==> lo <= samples[i].overallConfidence <= hi
    ensures lo <= AverageConfidence(samples) <= hi
  {
    var n := |samples| as real;
    var sum := ConfidenceSum(samples);
    SumBounds(samples, lo, hi);
    var avg := sum / n;
    assert avg * n == sum;
    if avg < lo {
      assert avg * n < lo * n;
    }
    if avg > hi {
      assert avg * n > hi * n;
    }
  }

  lemma {:induction false} SumBounds(samples: seq<TrainingSample>, lo: real, hi: real)
    requires forall i :: 0 <= i < |samples| ==> lo <= samples[i].overallConfidence <= hi
    ensures (|samples| as real) * lo <= ConfidenceSum(samples) <= (|samples| as real) * hi
    decreases |samples|
  {
    if samples != [] {
      SumBounds(samples[1..], lo, hi);
      assert (|samples| as real) * lo == lo + (|samples[1..]| as real) * lo;
      assert (|samples| as real) * hi == hi + (|samples[1..]| as real) * hi;
    }
  }

  // ---------------------------------------------------------------------------
  // Text context

  const ELLIPSIS := "..."

  /** The text from `contextChars` before the occurrence at `index` (of length
      `len`) to `contextChars` after it, clipped to the text, with "..." on each
      side where the text goes on. */
  function Snippet(text: string, index: nat, len: nat, contextChars: nat): (r: string)
    requires index + len <= |text|
    ensures |r| <= len + 2 * contextChars + 6
    ensures Contains(r, text[index..index + len])
  {
    var start := if index < contextChars then 0 else index - contextChars;
    var end := if |text| < index + len + contextChars then |text| else index + len + contextChars;
    var window := text[start..end];
    var head := if start > 0 then ELLIPSIS else "";
    var tail := if end < |text| then ELLIPSIS else "";
    SnippetContains(text, index, len, start, end, head, tail);
    head + window + tail
  }

  lemma SnippetContains(text: string, index: nat, len: nat, start: nat, end: nat, head: string, tail: string)
    requires start <= index && index + len <= end <= |text|
    ensures Contains(head + text[start..end] + tail, text[index..index + len])
  {
    var window := text[start..end];
    var found := text[index..index + len];
    assert forall k :: 0 <= k < len ==> found[k] == text[index + k] == window[index - start + k];
    assert found == window[index - start..index - start + len];
    assert MatchesAt(window, found, index - start);
    ContainsExtend(window, found, tail);
    ContainsExtend(window + tail, found, head);
    assert head + (window + tail) == head + window + tail;
  }

  /** A text that fits in the window comes back whole and unmarked. */
  lemma SnippetOfShortText(text: string, index: nat, len: nat, contextChars: nat)
    requires index + len <= |text|
    requires index <= contextChars && |text| <= index + len + contextChars
    ensures Snippet(text, index, len, contextChars) == text
  {
    assert text[0..|text|] == text;
  }

  /** A text cut on the left starts with the mark, one cut on the right ends with it. */
  lemma SnippetCutMarked(text: string, index: nat, len: nat, contextChars: nat)
    requires index + len <= |text|
    ensures index > contextChars ==> StartsWith(Snippet(text, index, len, contextChars), ELLIPSIS)
    ensures index + len + contextChars < |text| ==> EndsWith(Snippet(text, index, len, contextChars), ELLIPSIS)
  {
    var r := Snippet(text, index, len, contextChars);
    var start := if index < contextChars then 0 else index - contextChars;
    var end := if |text| < index + len + contextChars then |text| else index + len + contextChars;
    var head := if start > 0 then ELLIPSIS else "";
    var tail := if end < |text| then ELLIPSIS else "";
    assert r == head + text[start..end] + tail;
    if index > contextChars {
      StartsWithConcat(ELLIPSIS, text[start..end] + tail);
      assert ELLIPSIS + (text[start..end] + tail) == r;
    }
    if index + len + contextChars < |text| {
      EndsWithConcat(head + text[start..end], ELLIPSIS);
    }
  }

  /** `findTextContext`: the snippet around the first case-insensitive occurrence of
      the value; nothing when the value or the text is empty or the value is absent. */
  function FindTextContext(fullText: string, value: string, contextChars: nat): (r: Option<string>)
    ensures r.None? <==> value == [] || fullText == [] || IndexOfFrom(Lower(fullText), Lower(value), 0).None?
    ensures r.Some? ==> |r.value| <= |value| + 2 * contextChars + 6
    ensures r.Some? ==>
      var i := IndexOfFrom(Lower(fullText), Lower(value), 0).value;
      && i + |value| <= |fullText|
      && Lower(fullText[i..i + |value|]) == Lower(value)
      && Contains(r.value, fullText[i..i + |value|])
  {
    if value == [] || fullText == [] then None
    else match IndexOfFrom(Lower(fullText), Lower(value), 0)
      case None => None
      case Some(index) =>
        LowerSlice(fullText, index, index + |value|);
        Some(Snippet(fullText, index, |value|, contextChars))
  }
}

=== FILE: types.dfy ===
/** The application's records: fields and templates (lib/templates.ts), extraction
    results (lib/types.ts), prompt versions (lib/prompt-engineering.ts), and the
    browser's localStorage, reduced to the keys the application reads and writes. */
module Types {
  import opened Strings

  /** `FieldType`. Values read back from the model or from storage are not checked
      against the four names, so any other string survives as `OtherType`. */
  datatype FieldType = TextType | NumberType | DateType | CurrencyType | OtherType(name: string)

  /** The type name as stored and as written in `"text" | "number" | ...`. */
  function TypeName(t: FieldType): string {
    match t
    case TextType => "text"
    case NumberType => "number"
    case DateType => "date"
    case CurrencyType => "currency"
    case OtherType(n) => n
  }

  /** A type read from untyped JSON: `(raw as FieldType) || "text"`. */
  function ParseFieldType(raw: Option<string>): (t: FieldType)
    ensures raw.None? || raw.value == "" ==> t == TextType
    ensures raw.Some? && raw.value != "" ==> TypeName(t) == raw.value
  {
    if raw.None? || raw.value == "" then TextType
    else if raw.value == "text" then TextType
    else if raw.value == "number" then NumberType
    else if raw.value == "date" then DateType
    else if raw.value == "currency" then CurrencyType
    else OtherType(raw.value)
  }

  /** `formatOptions`: every member is optional in the source. */
  datatype FormatOptions = FormatOptions(
    dateFormat: Option<string>,
    currencyFormat: Option<string>,
    numberFormat: Option<string>,
    currencySymbol: Option<string>)

  const NoFormatOptions := FormatOptions(None, None, None, None)

  /** `ExtractionField`. */
  datatype Field = Field(
    id: string,
    name: string,
    key: string,
    description: string,
    required: bool,
    fieldType: FieldType,
    enabled: Option<bool>,
    formatOptions: Option<FormatOptions>)

  /** `ExtractionTemplate`; timestamps are milliseconds since the epoch. */
  datatype Template = Template(
    id: string,
    name: string,
    description: string,
    fields: seq<Field>,
    documentType: string,
    createdAt: nat,
    updatedAt: nat)

  /** A JSON value as `JSON.parse` returns it; an object keeps its members in
      order. Numbers are integers here. */
  datatype Json =
    | JNull
    | JBool(b: bool)
    | JNumber(n: int)
    | JString(s: string)
    | JArray(items: seq<Json>)
    | JObject(members: seq<(string, Json)>)

  /** `ExtractedData`: field key to extracted text. */
  type ExtractedData = map<string, string>

  /** `ValidationResult` (confidence as an integer percentage). */
  datatype ValidationResult = ValidationResult(
    isValidDocument: bool,
    confidence: int,
    warnings: seq<string>,
    detectedType: Option<string>,
    expectedType: Option<string>,
    reason: Option<string>)

  /** `ExtractionResponse`: a successful reply of the extraction endpoint. */
  datatype ExtractionResponse = ExtractionResponse(invoiceData: ExtractedData, validation: Option<ValidationResult>)

  /** `ProcessingStatus`. */
  datatype ProcessingStatus = Pending | Processing | Success | Error

  /** `ExtractionResult`: the outcome for one file of a batch. */
  datatype ExtractionResult = ExtractionResult(
    fileName: string,
    status: ProcessingStatus,
    data: Option<ExtractedData>,
    error: Option<string>,
    validation: Option<ValidationResult>)

  /** `PromptVersion`. */
  datatype PromptVersion = PromptVersion(
    version: string,
    timestamp: nat,
    templateId: string,
    prompt: string,
    enabledFields: seq<string>,
    customInstructions: Option<map<string, string>>)

  /** The three `Date.now()` readings taken by a call that stamps a template, in
      the order the source evaluates them: for the id, for `createdAt` and for
      `updatedAt`. They agree unless a millisecond passes between the readings. */
  datatype Stamps = Stamps(forId: nat, forCreated: nat, forUpdated: nat)

  /** What `localStorage.getItem` followed by `JSON.parse` yields for one key:
      nothing stored, a read or parse that throws, or a readable value. */
  datatype Slot<+T> = Missing | Unreadable | Holds(value: T)

  /** The browser's localStorage. `templates` is `invoicesplit_templates`,
      `activeId` is `invoicesplit_active_template` (a raw string, not JSON), and
      `promptHistory` maps a template id to `invoicesplit_prompt_history_<id>` and
      `trainedInstructions` maps it to `invoicesplit_trained_instructions_<id>`. */
  datatype Store = Store(
    templates: Slot<seq<Template>>,
    activeId: Slot<string>,
    promptHistory: map<string, Slot<seq<PromptVersion>>>,
    trainedInstructions: map<string, Slot<map<string, string>>>)

  /** The first element of `ts` whose id is `id`: `ts.find(t => t.id === id)`. */
  function FindById(ts: seq<Template>, id: string): (r: Option<nat>)
    ensures r.Some? ==> r.value < |ts| && ts[r.value].id == id
    ensures r.Some? ==> forall j :: 0 <= j < r.value ==> ts[j].id != id
    ensures r.None? ==> forall j :: 0 <= j < |ts| ==> ts[j].id != id
  {
    if ts == [] then None
    else if ts[0].id == id then Some(0)
    else match FindById(ts[1..], id)
      case None => None
      case Some(k) => Some(k + 1)
  }

  /** `ts.filter(t => t.id !== id)`. */
  function WithoutId(ts: seq<Template>, id: string): (r: seq<Template>)
    ensures |r| <= |ts|
    ensures forall j :: 0 <= j < |r| ==> r[j].id != id && r[j] in ts
    ensures forall t :: t in ts && t.id != id ==> t in r
    ensures (forall j :: 0 <= j < |ts| ==> ts[j].id != id) ==> r == ts
  {
    if ts == [] then []
    else if ts[0].id == id then WithoutId(ts[1..], id)
    else [ts[0]] + WithoutId(ts[1..], id)
  }
}

=== FILE: usetemplates.dfy ===
/** The `useTemplates` hook (hooks/useTemplates.ts): the in-memory template list
    and active id of the page, kept beside the store. Each action returns the new
    hook state, the new store and the boolean the hook resolves to. */
module UseTemplates {
  import opened Strings
  import opened Types
  import S = TemplateStorage

  const COPY_SUFFIX := " (Copy)"

  /** The hook's state: `templates`, `activeId` (`null` as `None`) and `isLoaded`. */
  datatype HookState = HookState(templates: seq<Template>, activeId: Option<string>, isLoaded: bool)

  /** An action's outcome. */
  datatype Step = Step(state: HookState, store: Store, ok: bool)

  /** `loadData` on mount: the stored list and active id. Both storage calls catch
      their own errors, so the hook's error branch is never taken. */
  function LoadData(store: Store): (h: HookState)
    ensures h.isLoaded
    ensures h.templates == S.LoadTemplates(store)
    ensures h.activeId == S.GetActiveTemplateId(store)
  {
    HookState(S.LoadTemplates(store), S.GetActiveTemplateId(store), true)
  }

  /** `activeTemplate`: no template without an active id (or with an empty one);
      otherwise the first template with that id, if any. */
  function ActiveTemplate(h: HookState): (r: Option<Template>)
    ensures h.activeId.None? || h.activeId.value == "" ==> r.None?
    ensures h.activeId.Some? && h.activeId.value != "" ==>
      (r.None? <==> h.activeId.value !in S.Ids(h.templates))
    ensures r.Some? ==> r.value.id == h.activeId.value && r.value in h.templates
    ensures r.Some? ==> r.value == h.templates[FindById(h.templates, h.activeId.value).value]
  {
    if h.activeId.None? || h.activeId.value == "" then None
    else match FindById(h.templates, h.activeId.value)
      case None => None
      case Some(i) => Some(h.templates[i])
  }

  /** `saveTemplate`: after the store accepts it, the template moves to the end of
      the local list, replacing any entry with its id; a failed write changes
      nothing and resolves to false. */
  function SaveTemplate(h: HookState, store: Store, t: Template, now: nat, writeError: Option<string>): (r: Step)
    ensures r.ok <==> writeError.None?
    ensures !r.ok ==> r.state == h && r.store == store
    ensures r.ok ==> r.store == S.SaveTemplate(store, t, now, writeError).value
    ensures r.ok ==> r.state.activeId == h.activeId
    ensures r.ok ==> |r.state.templates| >= 1 && r.state.templates[|r.state.templates| - 1] == t
    ensures r.ok ==> r.state.templates[..|r.state.templates| - 1] == WithoutId(h.templates, t.id)
  {
    match S.SaveTemplate(store, t, now, writeError)
    case Err(_) => Step(h, store, false)
    case Ok(saved) =>
      var local := WithoutId(h.templates, t.id) + [t];
      assert local[..|local| - 1] == WithoutId(h.templates, t.id);
      Step(h.(templates := local), saved, true)
  }

  /** After a save the local list holds the template's id exactly once, and when
      the local list had the stored ids before, it still has them after: local
      state and store agree on which templates exist, though not on their order. */
  lemma SaveKeepsListInStep(h: HookState, store: Store, t: Template, now: nat)
    requires S.DistinctIds(S.LoadTemplates(store))
    ensures var r := SaveTemplate(h, store, t, now, None);
      && (forall j :: 0 <= j < |r.state.templates| - 1 ==> r.state.templates[j].id != t.id)
      && (S.Ids(h.templates) == S.Ids(S.LoadTemplates(store)) ==>
            S.Ids(r.state.templates) == S.Ids(S.LoadTemplates(r.store)))
  {
    var r := SaveTemplate(h, store, t, now, None);
    assert r.state.templates == WithoutId(h.templates, t.id) + [t];
    S.UpsertKeepsIdsDistinct(S.LoadTemplates(store), t, now);
    IdsAfterMove(h.templates, t);
  }

  /** Dropping `t`'s id and appending `t` adds its id to the id set. */
  lemma IdsAfterMove(ts: seq<Template>, t: Template)
    ensures S.Ids(WithoutId(ts, t.id) + [t]) == S.Ids(ts) + {t.id}
  {
    var rest := WithoutId(ts, t.id);
    var local := rest + [t];
    forall x | x in S.Ids(local) ensures x in S.Ids(ts) + {t.id} {
      var i :| 0 <= i < |local| && local[i].id == x;
      if i < |rest| {
        assert local[i] == rest[i];
        var k :| 0 <= k < |ts| && ts[k] == rest[i];
      }
    }
    forall x | x in S.Ids(ts) + {t.id} ensures x in S.Ids(local) {
      if x == t.id {
        assert local[|local| - 1].id == x;
      } else {
        var k :| 0 <= k < |ts| && ts[k].id == x;
        assert ts[k] in rest;
        var i :| 0 <= i < |rest| && rest[i] == ts[k];
        assert local[i] == rest[i];
      }
    }
  }

  /** `setActiveTemplate`: a non-empty id is written to the store; the local id is
      set in every case. Writing cannot fail from the hook's side, since the store
      swallows its own errors. */
  function SetActiveTemplate(h: HookState, store: Store, id: Option<string>, writeError: Option<string>): (r: Step)
    ensures r.ok && r.state == h.(activeId := id)
    ensures id.None? || id.value == "" ==> r.store == store
    ensures id.Some? && id.value != "" ==> r.store == S.SetActiveTemplateId(store, id.value, writeError)
  {
    if id.Some? && id.value != "" then Step(h.(activeId := id), S.SetActiveTemplateId(store, id.value, writeError), true)
    else Step(h.(activeId := id), store, true)
  }

  /** An active id that was written survives a reload. */
  lemma ActiveSurvivesReload(h: HookState, store: Store, id: string)
    requires id != ""
    ensures LoadData(SetActiveTemplate(h, store, Some(id), None).store).activeId == Some(id)
  {
    S.SetThenGetActive(store, id);
  }

  /** `deleteTemplate`: after the store drops the id, the local list drops it too
      and a deleted active template stops being active (without a store write).
      The built-in template and failed writes change nothing. */
  function DeleteTemplate(h: HookState, store: Store, id: string, writeError: Option<string>): (r: Step)
    ensures r.ok <==> id != S.DEFAULT_ID && writeError.None?
    ensures !r.ok ==> r.state == h && r.store == store
    ensures r.ok ==> r.store == S.DeleteTemplate(store, id, writeError).value
    ensures r.ok ==> r.state.templates == WithoutId(h.templates, id)
    ensures r.ok && h.activeId == Some(id) ==> r.state.activeId.None?
    ensures r.ok && h.activeId != Some(id) ==> r.state.activeId == h.activeId
  {
    match S.DeleteTemplate(store, id, writeError)
    case Err(_) => Step(h, store, false)
    case Ok(after) =>
      var h' := h.(templates := WithoutId(h.templates, id));
      if h.activeId == Some(id) then
        var cleared := SetActiveTemplate(h', after, None, writeError);
        Step(cleared.state, cleared.store, true)
      else Step(h', after, true)
  }

  /** Deleting the active template clears only the local id: the store keeps
      naming it, yet after a reload no template is active, since the id is gone
      from the stored list. */
  lemma DeletedActiveStaysGone(h: HookState, store: Store, id: string)
    requires id != S.DEFAULT_ID && h.activeId == Some(id)
    requires store.activeId == Holds(id)
    ensures var r := DeleteTemplate(h, store, id, None);
      && LoadData(r.store).activeId == Some(id)
      && ActiveTemplate(LoadData(r.store)).None?
  {
    S.DeleteRemovesId(store, id);
  }

  /** `duplicateTemplate`: nothing for an unknown id; otherwise a copy of the
      first template with that id under a new id and a name marked as a copy,
      stamped with the clock readings `clock`. The list itself is not changed. */
  function DuplicateTemplate(h: HookState, templateId: string, clock: Stamps): (r: Option<Template>)
    ensures r.None? <==> templateId !in S.Ids(h.templates)
    ensures r.Some? ==> var original := h.templates[FindById(h.templates, templateId).value];
      && r.value.fields == original.fields
      && r.value.description == original.description
      && r.value.documentType == original.documentType
      && r.value.name == original.name + COPY_SUFFIX
      && r.value.id == "template-" + NatToString(clock.forId)
      && r.value.createdAt == clock.forCreated && r.value.updatedAt == clock.forUpdated
  {
    match FindById(h.templates, templateId)
    case None => None
    case Some(i) =>
      var t := h.templates[i];
      Some(t.(id := "template-" + NatToString(clock.forId), name := t.name + COPY_SUFFIX,
              createdAt := clock.forCreated, updatedAt := clock.forUpdated))
  }

  /** Saving a duplicate whose new id is free appends it to the stored list and
      keeps the original. */
  lemma DuplicateThenSave(h: HookState, store: Store, templateId: string, clock: Stamps, now: nat)
    requires templateId in S.Ids(h.templates)
    requires "template-" + NatToString(clock.forId) !in S.Ids(S.LoadTemplates(store))
    ensures var copy := DuplicateTemplate(h, templateId, clock).value;
      var before := S.LoadTemplates(store);
      var after := S.LoadTemplates(SaveTemplate(h, store, copy, now, None).store);
      && |after| == |before| + 1
      && after[..|before|] == before
      && after[|before|] == copy
  {
    var copy := DuplicateTemplate(h, templateId, clock).value;
    var before := S.LoadTemplates(store);
    assert FindById(before, copy.id).None?;
    assert (before + [copy])[..|before|] == before;
  }
}

=== FILE: wizard.dfy ===
/** The state changes of the discovery wizard (components/DiscoveryWizard.tsx):
    picking sample files, starting discovery, merging what the server found with
    the profile being edited, editing the field list, and saving it as a template.
    The browser's `alert`, `Date.now()` and the `fetch` itself are parameters. */
module DiscoveryWizard {
  import opened Strings
  import opened Types
  import opened Discovery

  const MAX_SAMPLE_FILES := 100
  const PDF_MIME_TYPE := "application/pdf"
  const NO_INTENT_ALERT := "Please describe what you want to extract"
  const NO_ENABLED_ALERT := "Please enable at least one field"
  const DISCOVERY_FAILED := "Discovery failed"
  const DEFAULT_DATE_FORMAT := "YYYY-MM-DD"
  const DEFAULT_CURRENCY_FORMAT := "decimal"
  const DEFAULT_NUMBER_FORMAT := "plain"
  const CUSTOM_EXTRACTION := "Custom Extraction"
  const DEFAULT_DOCUMENT_TYPE := "document"
  const INTENT_NAME_LENGTH := 50
  /** Confidence shown for the fields of a profile opened for editing. */
  const EDIT_CONFIDENCE := 90
  /** Confidence of an existing field that discovery did not find again. */
  const MERGE_CONFIDENCE := 50

  /** The wizard's own `DiscoveredField`: the server's record plus the user's
      choices. The optional members are `None` when absent. */
  datatype WizardField = WizardField(
    suggestedName: string,
    suggestedKey: string,
    suggestedType: FieldType,
    foundInSamples: int,
    sampleValues: seq<Labelled>,
    confidence: int,
    suggestedDescription: string,
    enabled: bool,
    extractionHint: Option<string>,
    formatRule: Option<string>,
    dateFormat: Option<string>,
    currencyFormat: Option<string>,
    numberFormat: Option<string>,
    currencySymbol: Option<string>)

  /** A file from the file picker. */
  datatype PickedFile = PickedFile(name: string, mimeType: string)

  // ---------------------------------------------------------------------------
  // Opening the wizard

  /** `existingTemplate?.name || existingTemplate?.description || ""`. */
  function InitialIntent(existing: Option<Template>): (r: string)
    ensures existing.None? ==> r == ""
    ensures existing.Some? && existing.value.name != "" ==> r == existing.value.name
    ensures existing.Some? && existing.value.name == "" ==> r == existing.value.description
  {
    if existing.None? then ""
    else if existing.value.name != "" then existing.value.name
    else existing.value.description
  }

  /** `f.formatOptions`, with a missing record read as one without members. */
  function OptionsOf(f: Field): FormatOptions {
    if f.formatOptions.Some? then f.formatOptions.value else NoFormatOptions
  }

  /** The wizard field for a field of the profile being edited: its name, key,
      type and description, its enabled flag (`?? true`), and its formats with the
      defaults for the empty ones; no sample data yet. */
  function EditModeField(f: Field): (w: WizardField)
    ensures w.suggestedName == f.name && w.suggestedKey == f.key
    ensures w.suggestedType == f.fieldType && w.suggestedDescription == f.description
    ensures w.enabled <==> f.enabled != Some(false)
    ensures w.foundInSamples == 0 && w.sampleValues == [] && w.confidence == EDIT_CONFIDENCE
    ensures w.dateFormat.Some? && w.currencyFormat.Some? && w.numberFormat.Some?
    ensures w.dateFormat.value != "" && w.currencyFormat.value != "" && w.numberFormat.value != ""
    ensures w.currencySymbol == OptionsOf(f).currencySymbol
    ensures w.extractionHint == Some("") && w.formatRule == Some("")
    ensures OptionsOf(f).dateFormat.Some? && OptionsOf(f).dateFormat.value != "" ==>
      w.dateFormat == OptionsOf(f).dateFormat
    ensures OptionsOf(f).dateFormat.None? || OptionsOf(f).dateFormat == Some("") ==>
      w.dateFormat == Some(DEFAULT_DATE_FORMAT)
    ensures OptionsOf(f).currencyFormat.Some? && OptionsOf(f).currencyFormat.value != "" ==>
      w.currencyFormat == OptionsOf(f).currencyFormat
    ensures OptionsOf(f).currencyFormat.None? || OptionsOf(f).currencyFormat == Some("") ==>
      w.currencyFormat == Some(DEFAULT_CURRENCY_FORMAT)
    ensures OptionsOf(f).numberFormat.Some? && OptionsOf(f).numberFormat.value != "" ==>
      w.numberFormat == OptionsOf(f).numberFormat
    ensures OptionsOf(f).numberFormat.None? || OptionsOf(f).numberFormat == Some("") ==>
      w.numberFormat == Some(DEFAULT_NUMBER_FORMAT)
  {
    var fo := OptionsOf(f);
    WizardField(f.name, f.key, f.fieldType, 0, [], EDIT_CONFIDENCE, f.description,
      if f.enabled.Some? then f.enabled.value else true,
      Some(""), Some(""),
      Some(StringOr(fo.dateFormat, DEFAULT_DATE_FORMAT)),
      Some(StringOr(fo.currencyFormat, DEFAULT_CURRENCY_FORMAT)),
      Some(StringOr(fo.numberFormat, DEFAULT_NUMBER_FORMAT)),
      fo.currencySymbol)
  }

  /** The initial field list: every field of the profile being edited, enabled or
      not, or nothing for a new discovery. */
  function InitialFields(existing: Option<Template>): (r: seq<WizardField>)
    ensures existing.None? ==> r == []
    ensures existing.Some? ==> (|r| == |existing.value.fields|
      && forall i :: 0 <= i < |r| ==> r[i] == EditModeField(existing.value.fields[i]))
  {
    if existing.None? then []
    else
      var fs := existing.value.fields;
      seq(|fs|, i requires 0 <= i < |fs| => EditModeField(fs[i]))
  }

  // ---------------------------------------------------------------------------
  // Sample files

  /** `Array.from(files).filter(f => f.type === "application/pdf")`. */
  function PdfsOnly(files: seq<PickedFile>): (r: seq<PickedFile>)
    ensures |r| <= |files|
    ensures forall j :: 0 <= j < |r| ==> r[j].mimeType == PDF_MIME_TYPE
    ensures forall f :: f in r <==> f in files && f.mimeType == PDF_MIME_TYPE
  {
    if files == [] then []
    else if files[0].mimeType == PDF_MIME_TYPE then [files[0]] + PdfsOnly(files[1..])
    else PdfsOnly(files[1..])
  }

  /** `handleFilesSelected`: nothing happens without a selection; otherwise the
      selected PDFs are appended and the list is cut to its first 100 files. */
  function HandleFilesSelected(current: seq<PickedFile>, selected: Option<seq<PickedFile>>): (r: seq<PickedFile>)
    ensures selected.None? ==> r == current
    ensures selected.Some? ==> |r| <= MAX_SAMPLE_FILES
    ensures selected.Some? ==>
      |r| == if |current| + |PdfsOnly(selected.value)| < MAX_SAMPLE_FILES
             then |current| + |PdfsOnly(selected.value)| else MAX_SAMPLE_FILES
    ensures selected.Some? ==> r == (current + PdfsOnly(selected.value))[..|r|]
  {
    if selected.None? then current
    else
      var all := current + PdfsOnly(selected.value);
      if |all| <= MAX_SAMPLE_FILES then all else all[..MAX_SAMPLE_FILES]
  }

  /** A selection never drops files already chosen while there is room for them,
      and adds only PDFs. */
  lemma SelectionKeepsEarlierFiles(current: seq<PickedFile>, selected: seq<PickedFile>)
    requires |current| <= MAX_SAMPLE_FILES
    ensures var r := HandleFilesSelected(current, Some(selected));
      && r[..|current|] == current
      && forall j :: |current| <= j < |r| ==> r[j] in selected && r[j].mimeType == PDF_MIME_TYPE
  {
    var r := HandleFilesSelected(current, Some(selected));
    var all := current + PdfsOnly(selected);
    assert r == all[..|r|];
    forall j | |current| <= j < |r| ensures r[j] in selected && r[j].mimeType == PDF_MIME_TYPE {
      assert r[j] == PdfsOnly(selected)[j - |current|];
    }
  }

  /** `removeFile`: the file at `index` goes, the others keep their order; an
      index outside the list removes nothing. */
  function RemoveFile(files: seq<PickedFile>, index: int): (r: seq<PickedFile>)
    ensures 0 <= index < |files| ==> |r| == |files| - 1
  {
    if 0 <= index < |files| then
      WithoutIndexSplice(files, index, 0);
      WithoutIndex(files, index, 0)
    else WithoutIndex(files, index, 0)
  }

  /** Removing a file leaves the others in order, and an out-of-range index
      changes nothing. */
  lemma RemoveFileSplices(files: seq<PickedFile>, index: int)
    ensures 0 <= index < |files| ==> RemoveFile(files, index) == files[..index] + files[index + 1..]
    ensures 0 <= index < |files| ==> multiset(RemoveFile(files, index)) + multiset{files[index]} == multiset(files)
    ensures !(0 <= index < |files|) ==> RemoveFile(files, index) == files
  {
    if 0 <= index < |files| {
      WithoutIndexSplice(files, index, 0);
      assert files == files[..index] + [files[index]] + files[index + 1..];
    } else {
      WithoutIndexOutside(files, index, 0);
    }
  }

  // ---------------------------------------------------------------------------
  // Discovery

  /** How `startDiscovery` ends: an alert before any request (the step stays
      "intent"), an alert after a failed request (the step goes back to "intent"),
      or the review step with the field list and the sample texts. */
  datatype Start =
    | Refused(alert: string)
    | Failed(alert: string)
    | Review(fields: seq<WizardField>, sampleTexts: seq<Labelled>)

  /** The first discovered field whose key is the field's key or whose name is its
      name: `result.discoveredFields.find(...)`. */
  function Rediscovered(found: seq<DiscoveredField>, f: Field): (r: Option<nat>)
    ensures r.Some? ==> (r.value < |found|
      && (found[r.value].suggestedKey == f.key || found[r.value].suggestedName == f.name))
    ensures r.Some? ==> forall j :: 0 <= j < r.value ==>
      found[j].suggestedKey != f.key && found[j].suggestedName != f.name
    ensures r.None? ==> forall j :: 0 <= j < |found| ==>
      found[j].suggestedKey != f.key && found[j].suggestedName != f.name
  {
    if found == [] then None
    else if found[0].suggestedKey == f.key || found[0].suggestedName == f.name then Some(0)
    else match Rediscovered(found[1..], f)
      case None => None
      case Some(k) => Some(k + 1)
  }

  /** A field of the edited profile after a new discovery: its own name, key, type,
      description and formats, the counts and samples of its rediscovered
      counterpart (a zero confidence or no counterpart gives 50), and enabled. */
  function MergeField(found: seq<DiscoveredField>, f: Field): (w: WizardField)
    ensures w.suggestedName == f.name && w.suggestedKey == f.key
    ensures w.suggestedType == f.fieldType && w.suggestedDescription == f.description
    ensures w.enabled
    ensures Rediscovered(found, f).None? ==>
      w.foundInSamples == 0 && w.sampleValues == [] && w.confidence == MERGE_CONFIDENCE
    ensures Rediscovered(found, f).Some? ==>
      var d := found[Rediscovered(found, f).value];
      && w.foundInSamples == d.foundInSamples && w.sampleValues == d.sampleValues
      && w.confidence == (if d.confidence == 0 then MERGE_CONFIDENCE else d.confidence)
    ensures w.dateFormat == OptionsOf(f).dateFormat && w.currencyFormat == OptionsOf(f).currencyFormat
    ensures w.numberFormat == OptionsOf(f).numberFormat && w.currencySymbol == OptionsOf(f).currencySymbol
  {
    var fo := OptionsOf(f);
    var r := Rediscovered(found, f);
    WizardField(f.name, f.key, f.fieldType,
      if r.Some? then found[r.value].foundInSamples else 0,
      if r.Some? then found[r.value].sampleValues else [],
      if r.Some? && found[r.value].confidence != 0 then found[r.value].confidence else MERGE_CONFIDENCE,
      f.description, true, Some(""), Some(""),
      fo.dateFormat, fo.currencyFormat, fo.numberFormat, fo.currencySymbol)
  }

  /** A newly discovered field with everything enabled and the default formats. */
  function FreshField(d: DiscoveredField): (w: WizardField)
    ensures w.suggestedName == d.suggestedName && w.suggestedKey == d.suggestedKey
    ensures w.suggestedType == d.suggestedType && w.suggestedDescription == d.suggestedDescription
    ensures w.foundInSamples == d.foundInSamples && w.sampleValues == d.sampleValues
    ensures w.confidence == d.confidence && w.enabled
    ensures w.dateFormat == Some(DEFAULT_DATE_FORMAT) && w.currencyFormat == Some(DEFAULT_CURRENCY_FORMAT)
    ensures w.numberFormat == Some(DEFAULT_NUMBER_FORMAT) && w.currencySymbol.None?
  {
    WizardField(d.suggestedName, d.suggestedKey, d.suggestedType, d.foundInSamples, d.sampleValues,
      d.confidence, d.suggestedDescription, true, Some(""), Some(""),
      Some(DEFAULT_DATE_FORMAT), Some(DEFAULT_CURRENCY_FORMAT), Some(DEFAULT_NUMBER_FORMAT), None)
  }

  /** The field list after a successful discovery: the edited profile's fields,
      each merged with what was found (fields found only now are dropped), or the
      fields found, for a new profile. */
  function DiscoveredFields(existing: Option<Template>, found: seq<DiscoveredField>): (r: seq<WizardField>)
    ensures existing.Some? ==> (|r| == |existing.value.fields|
      && forall i :: 0 <= i < |r| ==> r[i] == MergeField(found, existing.value.fields[i]))
    ensures existing.None? ==> (|r| == |found|
      && forall i :: 0 <= i < |r| ==> r[i] == FreshField(found[i]))
  {
    if existing.Some? then
      seq(|existing.value.fields|, i requires 0 <= i < |existing.value.fields| =>
        MergeField(found, existing.value.fields[i]))
    else seq(|found|, i requires 0 <= i < |found| => FreshField(found[i]))
  }

  /** `startDiscovery`. `response` is what the discovery endpoint answers to the
      request it sends. A blank description or fewer than two files stop it
      before any request; an error response is shown with the server's message
      ("Discovery failed" when it has none). */
  function StartDiscovery(intent: string, files: seq<PickedFile>, existing: Option<Template>,
                          response: Response): (r: Start)
    ensures r.Refused? <==> IsBlank(intent) || |files| < MIN_FILES
    ensures IsBlank(intent) ==> r == Refused(NO_INTENT_ALERT)
    ensures !IsBlank(intent) && |files| < MIN_FILES ==> r == Refused(TOO_FEW_FILES)
    ensures !r.Refused? ==> (r.Failed? <==> response.Failure?)
    ensures r.Failed? ==> r.alert != ""
    ensures r.Failed? && response.error != "" ==> r.alert == response.error
    ensures r.Review? ==> (r.sampleTexts == response.sampleTexts
      && r.fields == DiscoveredFields(existing, response.discoveredFields))
  {
    if IsBlank(intent) then Refused(NO_INTENT_ALERT)
    else if |files| < MIN_FILES then Refused(TOO_FEW_FILES)
    else match response
      case Failure(_, error, _) => Failed(if error != "" then error else DISCOVERY_FAILED)
      case Discovered(found, _, _, texts) => Review(DiscoveredFields(existing, found), texts)
  }

  /** A request the wizard lets through never meets the endpoint's description or
      file-count checks: the only answer with status 400 it can get is the one for
      samples without readable text. */
  lemma WizardRequestsPassServerChecks(intent: string, picked: seq<PickedFile>, existing: Option<Template>,
                                       uploads: seq<UploadedFile>,
                                       complete: string -> Result<string>, parse: string -> Parsed)
    requires |picked| <= MAX_SAMPLE_FILES && |uploads| == |picked|
    requires var x := Discover(intent, uploads, complete, parse);
      !StartDiscovery(intent, picked, existing, x.response).Refused?
    ensures var x := Discover(intent, uploads, complete, parse);
      x.response.Failure? && x.response.status == 400 ==> x.response.error == NO_TEXT
  {
    if Analysed(uploads) != [] {
      DiscoverOutcome(intent, uploads, complete, parse);
    }
  }

  // ---------------------------------------------------------------------------
  // Reviewing

  /** `setCurrentSampleIndex(Math.max(0, currentSampleIndex - 1))`. */
  function PreviousSample(index: int): (r: int)
    ensures r >= 0
    ensures index > 0 ==> r == index - 1
    ensures index <= 0 ==> r == 0
  {
    if index - 1 > 0 then index - 1 else 0
  }

  /** `setCurrentSampleIndex(Math.min(sampleTexts.length - 1, currentSampleIndex + 1))`. */
  function NextSample(index: int, count: nat): (r: int)
    ensures r <= count - 1 && r <= index + 1
    ensures r == count - 1 || r == index + 1
  {
    if count - 1 < index + 1 then count - 1 else index + 1
  }

  /** Paging through the samples never leaves the list, and "previous" undoes a
      "next" that moved. */
  lemma SampleNavigationStaysInRange(index: int, count: nat)
    requires 0 <= index < count
    ensures 0 <= PreviousSample(index) < count && 0 <= NextSample(index, count) < count
    ensures index + 1 < count ==> PreviousSample(NextSample(index, count)) == index
    ensures index + 1 == count ==> NextSample(index, count) == index
  {
  }

  /** `toggleField`: flips one field's enabled flag. */
  function ToggleField(fields: seq<WizardField>, index: nat): (r: seq<WizardField>)
    requires index < |fields|
    ensures |r| == |fields|
    ensures r[index].enabled == !fields[index].enabled
    ensures r[index].(enabled := fields[index].enabled) == fields[index]
    ensures forall j :: 0 <= j < |r| && j != index ==> r[j] == fields[j]
  {
    fields[index := fields[index].(enabled := !fields[index].enabled)]
  }

  /** Toggling the same field twice restores the list. */
  lemma ToggleTwice(fields: seq<WizardField>, index: nat)
    requires index < |fields|
    ensures ToggleField(ToggleField(fields, index), index) == fields
  {
    var once := ToggleField(fields, index);
    var twice := ToggleField(once, index);
    assert twice[index] == fields[index];
    assert forall j :: 0 <= j < |fields| ==> twice[j] == fields[j];
  }

  /** The edits the review screen makes through `updateField`, one per input. */
  datatype Edit =
    | Rename(name: string)
    | Retype(fieldType: FieldType)
    | Describe(description: string)
    | Hint(hint: string)
    | RuleText(rule: string)
    | SetDateFormat(dateFormat: string)
    | SetCurrencyFormat(currencyFormat: string)
    | SetCurrencySymbol(symbol: string)
    | SetNumberFormat(numberFormat: string)

  /** `{ ...field, ...updates }` for one edit. */
  function Apply(w: WizardField, e: Edit): WizardField {
    match e
    case Rename(n) => w.(suggestedName := n)
    case Retype(t) => w.(suggestedType := t)
    case Describe(d) => w.(suggestedDescription := d)
    case Hint(h) => w.(extractionHint := Some(h))
    case RuleText(f) => w.(formatRule := Some(f))
    case SetDateFormat(f) => w.(dateFormat := Some(f))
    case SetCurrencyFormat(f) => w.(currencyFormat := Some(f))
    case SetCurrencySymbol(s) => w.(currencySymbol := Some(s))
    case SetNumberFormat(f) => w.(numberFormat := Some(f))
  }

  /** `updateField`: one field changes in the edited member only. Renaming does
      not touch the key, and neither the samples nor the enabled flag change. */
  function UpdateField(fields: seq<WizardField>, index: nat, e: Edit): (r: seq<WizardField>)
    requires index < |fields|
    ensures |r| == |fields|
    ensures forall j :: 0 <= j < |r| && j != index ==> r[j] == fields[j]
    ensures r[index].suggestedKey == fields[index].suggestedKey
    ensures r[index].enabled == fields[index].enabled
    ensures r[index].foundInSamples == fields[index].foundInSamples
    ensures r[index].sampleValues == fields[index].sampleValues
    ensures e.Rename? ==> r[index].suggestedName == e.name
    ensures !e.Rename? ==> r[index].suggestedName == fields[index].suggestedName
    ensures e.Retype? ==> r[index].suggestedType == e.fieldType
    ensures !e.Retype? ==> r[index].suggestedType == fields[index].suggestedType
    ensures e.Describe? ==> r[index].suggestedDescription == e.description
    ensures !e.Describe? ==> r[index].suggestedDescription == fields[index].suggestedDescription
    ensures r[index].confidence == fields[index].confidence
    ensures e.Hint? ==> r[index].extractionHint == Some(e.hint)
    ensures !e.Hint? ==> r[index].extractionHint == fields[index].extractionHint
    ensures e.RuleText? ==> r[index].formatRule == Some(e.rule)
    ensures !e.RuleText? ==> r[index].formatRule == fields[index].formatRule
    ensures e.SetDateFormat? ==> r[index].dateFormat == Some(e.dateFormat)
    ensures !e.SetDateFormat? ==> r[index].dateFormat == fields[index].dateFormat
    ensures e.SetCurrencyFormat? ==> r[index].currencyFormat == Some(e.currencyFormat)
    ensures !e.SetCurrencyFormat? ==> r[index].currencyFormat == fields[index].currencyFormat
    ensures e.SetCurrencySymbol? ==> r[index].currencySymbol == Some(e.symbol)
    ensures !e.SetCurrencySymbol? ==> r[index].currencySymbol == fields[index].currencySymbol
    ensures e.SetNumberFormat? ==> r[index].numberFormat == Some(e.numberFormat)
    ensures !e.SetNumberFormat? ==> r[index].numberFormat == fields[index].numberFormat
  {
    fields[index := Apply(fields[index], e)]
  }

  /** Repeating an edit changes nothing more. */
  lemma UpdateIdempotent(fields: seq<WizardField>, index: nat, e: Edit)
    requires index < |fields|
    ensures UpdateField(UpdateField(fields, index, e), index, e) == UpdateField(fields, index, e)
  {
  }

  /** Edits of different fields, or of different members of one field, commute. */
  lemma UpdatesCommute(fields: seq<WizardField>, i: nat, e: Edit, j: nat, d: Edit)
    requires i < |fields| && j < |fields|
    requires i != j || Member(e) != Member(d)
    ensures UpdateField(UpdateField(fields, i, e), j, d) == UpdateField(UpdateField(fields, j, d), i, e)
  {
  }

  /** Which member an edit writes, numbered in declaration order. */
  function Member(e: Edit): nat {
    match e
    case Rename(_) => 0
    case Retype(_) => 1
    case Describe(_) => 2
    case Hint(_) => 3
    case RuleText(_) => 4
    case SetDateFormat(_) => 5
    case SetCurrencyFormat(_) => 6
    case SetCurrencySymbol(_) => 7
    case SetNumberFormat(_) => 8
  }

  // ---------------------------------------------------------------------------
  // Saving

  function CountEnabled(fields: seq<WizardField>): (n: nat)
    ensures n <= |fields|
    ensures n == 0 <==> forall j :: 0 <= j < |fields| ==> !fields[j].enabled
  {
    if fields == [] then 0 else (if fields[0].enabled then 1 else 0) + CountEnabled(fields[1..])
  }

  /** The description of a saved field: the description, then the hint after a
      space when there is one. */
  function SavedDescription(w: WizardField): (d: string)
    ensures w.extractionHint.None? || w.extractionHint.value == "" ==> d == w.suggestedDescription
    ensures w.extractionHint.Some? && w.extractionHint.value != "" ==>
      d == w.suggestedDescription + " " + w.extractionHint.value
  {
    if w.extractionHint.Some? && w.extractionHint.value != ""
    then w.suggestedDescription + " " + w.extractionHint.value
    else w.suggestedDescription
  }

  /** `existingTemplate?.fields[i]?.id`, as an optional string. */
  function ExistingFieldId(existing: Option<Template>, i: nat): Option<string> {
    if existing.Some? && i < |existing.value.fields| then Some(existing.value.fields[i].id) else None
  }

  /** The template field saved for wizard field `i`. A field counts as required
      when it was found in every sample. */
  function SavedField(existing: Option<Template>, w: WizardField, i: nat, sampleCount: nat): (f: Field)
    ensures f.name == w.suggestedName && f.key == w.suggestedKey && f.fieldType == w.suggestedType
    ensures f.enabled == Some(w.enabled)
    ensures f.required <==> w.foundInSamples == sampleCount
    ensures f.description == SavedDescription(w)
    ensures f.formatOptions == Some(FormatOptions(w.dateFormat, w.currencyFormat, w.numberFormat, w.currencySymbol))
    ensures f.id != ""
    ensures ExistingFieldId(existing, i).Some? && ExistingFieldId(existing, i).value != "" ==>
      f.id == ExistingFieldId(existing, i).value
  {
    Field(StringOr(ExistingFieldId(existing, i), "field-" + NatToString(i)),
      w.suggestedName, w.suggestedKey, SavedDescription(w), w.foundInSamples == sampleCount,
      w.suggestedType, Some(w.enabled),
      Some(FormatOptions(w.dateFormat, w.currencyFormat, w.numberFormat, w.currencySymbol)))
  }

  /** `Discovered N fields (E enabled) from S samples`. */
  function SummaryText(fieldCount: nat, enabledCount: nat, sampleCount: nat): string {
    "Discovered " + NatToString(fieldCount) + " fields (" + NatToString(enabledCount)
    + " enabled) from " + NatToString(sampleCount) + " samples"
  }

  /** `saveAsTemplate`, with the clock readings `clock`: refused while no field is
      enabled; otherwise
      every field, enabled or not, is saved. An edited profile keeps its id, name,
      description, document type and creation time (each unless empty or zero); a
      new one is named after the first 50 characters of the description typed in. */
  function SaveAsTemplate(fields: seq<WizardField>, existing: Option<Template>, intent: string,
                          sampleCount: nat, clock: Stamps): (r: Result<Template>)
    ensures r.Err? <==> forall j :: 0 <= j < |fields| ==> !fields[j].enabled
    ensures r.Err? ==> r.message == NO_ENABLED_ALERT
    ensures r.Ok? ==> |r.value.fields| == |fields| && r.value.updatedAt == clock.forUpdated
    ensures r.Ok? ==> forall i :: 0 <= i < |fields| ==>
      r.value.fields[i] == SavedField(existing, fields[i], i, sampleCount)
    ensures r.Ok? && existing.Some? && existing.value.id != "" ==> r.value.id == existing.value.id
    ensures r.Ok? && (existing.None? || existing.value.id == "") ==>
      r.value.id == "profile-" + NatToString(clock.forId)
    ensures r.Ok? && existing.Some? && existing.value.name != "" ==> r.value.name == existing.value.name
    ensures r.Ok? && existing.Some? && existing.value.createdAt != 0 ==> r.value.createdAt == existing.value.createdAt
    ensures r.Ok? && (existing.None? || existing.value.createdAt == 0) ==> r.value.createdAt == clock.forCreated
    ensures r.Ok? && (existing.None? || existing.value.name == "") ==>
      r.value.name == (if intent != "" then Prefix(intent, INTENT_NAME_LENGTH) else CUSTOM_EXTRACTION)
    ensures r.Ok? ==> r.value.id != "" && r.value.name != "" && r.value.documentType != ""
    ensures r.Ok? && existing.Some? && existing.value.description != "" ==>
      r.value.description == existing.value.description
    ensures r.Ok? && (existing.None? || existing.value.description == "") ==>
      r.value.description == SummaryText(|fields|, CountEnabled(fields), sampleCount)
    ensures r.Ok? && existing.Some? && existing.value.documentType != "" ==>
      r.value.documentType == existing.value.documentType
    ensures r.Ok? && (existing.None? || existing.value.documentType == "") ==>
      r.value.documentType == DEFAULT_DOCUMENT_TYPE
  {
    var enabled := CountEnabled(fields);
    if enabled == 0 then Err(NO_ENABLED_ALERT)
    else
      var e := if existing.Some? then Some(existing.value) else None;
      var id := StringOr(if e.Some? then Some(e.value.id) else None, "profile-" + NatToString(clock.forId));
      var name := StringOr(if e.Some? then Some(e.value.name) else None,
                           StringOr(Some(Prefix(intent, INTENT_NAME_LENGTH)), CUSTOM_EXTRACTION));
      var description := StringOr(if e.Some? then Some(e.value.description) else None,
                                  SummaryText(|fields|, enabled, sampleCount));
      var documentType := StringOr(if e.Some? then Some(e.value.documentType) else None, DEFAULT_DOCUMENT_TYPE);
      var saved := seq(|fields|, i requires 0 <= i < |fields| => SavedField(existing, fields[i], i, sampleCount));
      var createdAt := if e.Some? && e.value.createdAt != 0 then e.value.createdAt else clock.forCreated;
      Ok(Template(id, name, description, saved, documentType, createdAt, clock.forUpdated))
  }

  /** Saving and opening the saved profile again gives back each field's name,
      key, type, enabled flag and set formats, and its description when no hint
      was added. */
  lemma SaveThenReopen(fields: seq<WizardField>, existing: Option<Template>, intent: string,
                       sampleCount: nat, clock: Stamps)
    requires SaveAsTemplate(fields, existing, intent, sampleCount, clock).Ok?
    ensures var t := SaveAsTemplate(fields, existing, intent, sampleCount, clock).value;
      var again := InitialFields(Some(t));
      && |again| == |fields|
      && forall i :: 0 <= i < |fields| ==>
        && again[i].suggestedName == fields[i].suggestedName
        && again[i].suggestedKey == fields[i].suggestedKey
        && again[i].suggestedType == fields[i].suggestedType
        && again[i].enabled == fields[i].enabled
        && (fields[i].extractionHint.None? || fields[i].extractionHint.value == "" ==>
              again[i].suggestedDescription == fields[i].suggestedDescription)
        && (fields[i].dateFormat.Some? && fields[i].dateFormat.value != "" ==>
              again[i].dateFormat == fields[i].dateFormat)
        && again[i].currencySymbol == fields[i].currencySymbol
  {
    var t := SaveAsTemplate(fields, existing, intent, sampleCount, clock).value;
    forall i | 0 <= i < |fields|
      ensures OptionsOf(t.fields[i]) == FormatOptions(fields[i].dateFormat, fields[i].currencyFormat,
                                                      fields[i].numberFormat, fields[i].currencySymbol)
    {
      assert t.fields[i] == SavedField(existing, fields[i], i, sampleCount);
    }
  }

  /** A new profile saved from a short description opens with that description
      as its intent. */
  lemma IntentSurvivesSave(fields: seq<WizardField>, intent: string, sampleCount: nat, clock: Stamps)
    requires intent != [] && |intent| <= INTENT_NAME_LENGTH
    requires SaveAsTemplate(fields, None, intent, sampleCount, clock).Ok?
    ensures InitialIntent(Some(SaveAsTemplate(fields, None, intent, sampleCount, clock).value)) == intent
  {
  }
}
